=== FILE: README.md ===
# A model of the travel app's route handlers and client state

This project models the logic of a Next.js social travel app. It has two parts.

**The server.** The database is an immutable `Store` record of sequence
tables:
- users, trips, trip memberships, posts, comments and likes;
- friend requests, friend edges, rewards and stored suggestions.

A trip membership is keyed by the pair (tripId, userId). It carries a role
(OWNER or MEMBER) and a status (PENDING or ACCEPTED). A `Valid` predicate
collects the schema's unique keys and foreign keys.

Each route handler is a pure function from (store, session user id, parsed
request, generated id, clock) to a `Reply`: an HTTP status, a body and the
new store. The modelled handlers are:
- solo and group trip creation;
- accepting, declining and listing trip invitations;
- creating a post, which awards points, and the post feed;
- saving the profile quiz;
- user search;
- listing friend requests and listing friends;
- listing rewards;
- credential authorisation and the session callbacks;
- AI suggestion generation, with its fence stripping and geocoding.

The model makes the ORM's behaviour explicit:
- `findUnique` gives `None` when nothing matches.
- `update` or `delete` on a missing key throws, and the handler's catch answers 500.
- `createMany` fails as a whole on a key collision, a missing user or a non-string id.
- A nested create is all or nothing.
- Writing a value of the wrong JSON type to a column throws, and so do a
  string outside an enum column's values and a missing or null value for a
  required column.
- The schema file is not part of this model. What it decides and the
  handlers depend on is a `Schema` parameter: the values of the travel-style
  and activity-level enums, and whether a suggestion's title and summary
  accept null.

**The client.** Pure helpers and small state machines taken from the
components, each modelled as a function from state and event to new state:
- `getInitials`, the next reward threshold and the verification panel;
- the selection toggle shared by the interest quiz and the invite dialog;
- the start/end date rule and the new-trip submit;
- the flattening of itineraries into map locations and the map centre;
- file type and size validation in the profile form and the media upload;
- the optimistic like, follow and friend-request buttons;
- the friend-request menu, the reward card and the find-friends dialog.

Several lemmas compose a client payload with the route that receives it.
Some of these compositions show defects:
- the new-trip form can never save a trip;
- the friend-request menu always reads an empty list;
- an unescaped search query can reach the server empty;
- the profile edit form uses a method the profile route does not answer.

The first three are listed under "## Findings" with a corrected definition.
The last is shown by `EditProfile.EditSubmitNeverSaves` only. Its repair
needs a PATCH handler that writes the form's fields, and no such handler
exists in the routes modelled here, so the model has no corrected form.

JavaScript semantics are modelled where they decide a branch:
- truthiness of `Value`s;
- `a || b` fallbacks;
- `undefined + string` in `getInitials`;
- `response.ok` as a 2xx status;
- the URL parser's treatment of `&`, `#`, `+`, `%` and spaces.

Calls into services outside the app become parameters:
- the password hash comparison;
- the text-generation reply and its JSON parse;
- the geocoder;
- the file upload service;
- generated ids and the clock.

## Model

| member | source | states |
|---|---|---|
| Auth.Authorize | lib/auth.ts:19-48 | every refusal carries the one message "Invalid credentials"; missing email or password is refused; a user is returned only if it is stored with that email and a non-empty password that the comparison accepts |
| Auth.AuthorizeComplete | lib/auth.ts:27-47 | with unique users, a stored user whose password the comparison accepts is the user returned |
| Auth.FailuresIndistinguishable | lib/auth.ts:22-44 | an unknown email gives exactly the same result as any other refused credentials, so an unknown email cannot be told from a wrong password |
| Auth.Jwt | lib/auth.ts:53-59 | without a user the token is unchanged; with one it gains the user's id and role |
| Auth.SessionCallback | lib/auth.ts:60-71 | id and role come from the token; name and image come from the database row when it is found and stay as in the session otherwise |
| Auth.SignInSession | lib/auth.ts:19-71 | after a successful sign-in the session carries the signed-in user's id, role, name and image |
| TripRoutes.NewTrip | app/api/trips/route.ts:25-31 | the trip row has the generated id, the request's name and destination, and a null budget exactly when the budget is falsy (0 included) |
| TripRoutes.CreateTrip | app/api/trips/route.ts:10-48 | 401 exactly without a session; 400 exactly when a required field is falsy; 500 for a malformed body or a failing insert; every non-201 leaves the store unchanged; 201 appends exactly the trip and the caller's OWNER/ACCEPTED membership, touches no other table, and keeps the store valid |
| TripRoutes.SoloTripAtomic | app/api/trips/route.ts:25-41 | afterwards the new trip exists exactly when it has a membership, and on success its only membership is the caller's OWNER/ACCEPTED row |
| TripRoutes.RequestedRows | app/api/group-trips/route.ts:42-58 | the caller as OWNER comes first, then one MEMBER row per friend id in input order: 1 + \|friendIds\| rows, or only the owner row when friendIds is not an array |
| TripRoutes.RowsToMemberships | app/api/group-trips/route.ts:60-62 | each requested row becomes a membership of the trip with the column default status |
| TripRoutes.InsertTrip | app/api/group-trips/route.ts:30-38 | the first write adds the bare trip, no membership, and keeps the store valid |
| TripRoutes.InsertMembers | app/api/group-trips/route.ts:60-62 | `createMany` writes all rows or none, and succeeds exactly when every id names a user, no user repeats and no pair already exists |
| TripRoutes.CreateGroupTrip | app/api/group-trips/route.ts:7-69 | 401/400 as the solo route with the store unchanged; a body that is not JSON is caught and answered 500 with nothing written; once validated the trip is written whatever follows; 201 exactly when the rows are insertable; a 500 after the trip insert leaves the memberships unchanged; the store stays valid |
| TripRoutes.GroupRowsTakeDefault | app/api/group-trips/route.ts:42-62 | on success the trip has 1 + \|friendIds\| memberships, the first the caller's OWNER row, and every one of them, the owner's included, has the schema default status |
| TripRoutes.GroupTripDuplicateLeavesOrphan | app/api/group-trips/route.ts:50-68 | a friend id equal to the caller, or a repeated one, ends in 500 with the trip stored and no membership for it |
| TripRoutes.CreateGroupTripCorrected | app/api/group-trips/route.ts:7-69 | the single-write version: 401 and 400 exactly as the route as written; 201 exactly when the trip and every requested row can be inserted; a 201 writes the trip, the caller's OWNER/ACCEPTED row and one PENDING MEMBER row per friend id, in order, and keeps the store valid; every other answer leaves the store unchanged |
| InviteRoutes.ListInvites | app/api/trips/invites/route.ts:7-43 | always 200 and read-only; no session gives an empty list; otherwise each entry is one of the caller's PENDING memberships with its trip, entries are newest first, they are those memberships as a multiset, and count is the list's length |
| InviteRoutes.ListInvitesComplete | app/api/trips/invites/route.ts:16-32 | every PENDING membership of the caller is listed |
| InviteRoutes.AcceptInvite | app/api/trips/invites/accept/route.ts:6-29 | 400 exactly without a session or a truthy tripId; 200 exactly when the caller has a membership in the trip, whatever its status or role; otherwise 500 with the store unchanged; 200 sets that row's status to ACCEPTED and keeps the store valid |
| InviteRoutes.AcceptSetsOnlyThatRow | app/api/trips/invites/accept/route.ts:16-24 | after success the row is ACCEPTED and every other membership is unchanged in place |
| InviteRoutes.AcceptIdempotent | app/api/trips/invites/accept/route.ts:16-25 | accepting twice gives the same status and the same store as accepting once |
| InviteRoutes.AcceptAfterDecline | app/api/trips/invites/accept/route.ts:16-28 | accepting a declined invitation is a 500, not a 404, because the update finds no row |
| InviteRoutes.DeclineInvite | app/api/trips/invites/decline/route.ts:6-40 | 400 exactly without a session or a truthy tripId; 404 'Invitation not found.' exactly when the pair has no membership; every non-200 leaves the store unchanged; 200 removes exactly that row, whatever its status or role, and keeps the store valid |
| InviteRoutes.DeclineKeepsOthers | app/api/trips/invites/decline/route.ts:28-35 | every membership with another key survives a decline |
| InviteRoutes.DeclineTwice | app/api/trips/invites/decline/route.ts:17-36 | a second decline of the same invitation is 404 and changes nothing |
| PostRoutes.ImageColumn | app/api/posts/route.ts:24-31 | `imageUrl` is stored as null when absent or null, as the string when a string, and any other JSON value makes the insert throw |
| PostRoutes.CreatePost | app/api/posts/route.ts:10-48 | 401 exactly without a session; 400 'Content is required' exactly for falsy content; every non-201 leaves the store unchanged; 201 appends one post by the caller, adds 10 points to the caller only, changes no other table, answers pointsAwarded = 10, and keeps the store valid |
| PostRoutes.AddPointsTotal | app/api/posts/route.ts:32-39 | adding points to one user raises the sum of all users' points by exactly that amount, or by nothing when the user is missing |
| PostRoutes.PostAwardsPoints | app/api/posts/route.ts:24-40 | a created post raises total points by exactly 10 and every other user's points are unchanged |
| PostRoutes.FeedEntry | app/api/posts/route.ts:54-75 | a feed entry has the post's author summary, its like count, and exactly its comments, oldest first, each with its author |
| PostRoutes.Feed | app/api/posts/route.ts:51-82 | 200 and read-only; all posts, newest first, each with its entry |
| PostRoutes.CreatedPostInFeed | app/api/posts/route.ts:24-56 | a created post appears in the feed that follows |
| ProfileRoute.InterestsColumn | app/api/profile/route.ts:22-30 | absent interests keep the stored ones; an array of strings is stored verbatim; anything else makes the update throw |
| Store.TextColumn | app/api/suggestions/route.ts:79-85 | a string is stored as it is; absent or null stores null in an optional column and throws in a required one; any other JSON value throws |
| ProfileRoute.OptionalColumn | app/api/profile/route.ts:22-30 | an absent value keeps the column, null clears it, one of the enum's values is stored, and any other string or other value makes the update throw |
| ProfileRoute.UpdatedUser | app/api/profile/route.ts:22-30 | the updated row has the three answers and profileComplete = true; every other field is as before |
| ProfileRoute.UpdateProfile | app/api/profile/route.ts:8-37 | 401 exactly without a session; 200 exactly when the caller's row exists and every answer fits its column, the style and level being values of their enums; 200 replaces only the caller's row; otherwise 500 with the store unchanged; the store stays valid |
| ProfileRoute.UpdateKeepsEnums | app/api/profile/route.ts:22-30 | whatever the body, no update stores a style or level outside its enum: rows that held enum values still do |
| ProfileRoute.UpdateProfileIdempotent | app/api/profile/route.ts:22-32 | saving the same answers twice leaves the store as after the first save |
| ProfileRoute.ProfileEndpoint | app/api/profile/route.ts:8-37 | any method other than PUT is answered 405 with the store unchanged; PUT is the handler |
| SearchRoute.SearchMatchIsMatches | app/api/users/search/route.ts:24-44 | the filter holds exactly for users other than the caller whose name or email contains the query, case-insensitively |
| SearchRoute.SearchUsers | app/api/users/search/route.ts:8-60 | read-only; 401 exactly without a session; 400 exactly for a missing or empty query; 200 gives at most 10 summaries of matching users, and all of them when fewer than 10 are returned |
| SearchRoute.SearchExcludesCaller | app/api/users/search/route.ts:42-44 | the caller never appears in the results |
| FriendRoutes.ListFriendRequests | app/api/friends/requests/route.ts:8-38 | read-only; 401 exactly without a session; 200 gives a bare array holding exactly the PENDING requests addressed to the caller, each with its sender |
| FriendRoutes.ListFriends | app/api/friends/list/route.ts:8-35 | read-only; 401 exactly without a session; a missing caller row gives []; otherwise exactly the summaries of the caller's friends |
| RewardRoute.ListRewards | app/api/rewards/route.ts:6-19 | no session needed, read-only, every reward exactly once as a multiset, sorted by pointsRequired non-decreasing |
| RewardRoute.CheapestFirst | app/api/rewards/route.ts:8-13 | the first reward listed needs no more points than any reward |
| Suggestions.LeadingSpace | app/api/suggestions/route.ts:64 | counts the run of whitespace at the start of the text, which `\s*` consumes |
| Suggestions.CutClosing | app/api/suggestions/route.ts:64 | removes a closing fence and trailing whitespace only at the leftmost place where they run to the end; text with none is unchanged |
| Suggestions.StripFences | app/api/suggestions/route.ts:64 | only the ends are cut: the result is a piece of the reply; without an opening fence it is the reply up to a closing fence that runs to the end, or all of it |
| Suggestions.StripFencedReply | app/api/suggestions/route.ts:64 | a reply wrapped as an opening json fence, whitespace, a body, a closing fence and whitespace gives back exactly the body |
| Suggestions.UnfencedUnchanged | app/api/suggestions/route.ts:64 | text with no opening fence and no closing fence at its end is unchanged |
| Suggestions.GetCoordinates | app/api/suggestions/route.ts:11-27 | coords are always set; they are the first result's location exactly when the status is OK with a result, and null otherwise, a thrown call included |
| Suggestions.EnrichActivity | app/api/suggestions/route.ts:70-72 | an activity keeps its description and location name and gets coords; `Suggestions.EnrichedHaveCoords` states that every slot of every enriched day then has its coords set, and `TripMap.EnrichedDayOnMap` that the enriched day shows one map location per slot the geocoder found, placed at the geocoder's first result |
| Suggestions.EnrichActivityStable | app/api/suggestions/route.ts:70-72 | the coords depend on the location name only: enriching twice is enriching once, and equal activities stay equal |
| Suggestions.EnrichDay | app/api/suggestions/route.ts:69-73 | a day keeps its number, theme and location names, and each of its three slots gets coords |
| Suggestions.Enrich | app/api/suggestions/route.ts:68-74 | enrichment succeeds exactly when every day has all three slots; it keeps every proposal, day, title and theme and sets each slot's coords from the geocoder |
| Suggestions.EnrichedHaveCoords | app/api/suggestions/route.ts:68-74 | after enrichment every morning, afternoon and evening slot has coords |
| Suggestions.SuggestionRows | app/api/suggestions/route.ts:77-88 | one row per proposal, in order, with its generated id, the trip's id and the proposal's itinerary; the title and summary are stored exactly when they are strings, and null otherwise |
| Suggestions.GenerateSuggestions | app/api/suggestions/route.ts:29-96 | 401 exactly without a session; 404 exactly for a missing user or trip, with no membership check; 200 exactly when the reply parses, enriches and every proposal's title and summary fit their columns; every non-200 leaves the store unchanged; 200 answers the enriched reply and appends its rows in one step; the store stays valid |
| Suggestions.OneRowPerProposal | app/api/suggestions/route.ts:77-88 | a success appends exactly one suggestion per proposal, all for the requested trip, and keeps earlier rows |
| Suggestions.SuggestionsIgnoreTrip | app/api/suggestions/route.ts:36-63 | for the same generated reply any two existing trips get the same answer: the prompt uses nothing of the trip |
| TripDetail.PageMembers | components/trip-planning/TripDetailClient.tsx:34 | each listed member is a membership of the trip with its existing user |
| TripDetail.PageMembersComplete | components/trip-planning/TripDetailClient.tsx:34 | conversely, every membership of the trip whose user exists is listed with its role and user |
| TripDetail.TripOwner | components/trip-planning/TripDetailClient.tsx:34 | the user of the first OWNER member, or none exactly when no member is OWNER |
| TripDetail.IsOwner | components/trip-planning/TripDetailClient.tsx:35 | holds exactly when the session user is the owner, or when there is neither a session user nor an owner |
| TripDetail.OwnerDeclineLeavesNoOwner | components/trip-planning/TripDetailClient.tsx:34-71 | a new solo trip shows the owner controls to its creator and to no other signed-in user; after the owner declines, the trip has no owner and no signed-in user, the former owner included, gets the controls |
| TripDetail.SoleOwnerControls | components/trip-planning/TripDetailClient.tsx:34-35 | a page whose one member is its owner shows the controls to that owner and to no other signed-in user |
| TripDetail.NoMembersControls | components/trip-planning/TripDetailClient.tsx:34-35 | a page without members has no owner and shows the controls to no signed-in user |
| TripDetail.DeleteTrip | components/trip-planning/TripDetailClient.tsx:41-57 | success goes to /my-trips; a refusal shows the server message or 'Failed to delete trip.'; a throw shows its message |
| TripDetail.ConfirmDelete | components/trip-planning/TripDetailClient.tsx:71-87 | the delete request goes out exactly when the owner controls are shown, and it leads to /my-trips exactly on an OK answer |
| TripDetail.OnlyOwnerCanDelete | components/trip-planning/TripDetailClient.tsx:34-87 | a signed-in user reaches the delete request only as the user of the trip's first OWNER member, so nobody can delete a trip without an OWNER row |
| TripForm.StartDateChange | components/trip-planning/TripInputForm.tsx:21-28 | the start becomes the new value; the end is cleared exactly when it is set and less than the new start as a string; afterwards the end is empty or not before the start |
| TripForm.SubmitWith | components/trip-planning/TripInputForm.tsx:30-66 | suggestions are requested exactly when the trip route answers 201, and for the new trip's id; otherwise 'Failed to save trip.' and nothing written; suggestions are shown exactly when there is no error |
| TripForm.TripPayload | components/trip-planning/TripInputForm.tsx:39-44 | the body carries the two dates and the budget, and lacks a required field, so the trips route refuses it |
| TripForm.Submit | components/trip-planning/TripInputForm.tsx:30-66 | as written, no submit requests suggestions or writes anything |
| TripForm.TripPayloadCorrected | components/trip-planning/TripInputForm.tsx:39-44 | with name and destination added, no required field is missing exactly when all four inputs are non-empty |
| TripForm.SubmitNeverSavesTrip | components/trip-planning/TripInputForm.tsx:39-47 | the form's body lacks name and destination, so every submit ends in 'Failed to save trip.' with no suggestions requested and the store unchanged |
| TripForm.SubmitCorrectedSavesTrip | components/trip-planning/TripInputForm.tsx:30-62 | with name and destination sent, a signed-in user's trip is saved under the generated id, suggestions are requested for it, and what is shown is the enriched reply |
| TripMap.SlotLocation | components/trip-planning/TripMap.tsx:28-30 | a slot gives one location, keyed by the suggestion id and tag with its coords and place name, exactly when its coords are truthy |
| TripMap.DayLocations | components/trip-planning/TripMap.tsx:27-31 | a day gives at most three locations |
| TripMap.DaysLocations | components/trip-planning/TripMap.tsx:27-31 | an itinerary gives at most three locations per day |
| TripMap.AllLocations | components/trip-planning/TripMap.tsx:23-32 | no suggestions give no locations |
| TripMap.DayCountsTruthySlots | components/trip-planning/TripMap.tsx:28-30 | a day gives one location per slot with truthy coords, so a slot with null coords adds nothing |
| TripMap.AllLocationsAppend | components/trip-planning/TripMap.tsx:24-32 | the locations keep suggestion order: those of a + b are those of a followed by those of b |
| TripMap.DaysKeys | components/trip-planning/TripMap.tsx:28-30 | every key is the suggestion id followed by -m, -a or -e |
| TripMap.KeysRepeatAcrossDays | components/trip-planning/TripMap.tsx:28-30 | two days of one suggestion that both have a located morning give two locations with the same key |
| TripMap.FirstValid | components/trip-planning/TripMap.tsx:36 | the first location whose lat and lng are both non-zero, or none exactly when there is no such location |
| TripMap.Centre | components/trip-planning/TripMap.tsx:20-40 | the centre is the first valid location's position, and stays as it was when there is none |
| TripMap.Markers | components/trip-planning/TripMap.tsx:53-57 | markers are exactly the locations with non-zero lat and lng |
| TripMap.FullyGeocodedDays | components/trip-planning/TripMap.tsx:28-30 | days whose three slots all have coordinates give exactly three locations each |
| TripMap.EnrichedDayOnMap | components/trip-planning/TripMap.tsx:28-30 | a day as the suggestions route stores it gives one location per activity the geocoder found, and the morning's sits at the first result |
| TripMap.NothingGeocodedNothingShown | components/trip-planning/TripMap.tsx:23-42 | when no slot has truthy coords there are no locations and the centre keeps its previous value |
| Selection.Toggle | components/trip-planning/InviteFriendsDialog.tsx:38-44 | afterwards the item is selected exactly when it was not before, and every other item is selected exactly as before |
| Selection.ToggleKeepsOthersInOrder | components/trip-planning/InviteFriendsDialog.tsx:39-43 | the other items keep their relative order |
| Selection.ToggleKeepsNoDup | components/profile/InterestQuiz.tsx:19 | a selection without duplicates stays without duplicates |
| Selection.ToggleTwice | components/profile/InterestQuiz.tsx:19 | toggling twice restores the set of selected items; an item that was selected returns at the end, so the order changes unless it was already last |
| Selection.ToggleAllParity | components/profile/InterestQuiz.tsx:17-21 | after a series of clicks an item is selected exactly when it was selected before or was clicked an odd number of times, but not both |
| Selection.ToggleAllKeepsNoDup | components/profile/InterestQuiz.tsx:17-21 | a series of clicks keeps the selection free of duplicates |
| InviteDialog.PayloadAfter | components/trip-planning/InviteFriendsDialog.tsx:38-52 | the posted friendIds have no duplicates and hold exactly the friends clicked an odd number of times |
| InviteDialog.InviteEnabledIffSomeSelected | components/trip-planning/InviteFriendsDialog.tsx:85 | when idle, the invite button is enabled exactly when some friend was clicked an odd number of times; only clicked friends are sent |
| InterestQuiz.QuizPayload | components/profile/InterestQuiz.tsx:27-31 | all three keys are present; interests are the selection in order; travelStyle and activityLevel are null exactly when unselected |
| InterestQuiz.QuizSubmitSaves | components/profile/InterestQuiz.tsx:23-45 | sent with PUT to the profile route, the quiz answers of a signed-in user, whose style and level buttons offer only enum values, are stored verbatim with profileComplete = true |
| ProfileClient.GetInitials | components/profile/UserProfileClient.tsx:29-33 | a missing or empty name gives 'U' |
| ProfileClient.InitialsOfOneWord | components/profile/UserProfileClient.tsx:31-32 | a one-word name gives its first character |
| ProfileClient.InitialsOfWords | components/profile/UserProfileClient.tsx:31-32 | words joined by single spaces give the first character of the first and of the last word; middle words play no part |
| ProfileClient.InitialsOfStraySpaces | components/profile/UserProfileClient.tsx:31-32 | an empty word contributes 'undefined': a lone space gives NaN, "Ann " gives "Aundefined", " Ann" gives "undefinedA" |
| ProfileClient.GetInitialsCorrected | components/profile/UserProfileClient.tsx:29-33 | initials skipping empty words: always one or two characters, no space, 'U' when there are no words |
| ProfileClient.CorrectedAgreesOnWords | components/profile/UserProfileClient.tsx:31-32 | on names of words separated by single spaces the corrected initials equal the original ones |
| ProfileClient.NextRewardPoints | components/profile/UserProfileClient.tsx:60 | the threshold is a multiple of 500, above the points by at most 500 |
| ProfileClient.NextRewardIsSmallest | components/profile/UserProfileClient.tsx:60 | no multiple of 500 above the points is smaller than the threshold |
| ProfileClient.VerificationPanel | components/profile/UserProfileClient.tsx:144-152 | VERIFIED, PENDING and REJECTED each get their own panel; any other status, a missing one included, gets the prompt |
| ProfileClient.PanelStatus | components/profile/UserProfileClient.tsx:144-152 | each panel stands for its own status, and the prompt for a missing one |
| ProfileClient.PanelRoundTrip | components/profile/UserProfileClient.tsx:144-152 | every panel is shown for the status it stands for, and a known or missing status is the one its panel stands for |
| EditProfile.HandleFileChange | components/profile/EditProfileForm.tsx:106-137 | a non-image avatar is refused before the size check; any file over 5 MiB is refused; a refused file skips the input reset; an avatar opens the cropper and a document is kept, each the file chosen |
| EditProfile.FileSizeBoundary | components/profile/EditProfileForm.tsx:111-119 | exactly 5 MiB is accepted and one byte more refused, for a document of any type and for an image avatar; a non-image avatar is refused for its type at any size |
| EditProfile.SubmitBody | components/profile/EditProfileForm.tsx:210-233 | the request goes out only if every chosen file uploads; the existing image and document URL are kept unless a new file was chosen, and then the upload's URL replaces them |
| EditProfile.EditSubmitNeverSaves | components/profile/EditProfileForm.tsx:229-236 | the form sends PATCH, which the profile route does not answer: no submit changes the store, and every one that is sent reports 'Failed to update profile.' |
| EditProfile.Submit | components/profile/EditProfileForm.tsx:210-246 | a failed upload reports 'File upload failed.' and sends nothing; saving is reported only after every upload succeeded; a failure leaves the database unchanged |
| FriendButton.Initial | components/profile/FriendButton.tsx:16-17 | the button starts with the status it is given and not loading |
| FriendButton.Label | components/profile/FriendButton.tsx:39-69 | the button reads 'Sending...' exactly while a request from 'none' is in flight |
| FriendButton.Sending | components/profile/FriendButton.tsx:19-22 | while sending, the status is kept and the button cannot be clicked |
| FriendButton.Click | components/profile/FriendButton.tsx:19-69 | a button without an enabled handler ignores the click; otherwise loading ends and the status becomes 'sent' exactly on an OK answer, and nothing changes on any other |
| FriendButton.Clicks | components/profile/FriendButton.tsx:19-69 | a button that is not 'none' never changes, and an idle button is idle after any clicks |
| FriendButton.SendSettled | components/profile/FriendButton.tsx:19-37 | loading always ends; an OK answer moves the status to 'sent' with 'Friend request sent!'; a refusal or a throw keeps the status, with the server message or 'Failed to send request.', or 'An error occurred.' |
| FriendButton.StatusOnlyMovesToSent | components/profile/FriendButton.tsx:19-69 | after any clicks the status is the initial one or 'sent', and only 'none' can change |
| FriendButton.SentIffSomeOk | components/profile/FriendButton.tsx:25-34 | starting from 'none', the status is 'sent' exactly when some request was answered OK |
| FollowButton.Initial | components/profile/FollowButton.tsx:14-15 | the shown state starts as the prop, not loading |
| FollowButton.NewProp | components/profile/FollowButton.tsx:14 | a new prop does not change the shown state |
| FollowButton.Label | components/profile/FollowButton.tsx:42-44 | '...' exactly while loading; otherwise 'Unfollow' exactly when following is shown |
| FollowButton.Pressed | components/profile/FollowButton.tsx:19-21 | a click flips the shown state and starts loading |
| FollowButton.Settle | components/profile/FollowButton.tsx:22-39 | loading ends; an OK answer keeps the flip; a refusal or a throw resets the shown state to the prop, not to the pre-click value; a refresh follows every answer that did not throw |
| FollowButton.Click | components/profile/FollowButton.tsx:18-44 | a click while loading does nothing; otherwise loading ends, an OK answer shows the opposite of the pre-click state, and a failure shows the prop with an error |
| FollowButton.FailureGoesToProp | components/profile/FollowButton.tsx:28-36 | a failed click shows the prop, which, when the shown state had drifted from the prop, is the flip of what was shown |
| FollowButton.OkThenFailure | components/profile/FollowButton.tsx:17-39 | after one successful click a failed one flips the state back to the stale prop |
| PostCard.InitialLiked | components/feed/PostCard.tsx:45-47 | liked exactly when there is a session user and some like is theirs |
| PostCard.InitialLikeState | components/feed/PostCard.tsx:45-48 | the count starts at the given like count |
| PostCard.Flip | components/feed/PostCard.tsx:58-59 | the liked flag flips and the count moves down by one if it was liked, up by one otherwise |
| PostCard.HandleLike | components/feed/PostCard.tsx:51-72 | no session: an error and no request or change; an answer, OK or not, keeps the optimistic flip and refreshes; a throw shows 'Something went wrong.' |
| PostCard.LikeRevertIsWrong | components/feed/PostCard.tsx:66-70 | after a throw the state is neither the pre-click state nor the flip: the flag stays flipped and the count is two away from the flip; (liked, 5) becomes (not liked, 6) |
| PostCard.HandleLikeCorrected | components/feed/PostCard.tsx:51-72 | as the handler, except that a throw restores the pre-click state |
| PostCard.CorrectedLikeConsistent | components/feed/PostCard.tsx:58-70 | the corrected state is always the pre-click state or its flip, and agrees with the handler on every path but a throw |
| PostCard.LikeLabel | components/feed/PostCard.tsx:125 | the singular 'Like' exactly for a count of 1 |
| PostCard.SubmitComment | components/feed/PostCard.tsx:74-97 | a comment is sent exactly with a session and some non-space text; the box is cleared, with 'Comment posted!', only after an OK answer |
| PostCard.ResubmitComment | components/feed/PostCard.tsx:74-97 | after a posted comment the box is empty and a second press sends nothing; after a failed one a second press sends the text again |
| RewardCard.ClaimDisabled | components/rewards/RewardCard.tsx:22-52 | the button is enabled exactly when the user has the points and no claim is in flight |
| RewardCard.HandleClaim | components/rewards/RewardCard.tsx:24-43 | loading always ends; a refresh happens exactly after an OK answer, with 'Reward claimed successfully!'; a refusal shows the server message or 'Failed to claim reward.'; a throw 'An unexpected error occurred.' |
| RewardCard.ClaimCycle | components/rewards/RewardCard.tsx:22-52 | while a claim is under way the button is disabled; once it settles, whatever the answer, it is enabled exactly when the points suffice; `RewardCard.ClaimableComeFirst` states which rewards the list shows enabled |
| RewardCard.ClaimableComeFirst | components/rewards/RewardCard.tsx:22-52 | in the rewards list the claimable rewards come before the others, and every reward the user can afford is listed with its button enabled |
| FriendRequestsMenu.DataOf | components/navigation/FriendRequests.tsx:45-46 | no body has a `requests` property, so the friend-requests route's bare array reads as absent; only the invites route's `{ invites, count }` body has a `count`, read as that count |
| FriendRequestsMenu.Load | components/navigation/FriendRequests.tsx:45-50 | the list and count are the body's fields, or [] and 0 when absent |
| FriendRequestsMenu.LoadFailed | components/navigation/FriendRequests.tsx:40-54 | a failed load leaves an empty list and a zero count |
| FriendRequestsMenu.LoadedMenuIsAlwaysEmpty | components/navigation/FriendRequests.tsx:45-46 | whatever the route answers, the menu shows no request and no badge |
| FriendRequestsMenu.PendingRequestIsDropped | components/navigation/FriendRequests.tsx:45-81 | a pending request to the caller is listed by the route but shows no badge |
| FriendRequestsMenu.LoadCorrected | components/navigation/FriendRequests.tsx:45-46 | reading the bare array: the list is the array and the count its length |
| FriendRequestsMenu.CorrectedBadgeIffPending | components/navigation/FriendRequests.tsx:45-81 | with the corrected parse, the badge shows exactly when a pending request to the caller exists, and only such requests are listed |
| FriendRequestsMenu.HandleResponse | components/navigation/FriendRequests.tsx:56-74 | an OK answer removes exactly the entries with that id, keeps the others in order and lowers the count by one; a refusal or a throw changes nothing |
| FriendRequestsMenu.ResponseKeepsCountInSync | components/navigation/FriendRequests.tsx:62-66 | with unique ids and the request listed, a count equal to the list's length stays equal |
| MediaUpload.Classify | components/ui/MediaUpload.tsx:27-34 | image/ gives an image, otherwise video/ a video, and any other type is refused |
| MediaUpload.Remove | components/ui/MediaUpload.tsx:42-49 | remove clears the preview and type, hands the parent null and clears the input |
| MediaUpload.HandleFileChange | components/ui/MediaUpload.tsx:19-40 | no file acts as remove; a refused type acts as remove plus an alert; an accepted file gets its preview and type and is handed to the parent |
| MediaUpload.ChangeKeepsParentInStep | components/ui/MediaUpload.tsx:19-49 | a preview has a type, and the parent holds a file exactly when a preview is shown, that file being of the type shown |
| MediaUpload.RefusedIsRemoved | components/ui/MediaUpload.tsx:31-34 | a refused file leaves the same state as no file, with the alert as the only difference |
| MediaUpload.ImageFirstDecidesNothing | components/ui/MediaUpload.tsx:27-30 | no type starts with both prefixes, so checking image/ first decides no case |
| QueryString.StripTrailing | components/friends/FindFriendsDialog.tsx:36 | removes exactly a trailing run of controls and spaces: a prefix of the text, unchanged when the last character is not one |
| QueryString.RemoveTabNewline | components/friends/FindFriendsDialog.tsx:36 | no tab, LF or CR remains, and text without controls or spaces is unchanged |
| QueryString.FirstValue | app/api/users/search/route.ts:16-17 | the value is the longest prefix with no '&' or '#', and all of the text when it has neither |
| QueryString.Decode | app/api/users/search/route.ts:16-17 | decoding never lengthens the text, and text without '%' or '+' is unchanged |
| QueryString.QueryParam | app/api/users/search/route.ts:16-17 | the query read is never longer than the text sent, and text without special characters arrives as written |
| QueryString.Encode | components/friends/FindFriendsDialog.tsx:36 | the escaped text holds no special character except the '%' of its escapes |
| QueryString.DecodeEncode | app/api/users/search/route.ts:16-17 | decoding undoes escaping |
| QueryString.QueryParamOfEncoded | app/api/users/search/route.ts:16-17 | an escaped query reaches the server exactly as typed |
| QueryString.AmpersandQueryEmpty | components/friends/FindFriendsDialog.tsx:36 | unescaped, "&abc" reaches the server as the empty query |
| QueryString.HashQueryEmpty | components/friends/FindFriendsDialog.tsx:36 | unescaped, "#abc" reaches the server as the empty query |
| QueryString.SpacesOnly | components/friends/FindFriendsDialog.tsx:36 | unescaped, a query of three spaces reaches the server as the empty query |
| QueryString.PlusBecomesSpace | components/friends/FindFriendsDialog.tsx:36 | unescaped, "c++" reaches the server as "c  " |
| FindFriends.ResultsOf | components/friends/FindFriendsDialog.tsx:37-38 | the results are the response's list when it is one, and not a list otherwise |
| FindFriends.Effect | components/friends/FindFriendsDialog.tsx:23-52 | closing clears the query and results; open with more than two characters the results are replaced by the search route's answer, or kept when the request throws; otherwise they are cleared and nothing is asked; loading always ends |
| FindFriends.NoticeOrCards | components/friends/FindFriendsDialog.tsx:76-81 | once a search settles the dialog shows exactly one of the user cards and 'No users found.', the notice exactly when the answer held no user |
| FindFriends.UnescapedQueryRefused | components/friends/FindFriendsDialog.tsx:32-80 | a query such as "&abc" or three spaces passes the length test yet is refused 400 by the route, and the dialog says 'No users found.' |
| FindFriends.EscapedQueryArrives | components/friends/FindFriendsDialog.tsx:32-38 | with the query escaped, every search the dialog makes is answered 200 for the query as typed, and its users become the results |
| Fetch.MessageOr | components/rewards/RewardCard.tsx:35-37 | the server's message when it is truthy, otherwise the fallback |
| Text.SplitJoin | components/profile/UserProfileClient.tsx:31 | joining the parts of `split(' ')` with spaces gives the name back, and no part holds a space |
| Text.JoinSplit | components/profile/UserProfileClient.tsx:31 | parts free of the separator are exactly what splitting their join returns |
| Text.TrimStart | components/feed/PostCard.tsx:80 | the result is a suffix of the text, only white space is cut, and it does not start with white space |
| Text.TrimEnd | components/feed/PostCard.tsx:80 | the result is a prefix of the text, only white space is cut, and it does not end with white space |
| Text.Trim | components/feed/PostCard.tsx:80 | the result is the text with only white space around it removed, and it neither starts nor ends with white space |
| Text.TrimEmptyIffAllSpace | components/feed/PostCard.tsx:80 | trimming leaves nothing exactly when the text is all white space |
| Text.LexTotal | components/trip-planning/TripInputForm.tsx:25 | two different strings are ordered one way or the other, and never both ways |
| Text.Lower | app/api/users/search/route.ts:28-38 | only an upper-case ASCII letter changes, to its lower-case form, and no result is an upper-case letter |
| Text.Contains | app/api/users/search/route.ts:28-38 | holds exactly when the needle occurs at some position of the text |
| Text.ContainsInsensitive | app/api/users/search/route.ts:28-38 | holds exactly when the lower-cased needle occurs in the lower-cased text |

## Left out

- I/O, real time and randomness: generated ids and the clock are parameters. Timestamps are integers, which keeps them totally ordered.
- The 500 ms debounce in the find-friends dialog: each run of the effect is one step.
- Floating point: `parseFloat` of the budget, the points percentage and the values of coordinates. A budget is an opaque JSON value, and coordinates are integers that are truthy when non-zero.
- The text-generation service and its JSON parse are parameters: the reply text, and a parse that gives a document or nothing. The geocoder is a parameter giving a reply or a throw.
- The bcrypt comparison is a parameter `compare`.
- The Cloudinary signing and upload flow is a parameter `upload`.
- NextAuth plumbing: the session is the signed-in user's id, or `None`.
- The default membership status and the cascade rules are not visible in the source shown. The default status is the parameter `default`, and no cascade is modelled.
- Database failures are not modelled: the 500 answers of the read-only routes, and the connection errors of any route. A store operation only throws where the ORM would for the data given, with the exception of invalid dates (see `TripRoutes.CreateTrip` below).
- Routes whose files are not part of this model: friend-request send, accept, reject and remove; like and comment; trip invite and delete; reward claim; stats; follow. The client models take those routes' answers as a `Response` parameter.
- Rendering and markup: everything except the named derivations. The owner-controls derivation is modelled, but not the markup that shows it.
- The trip page's "Generate AI Suggestions" button only raises an alert; no state changes.
- The invite dialog's fetch of the friends list is not modelled: the dialog's state is the selection.
- Image cropping and the canvas in the profile form.
- QueryString.Decode: a percent escape of a byte at or above 0x80 is kept as written, not decoded as UTF-8. No escape the client makes produces one.
- QueryString.Encode: escapes only the characters the URL parser treats specially. `encodeURIComponent` escapes more, but the decoder restores the rest unchanged.
- Text.LexLess: compares code points, not UTF-16 code units. The two agree on the ASCII date strings the date inputs hold.
- EditProfile.Submit: any failed upload is reported as 'File upload failed.'. The source tells a failed signature request apart from a failed upload.
- TripMap.Centre: the map takes its centre only as its default, so a centre computed after the first render does not move the map. The model gives the value the component stores.
- Accept and decline parse the body before the session check and outside the `try`. The model treats a malformed body as a framework 500, even without a session.
- TripRoutes.CreateTrip: does not reject a start or end date that `new Date(...)` turns into an Invalid Date. The route would answer 500 when the ORM refuses it; the model stores the value and answers 201, because JavaScript date parsing is not modelled.
- TripRoutes.CreateGroupTrip: the same for its two dates: an unparseable date is stored with the trip instead of ending in 500.
- SearchRoute.SearchUsers: the case-insensitive match folds only the ASCII letters. The database's `mode: 'insensitive'` folds other scripts too, so a non-ASCII name can match there and not in the model.
- ProfileClient.GetInitials: takes the first character of a word as a code point. JavaScript's `word[0]` is a UTF-16 code unit, so for a name starting outside the Basic Multilingual Plane the source gives half a surrogate pair.
- TripDetail.PageMembers: the page's membership gate is not modelled. The page renders only for a member of the trip, so after a sole owner declines nobody can open it; the model still computes the members and the controls.
- The values of the enum columns and the nullability of the suggestion columns are the `Schema` parameter, since the schema file is not part of this model.
- The search route's 500 path and the suggestions route's 500 for a failing service call are not modelled; a failed generation is a reply that does not parse.

## Behaviour worth knowing

- Neither invitation route looks at a membership's status. The accept route answers 500 when the row is missing. The decline route deletes a row of any status or role, the OWNER's included (`InviteRoutes.AcceptInvite`, `InviteRoutes.DeclineInvite`, `TripDetail.OwnerDeclineLeavesNoOwner`).
- The group-trip route writes the trip and its memberships in two separate writes, and it writes no status, so every row takes the column default (`TripRoutes.CreateGroupTrip`).
- The suggestions route calls the generation service once, with no retry; the model takes its one reply as a parameter.
- The dialog's length test does not keep the search route's empty-query 400 from reaching the client, because the query is not escaped (`FindFriends.UnescapedQueryRefused`).

## Findings

| source | as written | input that shows it | evidently intended | confidence | as-written member | corrected member |
|---|---|---|---|---|---|---|
| components/feed/PostCard.tsx:66-70 | the catch sets `isLiked` to `!isLiked` and the count to `isLiked ? c + 1 : c - 1`, using the pre-click values | liked with 5 likes, then the request throws: not liked with 6 likes | restore the pre-click state (liked, 5) | not executed | PostCard.LikeRevertIsWrong | PostCard.HandleLikeCorrected |
| components/navigation/FriendRequests.tsx:45-46 | reads `data.requests` and `data.count`, while app/api/friends/requests/route.ts:34 answers a bare array | one pending request to the caller: the menu shows none and no badge | take the array and its length | not executed | FriendRequestsMenu.PendingRequestIsDropped | FriendRequestsMenu.LoadCorrected |
| components/trip-planning/TripInputForm.tsx:39-44 | the body has no `name` or `destination`, which app/api/trips/route.ts:21-23 requires | any submit, all four inputs filled: 400, then 'Failed to save trip.' | send the trip's name and destination | not executed | TripForm.SubmitNeverSavesTrip | TripForm.SubmitCorrectedSavesTrip |
| app/api/group-trips/route.ts:30-62 | the trip and its memberships are two writes, and no status is written for the owner | friendIds containing the caller's id: 500, with the trip stored and no membership for it | one nested create, the owner ACCEPTED as in app/api/trips/route.ts:37 | not executed | TripRoutes.GroupTripDuplicateLeavesOrphan | TripRoutes.CreateGroupTripCorrected |
| components/friends/FindFriendsDialog.tsx:36 | the query goes into the URL unescaped | the query "&abc" passes the length test and reaches the route as "": 400, then 'No users found.' | escape the query with `encodeURIComponent` | not executed | FindFriends.UnescapedQueryRefused | FindFriends.EscapedQueryArrives |
| components/profile/UserProfileClient.tsx:31-32 | `split(' ')` keeps empty words, whose `[0]` is undefined | the name "Ann " gives "Aundefined", and " " gives NaN | skip empty words | not executed | ProfileClient.InitialsOfStraySpaces | ProfileClient.GetInitialsCorrected |

=== FILE: auth.dfy ===
/** The credentials provider's `authorize` and the `jwt` and `session`
    callbacks of the authentication options. The password-hash comparison is
    a parameter: `compare(plain, hash)` stands for `bcrypt.compare`. */
module Auth {
  import opened Js
  import opened Store

  /** `credentials?.email` and `credentials?.password`; both are `None` when
      no credentials object was passed. */
  datatype Credentials = Credentials(email: Option<string>, password: Option<string>)

  /** `authorize` either returns the stored user or throws; every throw carries
      the same message. */
  datatype AuthResult = Authorized(user: User) | Rejected(message: string)

  const InvalidCredentials := "Invalid credentials"

  predicate Present(s: Option<string>) {
    s.Some? && s.value != ""
  }

  /** Missing credentials, an unknown e-mail, a user with no (or an empty)
      stored password and a failed comparison are all refused alike. */
  function Authorize(users: seq<User>, creds: Credentials, compare: (string, string) -> bool): (r: AuthResult)
    ensures r.Rejected? ==> r.message == InvalidCredentials
    ensures !Present(creds.email) || !Present(creds.password) ==> r.Rejected?
    ensures r.Authorized? ==>
      && r.user in users
      && Present(creds.email) && Present(creds.password)
      && r.user.email == creds.email.value
      && Present(r.user.password)
      && compare(creds.password.value, r.user.password.value)
  {
    if !Present(creds.email) || !Present(creds.password) then Rejected(InvalidCredentials)
    else match FindUserByEmail(users, creds.email.value)
      case None => Rejected(InvalidCredentials)
      case Some(u) =>
        if !Present(u.password) then Rejected(InvalidCredentials)
        else if !compare(creds.password.value, u.password.value) then Rejected(InvalidCredentials)
        else Authorized(u)
  }

  /** With unique e-mails, the user whose e-mail and password match is the one
      returned: `authorize` accepts exactly the right pairs. */
  lemma AuthorizeComplete(users: seq<User>, creds: Credentials, compare: (string, string) -> bool, u: User)
    requires UniqueUsers(users)
    requires u in users && Present(creds.email) && Present(creds.password)
    requires u.email == creds.email.value && Present(u.password) && compare(creds.password.value, u.password.value)
    ensures Authorize(users, creds, compare) == Authorized(u)
  {
    var f := FindUserByEmail(users, creds.email.value);
    var i :| 0 <= i < |users| && users[i] == u;
    var j :| 0 <= j < |users| && users[j] == f.value;
    assert i == j;
  }

  /** An unknown e-mail and a wrong password give the same answer. */
  lemma FailuresIndistinguishable(users: seq<User>, c1: Credentials, c2: Credentials, compare: (string, string) -> bool)
    requires Present(c1.email) && Present(c1.password)
    requires forall i | 0 <= i < |users| :: users[i].email != c1.email.value
    requires Authorize(users, c2, compare).Rejected?
    ensures Authorize(users, c1, compare) == Authorize(users, c2, compare)
  {
  }

  /** The JWT payload the callbacks read and write. */
  datatype Token = Token(id: Option<Id>, role: Option<string>)

  /** `jwt`: at sign-in, when a user is present, the token takes the user's
      id and role; on every later call it is returned as it was. */
  function Jwt(token: Token, user: Option<User>): (t: Token)
    ensures user.None? ==> t == token
    ensures user.Some? ==> t.id == Some(user.value.id) && t.role == user.value.role
  {
    match user
    case None => token
    case Some(u) => token.(id := Some(u.id), role := u.role)
  }

  /** `session.user` as the client sees it. */
  datatype SessionUser = SessionUser(id: Option<Id>, role: Option<string>, name: Option<string>, image: Option<string>)

  /** The callback's outcome: the session, or a throw when the id it looks up is
      missing from the token (`findUnique` with an undefined key). */
  datatype SessionResult = SessionOk(user: Option<SessionUser>) | SessionError

  /** `session`: when there is a session user, copy id and role from the
      token, then overwrite name and image from the user row if it is found. */
  function SessionCallback(users: seq<User>, sessionUser: Option<SessionUser>, token: Token): (r: SessionResult)
    ensures sessionUser.None? ==> r == SessionOk(None)
    ensures sessionUser.Some? && token.id.None? ==> r == SessionError
    ensures sessionUser.Some? && token.id.Some? ==>
      && r.SessionOk? && r.user.Some?
      && r.user.value.id == token.id && r.user.value.role == token.role
      && (FindUser(users, token.id.value).Some? ==>
            r.user.value.name == FindUser(users, token.id.value).value.name &&
            r.user.value.image == FindUser(users, token.id.value).value.image)
      && (FindUser(users, token.id.value).None? ==>
            r.user.value.name == sessionUser.value.name && r.user.value.image == sessionUser.value.image)
  {
    match sessionUser
    case None => SessionOk(None)
    case Some(su) =>
      match token.id
      case None => SessionError
      case Some(id) =>
        var su' := su.(id := token.id, role := token.role);
        match FindUser(users, id)
        case None => SessionOk(Some(su'))
        case Some(u) => SessionOk(Some(su'.(name := u.name, image := u.image)))
  }

  /** Signing in and then reading the session: the session names the user that
      `authorize` returned, with that user's role, name and image. */
  lemma SignInSession(
    users: seq<User>, creds: Credentials, compare: (string, string) -> bool,
    token: Token, sessionUser: SessionUser)
    requires UniqueUsers(users)
    ensures var a := Authorize(users, creds, compare);
      a.Authorized? ==>
        var s := SessionCallback(users, Some(sessionUser), Jwt(token, Some(a.user)));
        && s.SessionOk? && s.user.Some?
        && s.user.value.id == Some(a.user.id)
        && s.user.value.role == a.user.role
        && s.user.value.name == a.user.name
        && s.user.value.image == a.user.image
  {
    var a := Authorize(users, creds, compare);
    if a.Authorized? {
      var f := FindUser(users, a.user.id);
      var i :| 0 <= i < |users| && users[i] == a.user;
      var j :| 0 <= j < |users| && users[j] == f.value;
      assert i == j;
    }
  }
}

=== FILE: browser.dfy ===
/** What the components read of a file the user picked. */
module Browser {
  /** A chosen file: its MIME type (`file.type`) and its size in bytes. */
  datatype File = File(mime: string, size: int)
}

=== FILE: edit_profile.dfy ===
/** The profile editing form: which chosen files it accepts, and what its
    submit sends and where. The upload service is a parameter. */
module EditProfile {
  import opened Js
  import opened Text
  import opened Store
  import ProfileRoute
  import opened Browser

  /** Which file input fired: `e.target.name`. */
  datatype Input = AvatarInput | DocumentInput | OtherInput(name: string)

  /** 5 MiB, the largest size accepted. */
  const MaxFileSize := 5 * 1024 * 1024

  /** What a change on a file input leads to. */
  datatype FileOutcome =
    | NoFile                        // the input was cleared
    | RejectedType                  // 'Please select a valid image file'
    | TooLarge                      // 'File size must be less than 5MB'
    | OpenCropper(file: File)       // the avatar is read and the cropper opens
    | SetDocument(file: File)       // `documentFile` is set
    | Ignored                       // an input with another name

  /** The outcome, and whether the input's value is reset afterwards. */
  datatype FileChange = FileChange(outcome: FileOutcome, inputReset: bool)

  /** `handleFileChange`: an avatar must be an image, checked before the size;
      any file above 5 MiB is refused; a refused file returns before the reset
      of the input. */
  function HandleFileChange(input: Input, file: Option<File>): (c: FileChange)
    ensures c.inputReset <==> c.outcome !in {RejectedType, TooLarge}
    ensures c.outcome == RejectedType <==>
      file.Some? && input == AvatarInput && !StartsWith(file.value.mime, "image/")
    ensures c.outcome == TooLarge <==>
      && file.Some? && file.value.size > MaxFileSize
      && !(input == AvatarInput && !StartsWith(file.value.mime, "image/"))
    ensures c.outcome.OpenCropper? ==> input == AvatarInput && file == Some(c.outcome.file)
    ensures c.outcome.SetDocument? ==> input == DocumentInput && file == Some(c.outcome.file)
  {
    match file
    case None => FileChange(NoFile, true)
    case Some(f) =>
      if input == AvatarInput && !StartsWith(f.mime, "image/") then FileChange(RejectedType, false)
      else if f.size > MaxFileSize then FileChange(TooLarge, false)
      else if input == AvatarInput then FileChange(OpenCropper(f), true)
      else if input == DocumentInput then FileChange(SetDocument(f), true)
      else FileChange(Ignored, true)
  }

  /** The boundary: exactly 5 MiB is accepted and one byte more is not, for
      an image avatar as for a document of any type; a non-image avatar is
      refused for its type whatever its size. */
  lemma FileSizeBoundary(mime: string, size: int)
    ensures HandleFileChange(DocumentInput, Some(File(mime, MaxFileSize))).outcome == SetDocument(File(mime, MaxFileSize))
    ensures HandleFileChange(DocumentInput, Some(File(mime, MaxFileSize + 1))).outcome == TooLarge
    ensures StartsWith(mime, "image/") ==>
      HandleFileChange(AvatarInput, Some(File(mime, MaxFileSize))).outcome == OpenCropper(File(mime, MaxFileSize))
    ensures !StartsWith(mime, "image/") ==>
      HandleFileChange(AvatarInput, Some(File(mime, size))).outcome == RejectedType
  {
  }

  /** The method the submit's `fetch` uses. */
  const EditVerb := "PATCH"

  /** The fields of the PATCH body that this model follows. */
  datatype EditBody = EditBody(image: Option<string>, documentUrl: Option<string>)

  /** `handleSubmit` before the request: the current image and document URL
      are kept unless a new file was chosen, in which case the upload's URL
      replaces it. `upload(file, folder)` is `None` when the upload throws,
      and then no request is sent. */
  function SubmitBody(
    user: User, avatarFile: Option<File>, documentFile: Option<File>,
    upload: (File, string) -> Option<string>): (b: Option<EditBody>)
    ensures b.Some? <==>
      (avatarFile.Some? ==> upload(avatarFile.value, "avatars").Some?) &&
      (documentFile.Some? ==> upload(documentFile.value, "documents").Some?)
    ensures b.Some? && avatarFile.None? ==> b.value.image == user.image
    ensures b.Some? && avatarFile.Some? ==> b.value.image == upload(avatarFile.value, "avatars")
    ensures b.Some? && documentFile.None? ==> b.value.documentUrl == user.documentUrl
    ensures b.Some? && documentFile.Some? ==> b.value.documentUrl == upload(documentFile.value, "documents")
  {
    var avatarUrl := if avatarFile.Some? then upload(avatarFile.value, "avatars") else Some(user.image.GetOr(""));
    var docUrl := if documentFile.Some? then upload(documentFile.value, "documents") else Some(user.documentUrl.GetOr(""));
    if avatarUrl.None? || docUrl.None? then None
    else Some(EditBody(
      if avatarFile.Some? then avatarUrl else user.image,
      if documentFile.Some? then docUrl else user.documentUrl))
  }

  /** What the form shows after a submit. */
  datatype SubmitOutcome = Saved | SubmitFailed(message: string)

  /** The whole submit against the profile route. The PATCH body carries none
      of `interests`, `travelStyle` or `activityLevel`, and the route would
      not read it anyway: it answers only `PUT`. A failed upload stops before
      any request; the form reports saving only after a 2xx answer, and a
      failure leaves the database as it was. */
  function Submit(
    st: Store, schema: Schema, session: Option<Id>, user: User, avatarFile: Option<File>, documentFile: Option<File>,
    upload: (File, string) -> Option<string>): (o: (SubmitOutcome, Store))
    ensures SubmitBody(user, avatarFile, documentFile, upload).None? ==> o == (SubmitFailed("File upload failed."), st)
    ensures o.0.Saved? ==> SubmitBody(user, avatarFile, documentFile, upload).Some?
    ensures o.0.SubmitFailed? ==> o.1 == st
  {
    match SubmitBody(user, avatarFile, documentFile, upload)
    case None => (SubmitFailed("File upload failed."), st)
    case Some(_) =>
      var r := ProfileRoute.ProfileEndpoint(st, schema, session, EditVerb,
        Parsed(ProfileRoute.ProfileRequest(Undefined, Undefined, Undefined)));
      if r.status == 200 then (Saved, r.store) else (SubmitFailed("Failed to update profile."), r.store)
  }

  /** No submit of the form can save anything: every request it sends is
      answered 405, the database is unchanged, and the form reports
      'Failed to update profile.'. */
  lemma EditSubmitNeverSaves(
    st: Store, schema: Schema, session: Option<Id>, user: User, avatarFile: Option<File>, documentFile: Option<File>,
    upload: (File, string) -> Option<string>)
    ensures Submit(st, schema, session, user, avatarFile, documentFile, upload).1 == st
    ensures Submit(st, schema, session, user, avatarFile, documentFile, upload).0.SubmitFailed?
    ensures SubmitBody(user, avatarFile, documentFile, upload).Some? ==>
      Submit(st, schema, session, user, avatarFile, documentFile, upload).0 == SubmitFailed("Failed to update profile.")
  {
  }
}

=== FILE: fetch.dfy ===
/** What a component's `fetch` call can end in, as far as the components
    look at it. */
module Fetch {
  import opened Js

  /** `response.ok`: a 2xx status. */
  predicate Ok(status: int) {
    200 <= status < 300
  }

  /** A response, with `ok` and the `message` field of its JSON body (read
      only by the components that show it), or a throw: a network failure or
      a body that is not JSON. */
  datatype Response = Answered(ok: bool, message: Value) | Thrown(error: string)

  /** `data.message || fallback`: the server's message when it is truthy. */
  function MessageOr(message: Value, fallback: string): (m: string)
    ensures Truthy(message) ==> m == ToJsString(message)
    ensures !Truthy(message) ==> m == fallback
  {
    if Truthy(message) then ToJsString(message) else fallback
  }

  /** A `toast.success` or `toast.error` notice and its text. */
  datatype Toast = SuccessToast(text: string) | ErrorToast(text: string)
}

=== FILE: find_friends.dfy ===
/** The Find Friends dialog: the reset on close, the length threshold, and
    what a search shows. The 500 ms debounce is not modelled: the effect is
    taken to run once typing has settled. */
module FindFriends {
  import opened Js
  import opened Store
  import QueryString
  import SearchRoute

  /** `results` holds whatever JSON the search answered: the user list on
      200, or the `{ message }` object of a refusal. */
  datatype Results = Users(users: seq<UserSummary>) | NotAList

  datatype Dialog = Dialog(isOpen: bool, query: string, results: Results, isLoading: bool)

  /** `setResults(data)`: the body replaces the results wholesale. */
  function ResultsOf(b: Body): (r: Results)
    ensures b.SummaryList? <==> r.Users?
    ensures b.SummaryList? ==> r.users == b.users
  {
    if b.SummaryList? then Users(b.users) else NotAList
  }

  /** The query-string text the client writes after `query=`: the query as
      typed, or, for the corrected dialog, escaped. */
  function RawParam(query: string, escaped: bool): string {
    if escaped then QueryString.Encode(query) else query
  }

  /** The effect on `[query, isOpen]`. Closed: the query and the results are
      cleared. Open with more than two characters: the search route is asked
      and its body becomes the results, unless the request throws
      (`reachable` false), which keeps them. Otherwise the results are
      cleared and nothing is asked. */
  function Effect(d: Dialog, st: Store, session: Option<Id>, reachable: bool, escaped: bool): (r: Dialog)
    ensures r.isOpen == d.isOpen && !r.isLoading
    ensures !d.isOpen ==> r.query == "" && r.results == Users([])
    ensures d.isOpen ==> r.query == d.query
    ensures d.isOpen && |d.query| <= 2 ==> r.results == Users([])
    ensures d.isOpen && |d.query| > 2 && reachable ==>
      r.results == ResultsOf(SearchRoute.SearchUsers(st, session, Some(QueryString.QueryParam(RawParam(d.query, escaped)))).body)
    ensures d.isOpen && |d.query| > 2 && !reachable ==> r.results == d.results
  {
    if !d.isOpen then Dialog(false, "", Users([]), false)
    else if |d.query| > 2 then
      if reachable then
        var reply := SearchRoute.SearchUsers(st, session, Some(QueryString.QueryParam(RawParam(d.query, escaped))));
        d.(results := ResultsOf(reply.body), isLoading := false)
      else d.(isLoading := false)
    else d.(results := Users([]), isLoading := false)
  }

  /** Whether the search route is asked at all. */
  predicate Requests(d: Dialog) {
    d.isOpen && |d.query| > 2
  }

  /** `results.length > 0`: the user cards. */
  function Shown(r: Results): seq<UserSummary> {
    if r.Users? then r.users else []
  }

  /** 'No users found.' */
  predicate NoUsersNotice(d: Dialog) {
    |Shown(d.results)| == 0 && |d.query| > 2 && !d.isLoading
  }

  /** Once a search has settled, the dialog shows exactly one of the user
      cards and the notice: the notice exactly when the answer held no
      user. */
  lemma NoticeOrCards(d: Dialog, st: Store, session: Option<Id>, reachable: bool, escaped: bool)
    requires Requests(d)
    ensures var r := Effect(d, st, session, reachable, escaped);
      NoUsersNotice(r) <==> |Shown(r.results)| == 0
  {
  }

  /** As written, the query goes into the URL unescaped: typed as "&abc" or
      as three spaces, it passes the client's length test yet reaches the
      server empty, so a signed-in user gets the 'Search query is required'
      refusal and the dialog says 'No users found.' whatever users exist. */
  lemma UnescapedQueryRefused(st: Store, session: Option<Id>, q: string)
    requires Authed(session) && (q == "&abc" || q == "   ")
    ensures var d := Effect(Dialog(true, q, Users([]), false), st, session, true, false);
      && Requests(Dialog(true, q, Users([]), false))
      && SearchRoute.SearchUsers(st, session, Some(QueryString.QueryParam(q))).status == 400
      && d.results == NotAList
      && NoUsersNotice(d)
  {
    QueryString.AmpersandQueryEmpty();
    QueryString.SpacesOnly();
  }

  /** Escaped, every query the dialog sends arrives as typed: with more than
      two characters it is never empty, the server never answers 400, and a
      signed-in user's results are exactly the search route's answer for the
      query they typed. */
  lemma EscapedQueryArrives(d: Dialog, st: Store, session: Option<Id>)
    requires Requests(d) && Authed(session)
    ensures QueryString.QueryParam(RawParam(d.query, true)) == d.query
    ensures var reply := SearchRoute.SearchUsers(st, session, Some(d.query));
      && reply.status == 200
      && Effect(d, st, session, true, true).results == Users(reply.body.users)
  {
    QueryString.QueryParamOfEncoded(d.query);
  }
}

=== FILE: follow_button.dfy ===
/** The Follow button on a profile: an optimistic toggle that falls back to
    the `isFollowing` prop when the request fails. The follow route itself is
    not part of this model. */
module FollowButton {
  import opened Fetch

  /** `prop` is the current `isFollowing` prop; `shown` is
      `isFollowingOptimistic`, which the prop only initialises. */
  datatype Follow = Follow(prop: bool, shown: bool, isLoading: bool)

  function Initial(prop: bool): (f: Follow)
    ensures f.shown == prop && !f.isLoading
  {
    Follow(prop, prop, false)
  }

  /** A re-render with a new prop (after `router.refresh()`, say) does not
      reset the state. */
  function NewProp(f: Follow, prop: bool): (f': Follow)
    ensures f'.prop == prop && f'.shown == f.shown && f'.isLoading == f.isLoading
  {
    f.(prop := prop)
  }

  /** The text on the button. */
  function Label(f: Follow): (s: string)
    ensures s == "..." <==> f.isLoading
    ensures !f.isLoading ==> (s == "Unfollow" <==> f.shown)
  {
    if f.isLoading then "..." else if f.shown then "Unfollow" else "Follow"
  }

  /** The state while the request is under way: flipped and loading. */
  function Pressed(f: Follow): (f': Follow)
    ensures f'.shown == !f.shown && f'.isLoading && f'.prop == f.prop
  {
    f.(shown := !f.shown, isLoading := true)
  }

  /** What `handleFollow` ends with: the state, and whether `router.refresh()`
      was called. */
  datatype Settled = Settled(state: Follow, refreshed: bool, error: bool)

  /** The request settles: an OK response keeps the flip; a refusal or a
      throw sets the state to the prop (not to what was shown before the
      click); every response that does not throw is followed by a refresh;
      loading is cleared in every case. */
  function Settle(pressed: Follow, resp: Response): (r: Settled)
    ensures !r.state.isLoading && r.state.prop == pressed.prop
    ensures resp.Answered? && resp.ok ==> r.state.shown == pressed.shown && !r.error
    ensures !(resp.Answered? && resp.ok) ==> r.state.shown == pressed.prop && r.error
    ensures r.refreshed <==> resp.Answered?
  {
    match resp
    case Answered(ok, _) =>
      if ok then Settled(pressed.(isLoading := false), true, false)
      else Settled(pressed.(shown := pressed.prop, isLoading := false), true, true)
    case Thrown(_) => Settled(pressed.(shown := pressed.prop, isLoading := false), false, true)
  }

  /** A click that settles with `resp`; the button is disabled while
      loading. */
  function Click(f: Follow, resp: Response): (r: Settled)
    ensures f.isLoading ==> r.state == f && !r.refreshed && !r.error
    ensures !f.isLoading ==> !r.state.isLoading && r.state.prop == f.prop
    ensures !f.isLoading && resp.Answered? && resp.ok ==> r.state.shown == !f.shown
    ensures !f.isLoading && !(resp.Answered? && resp.ok) ==> r.state.shown == f.prop && r.error
  {
    if f.isLoading then Settled(f, false, false) else Settle(Pressed(f), resp)
  }

  /** A failed click returns to the prop, so when what was shown before the
      click already differed from the prop (a previous click succeeded and no
      new prop has arrived), the failure flips the button instead of undoing
      the click: it ends showing the opposite of the pre-click state, which is
      where a success would have left it. */
  lemma FailureGoesToProp(f: Follow, resp: Response)
    requires !f.isLoading && !(resp.Answered? && resp.ok)
    ensures Click(f, resp).state.shown == f.prop
    ensures f.shown != f.prop ==> Click(f, resp).state.shown == !f.shown
  {
  }

  /** Two clicks from a fresh button, the first OK and the second failing
      before the refreshed prop has arrived: the failure leaves the button
      where a success of the second click would have left it, showing the
      prop again. */
  lemma OkThenFailure(prop: bool, ok: Response, failed: Response)
    requires ok.Answered? && ok.ok && !(failed.Answered? && failed.ok)
    ensures var s1 := Click(Initial(prop), ok).state;
      && s1.shown == !prop
      && Click(s1, failed).state.shown == !s1.shown
      && Click(s1, failed).state.shown == prop
  {
  }
}

=== FILE: friend_button.dfy ===
/** The Add Friend button on a profile: its status and what a click on it
    leads to. The request route itself is not part of this model. */
module FriendButton {
  import opened Js
  import opened Fetch

  /** `friendshipStatus`: 'none' | 'sent' | 'received' | 'friends'. */
  datatype Friendship = NotFriends | Sent | Received | Friends

  datatype Button = Button(status: Friendship, isLoading: bool)

  /** The state is initialised from the prop and is not loading. */
  function Initial(prop: Friendship): (b: Button)
    ensures b.status == prop && !b.isLoading
  {
    Button(prop, false)
  }

  /** Only the 'none' button has a click handler, and it is disabled while a
      request is under way; 'friends' and 'sent' are disabled, and 'received'
      has no handler. */
  predicate Clickable(b: Button) {
    b.status == NotFriends && !b.isLoading
  }

  /** The text the button shows. */
  function Label(b: Button): (s: string)
    ensures s == "Sending..." <==> b.status == NotFriends && b.isLoading
  {
    match b.status
    case Friends => "Friends"
    case Sent => "Request Sent"
    case Received => "Respond to Request"
    case NotFriends => if b.isLoading then "Sending..." else "Add Friend"
  }

  /** The state while the request is under way. */
  function Sending(b: Button): (b': Button)
    ensures b'.status == b.status && b'.isLoading && !Clickable(b')
  {
    b.(isLoading := true)
  }

  /** `handleSendRequest` once the request settles: an OK response moves the
      status to 'sent'; a refusal or a throw leaves it; loading is cleared in
      every case. */
  function SendSettled(b: Button, resp: Response): (r: (Button, Toast))
    ensures !r.0.isLoading
    ensures resp.Answered? && resp.ok ==> r.0.status == Sent && r.1 == SuccessToast("Friend request sent!")
    ensures !(resp.Answered? && resp.ok) ==> r.0.status == b.status
    ensures resp.Answered? && !resp.ok ==> r.1 == ErrorToast(MessageOr(resp.message, "Failed to send request."))
    ensures resp.Thrown? ==> r.1 == ErrorToast("An error occurred.")
  {
    match resp
    case Answered(ok, message) =>
      if ok then (Button(Sent, false), SuccessToast("Friend request sent!"))
      else (b.(isLoading := false), ErrorToast(MessageOr(message, "Failed to send request.")))
    case Thrown(_) => (b.(isLoading := false), ErrorToast("An error occurred."))
  }

  /** A click that settles with `resp`; a click on a button without an
      enabled handler does nothing. */
  function Click(b: Button, resp: Response): (r: Button)
    ensures !Clickable(b) ==> r == b
    ensures Clickable(b) ==> !r.isLoading && (r.status == Sent <==> resp.Answered? && resp.ok)
    ensures Clickable(b) && !(resp.Answered? && resp.ok) ==> r == b
  {
    if Clickable(b) then SendSettled(Sending(b), resp).0 else b
  }

  /** The state after clicks that settle with `resps` in turn. */
  function Clicks(b: Button, resps: seq<Response>): (r: Button)
    ensures b.status != NotFriends ==> r == b
    ensures !b.isLoading ==> !r.isLoading
    decreases |resps|
  {
    if |resps| == 0 then b else Clicks(Click(b, resps[0]), resps[1..])
  }

  /** Whatever the responses, the status is the prop or 'sent', it is
      'sent' only when it started 'none' or 'sent', and the button is idle
      between clicks. A status of 'sent', 'received' or 'friends' never
      changes. */
  lemma {:induction false} StatusOnlyMovesToSent(prop: Friendship, resps: seq<Response>)
    ensures var b := Clicks(Initial(prop), resps);
      && !b.isLoading
      && (b.status == prop || b.status == Sent)
      && (prop != NotFriends ==> b.status == prop)
    decreases |resps|
  {
    if |resps| > 0 {
      var b1 := Click(Initial(prop), resps[0]);
      assert b1 == Initial(b1.status);
      StatusOnlyMovesToSent(b1.status, resps[1..]);
    }
  }

  /** From 'none', the status becomes 'sent' exactly when some click got an
      OK response. */
  lemma {:induction false} SentIffSomeOk(resps: seq<Response>)
    ensures Clicks(Initial(NotFriends), resps).status == Sent <==>
      exists k | 0 <= k < |resps| :: resps[k].Answered? && resps[k].ok
    decreases |resps|
  {
    if |resps| > 0 {
      var b1 := Click(Initial(NotFriends), resps[0]);
      assert b1 == Initial(b1.status);
      if resps[0].Answered? && resps[0].ok {
        StatusOnlyMovesToSent(Sent, resps[1..]);
      } else {
        SentIffSomeOk(resps[1..]);
        assert forall k | 1 <= k < |resps| :: resps[k] == resps[1..][k - 1];
        assert (exists k | 0 <= k < |resps| :: resps[k].Answered? && resps[k].ok) ==>
          exists k | 0 <= k < |resps[1..]| :: resps[1..][k].Answered? && resps[1..][k].ok;
      }
    }
  }
}

=== FILE: friend_requests.dfy ===
/** The friend-request bell in the navigation bar: how it reads the list of
    requests, how answering one updates it, and when the badge shows. The
    accept and reject routes are not part of this model. */
module FriendRequestsMenu {
  import opened Js
  import opened Store
  import opened Fetch
  import Seqs
  import FriendRoutes

  datatype Menu = Menu(requests: seq<RequestView>, count: int, isLoading: bool)

  /** The state before the list arrives. */
  const Initial := Menu([], 0, true)

  /** The two properties the component reads from the parsed body: `requests`
      and `count`, `None` when the body has no such property. */
  datatype Data = Data(requests: Option<seq<RequestView>>, count: Option<int>)

  /** The properties of a route's JSON body. No body has a `requests`
      property; in particular the friend-requests route sends a bare array.
      Only the invites route's `{ invites, count }` object has a `count`. */
  function DataOf(b: Body): (d: Data)
    ensures d.requests.None?
    ensures d.count.Some? <==> b.InviteList?
    ensures b.InviteList? ==> d.count == Some(b.count)
  {
    if b.InviteList? then Data(None, Some(b.count)) else Data(None, None)
  }

  /** `setRequests(data.requests || [])` and `setCount(data.count || 0)`,
      after which loading ends. */
  function Load(d: Data): (m: Menu)
    ensures m.requests == (if d.requests.Some? then d.requests.value else [])
    ensures m.count == (if d.count.Some? then d.count.value else 0)
    ensures !m.isLoading
  {
    Menu(d.requests.GetOr([]), d.count.GetOr(0), false)
  }

  /** A fetch that throws leaves the empty list and ends loading. */
  function LoadFailed(): (m: Menu)
    ensures m.requests == [] && m.count == 0 && !m.isLoading
  {
    Initial.(isLoading := false)
  }

  /** `count > 0 && …`: the red badge. */
  predicate Badge(m: Menu) {
    m.count > 0
  }

  /** As written the menu reads fields the list route does not send: however
      many requests are waiting, it shows none and no badge. */
  lemma LoadedMenuIsAlwaysEmpty(st: Store, session: Option<Id>)
    ensures var m := Load(DataOf(FriendRoutes.ListFriendRequests(st, session).body));
      m.requests == [] && m.count == 0 && !Badge(m)
  {
  }

  /** A user with a pending request gets a 200 list that is not empty, which
      the menu as written drops. */
  lemma PendingRequestIsDropped(st: Store, session: Option<Id>, k: nat)
    requires Authed(session) && k < |st.friendRequests|
    requires st.friendRequests[k].toUserId == session.value && st.friendRequests[k].status == RequestPending
    ensures var r := FriendRoutes.ListFriendRequests(st, session);
      && r.status == 200 && |r.body.requests| > 0
      && !Badge(Load(DataOf(r.body)))
  {
    var r := FriendRoutes.ListFriendRequests(st, session);
    assert st.friendRequests[k] in FriendRoutes.Requests(r.body.requests);
  }

  /** Reading the bare array the route sends: the list is the array and the
      count its length; any other body leaves the empty list. */
  function LoadCorrected(b: Body): (m: Menu)
    ensures b.RequestList? ==> m.requests == b.requests && m.count == |b.requests|
    ensures !b.RequestList? ==> m.requests == [] && m.count == 0
    ensures !m.isLoading
  {
    if b.RequestList? then Menu(b.requests, |b.requests|, false) else LoadFailed()
  }

  /** With the corrected reading, a signed-in user sees the badge exactly when
      some request is pending for them, and every listed request is one. */
  lemma CorrectedBadgeIffPending(st: Store, session: Option<Id>)
    requires Authed(session)
    ensures var m := LoadCorrected(FriendRoutes.ListFriendRequests(st, session).body);
      && (Badge(m) <==> exists k | 0 <= k < |st.friendRequests| ::
            st.friendRequests[k].toUserId == session.value && st.friendRequests[k].status == RequestPending)
      && forall i | 0 <= i < |m.requests| ::
            m.requests[i].request in st.friendRequests && m.requests[i].request.status == RequestPending
  {
    var r := FriendRoutes.ListFriendRequests(st, session);
    if exists k | 0 <= k < |st.friendRequests| ::
         st.friendRequests[k].toUserId == session.value && st.friendRequests[k].status == RequestPending {
      var k :| 0 <= k < |st.friendRequests| &&
        st.friendRequests[k].toUserId == session.value && st.friendRequests[k].status == RequestPending;
      assert st.friendRequests[k] in FriendRoutes.Requests(r.body.requests);
    }
    if |r.body.requests| > 0 {
      var q := r.body.requests[0].request;
      assert q in st.friendRequests;
      var k :| 0 <= k < |st.friendRequests| && st.friendRequests[k] == q;
      assert st.friendRequests[k].toUserId == session.value && st.friendRequests[k].status == RequestPending;
    }
  }

  // ---------------------------------------------------------------------
  // handleResponse

  function OtherRequest(requestId: Id): RequestView -> bool {
    (v: RequestView) => v.request.id != requestId
  }

  /** An OK answer drops every listed request with that id and lowers the
      count by one; a refusal or a throw changes nothing. */
  function HandleResponse(m: Menu, requestId: Id, resp: Response): (r: Menu)
    ensures resp.Answered? && resp.ok ==>
      && r.count == m.count - 1
      && r.requests == Seqs.Filter(m.requests, OtherRequest(requestId))
      && (forall i | 0 <= i < |r.requests| :: r.requests[i].request.id != requestId && r.requests[i] in m.requests)
      && (forall i | 0 <= i < |m.requests| :: m.requests[i].request.id != requestId ==> m.requests[i] in r.requests)
    ensures !(resp.Answered? && resp.ok) ==> r == m
  {
    if resp.Answered? && resp.ok then
      m.(requests := Seqs.Filter(m.requests, OtherRequest(requestId)), count := m.count - 1)
    else m
  }

  predicate UniqueIds(vs: seq<RequestView>) {
    forall i, j | 0 <= i < j < |vs| :: vs[i].request.id != vs[j].request.id
  }

  /** When the count matches the list, ids are unique and the answered request
      is listed, an OK answer keeps the count matching the list. */
  lemma ResponseKeepsCountInSync(m: Menu, requestId: Id, resp: Response)
    requires m.count == |m.requests| && UniqueIds(m.requests)
    requires exists i | 0 <= i < |m.requests| :: m.requests[i].request.id == requestId
    ensures HandleResponse(m, requestId, resp).count == |HandleResponse(m, requestId, resp).requests|
  {
    if resp.Answered? && resp.ok {
      var i :| 0 <= i < |m.requests| && m.requests[i].request.id == requestId;
      DropsOne(m.requests, i, requestId);
    }
  }

  lemma DropsOne(vs: seq<RequestView>, i: nat, requestId: Id)
    requires i < |vs| && vs[i].request.id == requestId && UniqueIds(vs)
    ensures |Seqs.Filter(vs, OtherRequest(requestId))| == |vs| - 1
  {
    var keep := OtherRequest(requestId);
    var before, after := vs[..i], vs[i + 1..];
    assert vs == before + [vs[i]] + after;
    forall k | 0 <= k < |before| ensures keep(before[k]) {
      assert before[k] == vs[k];
    }
    forall k | 0 <= k < |after| ensures keep(after[k]) {
      assert after[k] == vs[i + 1 + k];
    }
    Seqs.FilterAppend(before + [vs[i]], after, keep);
    Seqs.FilterAppend(before, [vs[i]], keep);
    Seqs.FilterKeepsAll(before, keep);
    Seqs.FilterKeepsAll(after, keep);
    assert Seqs.Filter([vs[i]], keep) == [] by {
      assert [vs[i]][1..] == [];
    }
  }
}

=== FILE: friends.dfy ===
/** `GET /api/friends/requests` (friend requests waiting for the caller) and
    `GET /api/friends/list` (the caller's friends). */
module FriendRoutes {
  import opened Js
  import opened Store
  import Seqs

  /** `include: { fromUser: { select: { id, name, image, email } } }` */
  function FromUser(users: seq<User>, id: Id): (r: Option<UserSummary>)
    ensures r.Some? <==> HasUser(users, id)
    ensures r.Some? ==> r.value.id == id
  {
    match FindUser(users, id)
    case None => None
    case Some(u) => Some(Summary(u))
  }

  function WaitingFor(userId: Id): FriendRequest -> bool {
    (q: FriendRequest) => q.toUserId == userId && q.status == RequestPending
  }

  function Requests(vs: seq<RequestView>): (qs: seq<FriendRequest>)
    ensures |qs| == |vs| && forall i | 0 <= i < |vs| :: qs[i] == vs[i].request
  {
    seq(|vs|, i requires 0 <= i < |vs| => vs[i].request)
  }

  /** The PENDING requests addressed to the caller, each with its sender, as a
      bare array. Nothing is written. */
  function ListFriendRequests(st: Store, session: Option<Id>): (r: Reply)
    ensures r.store == st
    ensures r.status in {200, 401}
    ensures r.status == 401 <==> !Authed(session)
    ensures r.status == 200 ==>
      && r.body.RequestList?
      && (forall i | 0 <= i < |r.body.requests| ::
            && r.body.requests[i].request in st.friendRequests
            && r.body.requests[i].request.toUserId == session.value
            && r.body.requests[i].request.status == RequestPending
            && r.body.requests[i].fromUser == FromUser(st.users, r.body.requests[i].request.fromUserId))
      && (forall k | 0 <= k < |st.friendRequests| ::
            st.friendRequests[k].toUserId == session.value && st.friendRequests[k].status == RequestPending ==>
              st.friendRequests[k] in Requests(r.body.requests))
  {
    if !Authed(session) then Reply(401, Message("Not authenticated"), st)
    else
      var qs := Seqs.Filter(st.friendRequests, WaitingFor(session.value));
      var views := seq(|qs|, i requires 0 <= i < |qs| => RequestView(qs[i], FromUser(st.users, qs[i].fromUserId)));
      assert Requests(views) == qs;
      assert forall k | 0 <= k < |st.friendRequests| :: WaitingFor(session.value)(st.friendRequests[k]) ==> st.friendRequests[k] in qs;
      Reply(200, RequestList(views), st)
  }

  /** `to` is in `from`'s `friends` list. */
  predicate IsFriend(edges: seq<FriendEdge>, from: Id, to: Id) {
    exists k | 0 <= k < |edges| :: edges[k] == FriendEdge(from, to)
  }

  function FriendOf(edges: seq<FriendEdge>, userId: Id): User -> bool {
    (u: User) => IsFriend(edges, userId, u.id)
  }

  /** `v` is the summary of a user in `users` who is a friend of `callerId`. */
  ghost predicate FriendSummary(v: UserSummary, users: seq<User>, edges: seq<FriendEdge>, callerId: Id) {
    exists u | u in users :: IsFriend(edges, callerId, u.id) && v == Summary(u)
  }

  /** `userWithFriends?.friends || []`: the summaries of the users in the
      caller's friends list, or an empty list when the caller has no row. */
  function ListFriends(st: Store, session: Option<Id>): (r: Reply)
    ensures r.store == st
    ensures r.status in {200, 401}
    ensures r.status == 401 <==> !Authed(session)
    ensures r.status == 200 ==> r.body.SummaryList?
    ensures r.status == 200 && !HasUser(st.users, session.value) ==> r.body.users == []
    ensures r.status == 200 && HasUser(st.users, session.value) ==>
      && (forall i | 0 <= i < |r.body.users| :: FriendSummary(r.body.users[i], st.users, st.friendEdges, session.value))
      && (forall u | u in st.users && IsFriend(st.friendEdges, session.value, u.id) :: Summary(u) in r.body.users)
  {
    if !Authed(session) then Reply(401, Message("Not authenticated"), st)
    else if FindUser(st.users, session.value).None? then Reply(200, SummaryList([]), st)
    else
      var result := Summaries(Seqs.Filter(st.users, FriendOf(st.friendEdges, session.value)));
      FriendsListed(st.users, st.friendEdges, session.value, result);
      Reply(200, SummaryList(result), st)
  }

  /** The summaries of the users that pass `FriendOf` are exactly those of
      the caller's friends. */
  lemma FriendsListed(users: seq<User>, edges: seq<FriendEdge>, callerId: Id, result: seq<UserSummary>)
    requires result == Summaries(Seqs.Filter(users, FriendOf(edges, callerId)))
    ensures forall i | 0 <= i < |result| :: FriendSummary(result[i], users, edges, callerId)
    ensures forall u | u in users && IsFriend(edges, callerId, u.id) :: Summary(u) in result
  {
    var friends := Seqs.Filter(users, FriendOf(edges, callerId));
    forall i | 0 <= i < |result| ensures FriendSummary(result[i], users, edges, callerId) {
      assert friends[i] in users && FriendOf(edges, callerId)(friends[i]);
    }
    forall u | u in users && IsFriend(edges, callerId, u.id) ensures Summary(u) in result {
      assert FriendOf(edges, callerId)(u);
      var j :| 0 <= j < |users| && users[j] == u;
      assert u in friends;
      var k :| 0 <= k < |friends| && friends[k] == u;
      assert result[k] == Summary(u);
    }
  }
}

=== FILE: interest_quiz.dfy ===
/** The interest quiz shown to a user whose profile is incomplete: the
    interest toggle, the body it sends and the route that receives it. */
module InterestQuiz {
  import opened Js
  import opened Store
  import Selection
  import ProfileRoute

  /** The method the quiz's `fetch` uses. */
  const QuizVerb := "PUT"

  /** `{ interests: selectedInterests, travelStyle, activityLevel }`: all three
      keys are always present, and an unselected style or level is `null`. */
  function QuizPayload(interests: seq<string>, travelStyle: Option<string>, activityLevel: Option<string>): (b: ProfileRoute.ProfileRequest)
    ensures !b.interests.Undefined? && !b.travelStyle.Undefined? && !b.activityLevel.Undefined?
    ensures b.interests.Arr? && |b.interests.items| == |interests|
    ensures forall k | 0 <= k < |interests| :: b.interests.items[k] == Str(interests[k])
    ensures travelStyle.None? <==> b.travelStyle.Null?
    ensures activityLevel.None? <==> b.activityLevel.Null?
  {
    ProfileRoute.ProfileRequest(
      Arr(seq(|interests|, k requires 0 <= k < |interests| => Str(interests[k]))),
      if travelStyle.Some? then Str(travelStyle.value) else Null,
      if activityLevel.Some? then Str(activityLevel.value) else Null)
  }

  /** The quiz and the profile route agree: for a signed-in user whose row
      exists, submitting the answers chosen by the clicks `clicks` (the style
      and level buttons offer only the enums' values) answers 200,
      and the stored row holds exactly those interests, style and level and is
      marked complete. */
  lemma QuizSubmitSaves(
    st: Store, schema: Schema, session: Option<Id>, clicks: seq<string>,
    travelStyle: Option<string>, activityLevel: Option<string>)
    requires Authed(session) && HasUser(st.users, session.value)
    requires travelStyle.Some? ==> travelStyle.value in schema.travelStyles
    requires activityLevel.Some? ==> activityLevel.value in schema.activityLevels
    ensures var interests := Selection.ToggleAll([], clicks);
      var r := ProfileRoute.ProfileEndpoint(st, schema, session, QuizVerb,
        Parsed(QuizPayload(interests, travelStyle, activityLevel)));
      && r.status == 200
      && r.body.UserBody?
      && r.body.user.interests == interests
      && r.body.user.travelStyle == travelStyle
      && r.body.user.activityLevel == activityLevel
      && r.body.user.profileComplete
      && FindUser(r.store.users, session.value).Some?
  {
    var interests := Selection.ToggleAll([], clicks);
    var b := QuizPayload(interests, travelStyle, activityLevel);
    var u := FindUser(st.users, session.value).value;
    QuizColumn(interests, travelStyle, activityLevel, u.interests);
    var r := ProfileRoute.ProfileEndpoint(st, schema, session, QuizVerb, Parsed(b));
    ReplaceUserFinds(st.users, session.value, r.body.user);
  }

  /** The route reads the quiz's `interests` back as the selected list. */
  lemma QuizColumn(interests: seq<string>, travelStyle: Option<string>, activityLevel: Option<string>, current: seq<string>)
    ensures ProfileRoute.InterestsColumn(QuizPayload(interests, travelStyle, activityLevel).interests, current) == Some(interests)
  {
    var b := QuizPayload(interests, travelStyle, activityLevel);
    assert forall k | 0 <= k < |b.interests.items| :: b.interests.items[k].Str? && b.interests.items[k].s == interests[k];
    var col := ProfileRoute.InterestsColumn(b.interests, current);
    assert col.Some? && |col.value| == |interests|;
    assert col.value == interests;
  }
}

=== FILE: invite_dialog.dfy ===
/** The friend picker of the trip-invitation dialog: the selection it keeps,
    the `{ friendIds }` body it posts and when its button is enabled. The
    invitation route that receives the body is not part of this model. */
module InviteDialog {
  import opened Store
  import Selection

  /** `JSON.stringify({ friendIds: selectedFriendIds })` */
  datatype InvitePayload = InvitePayload(friendIds: seq<Id>)

  /** The button's `disabled`: a request is in flight or nothing is selected. */
  predicate InviteDisabled(isLoading: bool, selected: seq<Id>) {
    isLoading || |selected| == 0
  }

  /** The dialog's state after the clicks `clicks` on friend rows, starting
      from the empty selection, and the body the button would post. */
  function PayloadAfter(clicks: seq<Id>): (p: InvitePayload)
    ensures Selection.NoDup(p.friendIds)
    ensures forall id :: id in p.friendIds <==> Selection.Count(clicks, id) % 2 == 1
  {
    var selected := Selection.ToggleAll([], clicks);
    Selection.ToggleAllKeepsNoDup([], clicks);
    forall id ensures id in selected <==> Selection.Count(clicks, id) % 2 == 1 {
      Selection.ToggleAllParity([], clicks, id);
    }
    InvitePayload(selected)
  }

  /** With no request in flight the button is enabled exactly when some friend
      has been clicked an odd number of times, and every id it would send is
      one the user clicked. */
  lemma InviteEnabledIffSomeSelected(clicks: seq<Id>)
    ensures !InviteDisabled(false, PayloadAfter(clicks).friendIds) <==>
      exists k | 0 <= k < |clicks| :: Selection.Count(clicks, clicks[k]) % 2 == 1
    ensures forall id | id in PayloadAfter(clicks).friendIds :: id in clicks
  {
    var ids := PayloadAfter(clicks).friendIds;
    forall id | id in ids ensures id in clicks {
      CountZeroIfAbsent(clicks, id);
    }
    if |ids| > 0 {
      var id := ids[0];
      CountZeroIfAbsent(clicks, id);
      var k :| 0 <= k < |clicks| && clicks[k] == id;
    }
  }

  lemma {:induction false} CountZeroIfAbsent(xs: seq<Id>, x: Id)
    ensures x !in xs ==> Selection.Count(xs, x) == 0
    decreases |xs|
  {
    if |xs| > 0 {
      CountZeroIfAbsent(xs[1..], x);
      assert x !in xs ==> x !in xs[1..];
    }
  }
}

=== FILE: invites.dfy ===
/** The trip-invitation routes: `GET /api/trips/invites`,
    `POST /api/trips/invites/accept` and `POST /api/trips/invites/decline`. */
module InviteRoutes {
  import opened Js
  import opened Store
  import Seqs

  /** The body of accept and decline: `{ tripId }`. */
  datatype InviteRequest = InviteRequest(tripId: Value)

  const InvalidRequest := Message("Invalid request")
  const SomethingWentWrong := Message("Something went wrong")

  // ---------------------------------------------------------------------
  // GET /api/trips/invites

  /** `include: { trip: { select: { id, name } } }` */
  function TripOf(trips: seq<Trip>, tripId: Id): (t: Option<TripSummary>)
    ensures t.Some? <==> HasTrip(trips, tripId)
    ensures t.Some? ==> t.value.id == tripId
  {
    match FindTrip(trips, tripId)
    case None => None
    case Some(trip) => Some(TripSummary(trip.id, trip.name))
  }

  function IsPendingFor(userId: Id): Membership -> bool {
    (m: Membership) => m.userId == userId && m.status == Pending
  }

  /** `orderBy: { createdAt: 'desc' }` as an ascending sort on the negated key. */
  function NewestFirst(m: Membership): int {
    -m.createdAt
  }

  function InviteMemberships(vs: seq<InviteView>): (ms: seq<Membership>)
    ensures |ms| == |vs| && forall i | 0 <= i < |vs| :: ms[i] == vs[i].membership
  {
    seq(|vs|, i requires 0 <= i < |vs| => vs[i].membership)
  }

  /** The caller's PENDING memberships, newest first, each with its trip's id
      and name, and their number. An unauthenticated caller gets an empty list
      rather than an error. Nothing is written. */
  function ListInvites(st: Store, session: Option<Id>): (r: Reply)
    ensures r.status == 200 && r.store == st && r.body.InviteList?
    ensures r.body.count == |r.body.invites|
    ensures !Authed(session) ==> r.body.invites == []
    ensures Authed(session) ==>
      && (forall i | 0 <= i < |r.body.invites| ::
            && r.body.invites[i].membership in st.memberships
            && r.body.invites[i].membership.userId == session.value
            && r.body.invites[i].membership.status == Pending
            && r.body.invites[i].trip == TripOf(st.trips, r.body.invites[i].membership.tripId))
      && (forall i, j | 0 <= i < j < |r.body.invites| ::
            r.body.invites[i].membership.createdAt >= r.body.invites[j].membership.createdAt)
      && multiset(InviteMemberships(r.body.invites)) == multiset(Seqs.Filter(st.memberships, IsPendingFor(session.value)))
  {
    if !Authed(session) then Reply(200, InviteList([], 0), st)
    else
      var mine := Seqs.Filter(st.memberships, IsPendingFor(session.value));
      var sorted := Seqs.SortBy(mine, NewestFirst);
      PendingRowsOfCaller(st.memberships, session.value, sorted);
      var views := WithTrips(st.trips, sorted);
      Reply(200, InviteList(views, |views|), st)
  }

  /** Each membership with its trip's id and name (`include: { trip }`). */
  function WithTrips(trips: seq<Trip>, ms: seq<Membership>): (views: seq<InviteView>)
    ensures InviteMemberships(views) == ms
    ensures forall i | 0 <= i < |views| :: views[i].trip == TripOf(trips, ms[i].tripId)
  {
    var views := seq(|ms|, i requires 0 <= i < |ms| => InviteView(ms[i], TripOf(trips, ms[i].tripId)));
    assert InviteMemberships(views) == ms;
    views
  }

  /** Any arrangement of the caller's PENDING rows holds only such rows of
      the table. */
  lemma PendingRowsOfCaller(memberships: seq<Membership>, userId: Id, ms: seq<Membership>)
    requires multiset(ms) == multiset(Seqs.Filter(memberships, IsPendingFor(userId)))
    ensures forall i | 0 <= i < |ms| :: ms[i] in memberships && IsPendingFor(userId)(ms[i])
  {
    forall i | 0 <= i < |ms| ensures ms[i] in memberships && IsPendingFor(userId)(ms[i]) {
      assert ms[i] in multiset(Seqs.Filter(memberships, IsPendingFor(userId)));
    }
  }

  /** Every PENDING membership of the caller is listed. */
  lemma ListInvitesComplete(st: Store, userId: Id, k: int)
    requires userId != ""
    requires 0 <= k < |st.memberships|
    requires st.memberships[k].userId == userId && st.memberships[k].status == Pending
    ensures st.memberships[k] in InviteMemberships(ListInvites(st, Some(userId)).body.invites)
  {
    var mine := Seqs.Filter(st.memberships, IsPendingFor(userId));
    assert IsPendingFor(userId)(st.memberships[k]);
    assert st.memberships[k] in multiset(mine);
  }

  // ---------------------------------------------------------------------
  // POST /api/trips/invites/accept

  /** Sets the caller's membership of the trip to ACCEPTED. The body is read
      before the session check and outside the `try`, so a body that is not
      JSON is a framework 500 even for a caller with no session. A missing
      row makes `update` throw. */
  function AcceptInvite(st: Store, session: Option<Id>, req: Request<InviteRequest>): (r: Reply)
    ensures r.status in {200, 400, 500}
    ensures r.status == 400 <==> req.Parsed? && (!Authed(session) || !Truthy(req.body.tripId))
    ensures r.status == 200 <==>
      && req.Parsed? && Authed(session) && req.body.tripId.Str? && req.body.tripId.s != ""
      && FindMembership(st.memberships, req.body.tripId.s, session.value).Some?
    ensures r.status != 200 ==> r.store == st
    ensures r.status == 200 ==>
      && r.body == Message("Invitation accepted")
      && r.store == st.(memberships := SetStatus(st.memberships, req.body.tripId.s, session.value, Accepted))
    ensures Valid(st) ==> Valid(r.store)
  {
    match req
    case Malformed => Reply(500, Empty, st)
    case Parsed(b) =>
      if !Authed(session) || !Truthy(b.tripId) then Reply(400, InvalidRequest, st)
      else if !b.tripId.Str? then Reply(500, SomethingWentWrong, st)
      else match FindMembership(st.memberships, b.tripId.s, session.value)
        case None => Reply(500, SomethingWentWrong, st)
        case Some(_) =>
          var st' := st.(memberships := SetStatus(st.memberships, b.tripId.s, session.value, Accepted));
          assert Valid(st) ==> Valid(st') by {
            if Valid(st) { SetStatusValid(st, b.tripId.s, session.value, Accepted); }
          }
          Reply(200, Message("Invitation accepted"), st')
  }

  /** After a successful accept the row is ACCEPTED and no other row changed. */
  lemma AcceptSetsOnlyThatRow(st: Store, userId: Id, tripId: Id)
    requires Valid(st)
    ensures var r := AcceptInvite(st, Some(userId), Parsed(InviteRequest(Str(tripId))));
      r.status == 200 ==>
        && FindMembership(r.store.memberships, tripId, userId).Some?
        && FindMembership(r.store.memberships, tripId, userId).value.status == Accepted
        && |r.store.memberships| == |st.memberships|
        && forall i | 0 <= i < |st.memberships| ::
             !IsKey(st.memberships[i], tripId, userId) ==> r.store.memberships[i] == st.memberships[i]
  {
    var r := AcceptInvite(st, Some(userId), Parsed(InviteRequest(Str(tripId))));
    if r.status == 200 {
      var ms' := r.store.memberships;
      var found := FindMembership(st.memberships, tripId, userId).value;
      var k :| 0 <= k < |st.memberships| && st.memberships[k] == found;
      assert IsKey(ms'[k], tripId, userId);
      var m := FindMembership(ms', tripId, userId).value;
      var j :| 0 <= j < |ms'| && ms'[j] == m;
      assert IsKey(st.memberships[j], tripId, userId);
    }
  }

  /** Accepting twice leaves the database as accepting once, and the second
      call also answers 200. */
  lemma AcceptIdempotent(st: Store, session: Option<Id>, req: Request<InviteRequest>)
    ensures var r1 := AcceptInvite(st, session, req);
      var r2 := AcceptInvite(r1.store, session, req);
      r2.status == r1.status && r2.store == r1.store
  {
    var r1 := AcceptInvite(st, session, req);
    if r1.status == 200 {
      var t := req.body.tripId.s;
      var u := session.value;
      var ms1 := r1.store.memberships;
      var m := FindMembership(st.memberships, t, u).value;
      var k :| 0 <= k < |st.memberships| && st.memberships[k] == m;
      assert IsKey(ms1[k], t, u);
      assert FindMembership(ms1, t, u).Some?;
      assert SetStatus(ms1, t, u, Accepted) == ms1;
    }
  }

  // ---------------------------------------------------------------------
  // POST /api/trips/invites/decline

  /** Deletes the caller's membership of the trip after checking that it
      exists. Used both to decline a PENDING invitation and, since the status
      is not inspected, to leave a trip the caller had accepted or owns. */
  function DeclineInvite(st: Store, session: Option<Id>, req: Request<InviteRequest>): (r: Reply)
    ensures r.status in {200, 400, 404, 500}
    ensures r.status == 400 <==> req.Parsed? && (!Authed(session) || !Truthy(req.body.tripId))
    ensures r.status == 404 <==>
      && req.Parsed? && Authed(session) && req.body.tripId.Str? && req.body.tripId.s != ""
      && FindMembership(st.memberships, req.body.tripId.s, session.value).None?
    ensures r.status == 404 ==> r.body == Message("Invitation not found.")
    ensures r.status != 200 ==> r.store == st
    ensures r.status == 200 ==>
      && req.Parsed? && Authed(session) && req.body.tripId.Str?
      && r.body == Message("Invitation declined")
      && FindMembership(st.memberships, req.body.tripId.s, session.value).Some?
      && FindMembership(r.store.memberships, req.body.tripId.s, session.value).None?
      && r.store == st.(memberships := RemoveMembership(st.memberships, req.body.tripId.s, session.value))
    ensures Valid(st) ==> Valid(r.store)
  {
    match req
    case Malformed => Reply(500, Empty, st)
    case Parsed(b) =>
      if !Authed(session) || !Truthy(b.tripId) then Reply(400, InvalidRequest, st)
      else if !b.tripId.Str? then Reply(500, SomethingWentWrong, st)
      else match FindMembership(st.memberships, b.tripId.s, session.value)
        case None => Reply(404, Message("Invitation not found."), st)
        case Some(_) =>
          var ms' := RemoveMembership(st.memberships, b.tripId.s, session.value);
          assert Valid(st) ==> Valid(st.(memberships := ms')) by {
            if Valid(st) { RemoveMembershipValid(st, b.tripId.s, session.value); }
          }
          Reply(200, Message("Invitation declined"), st.(memberships := ms'))
  }

  /** Only the declined row goes: every other membership is still there. */
  lemma DeclineKeepsOthers(st: Store, session: Option<Id>, req: Request<InviteRequest>, i: int)
    requires 0 <= i < |st.memberships|
    ensures var r := DeclineInvite(st, session, req);
      r.status == 200 && !IsKey(st.memberships[i], req.body.tripId.s, session.value) ==>
        st.memberships[i] in r.store.memberships
  {
  }

  /** Declining the same invitation a second time finds no row: 404, and
      nothing changes. */
  lemma DeclineTwice(st: Store, session: Option<Id>, req: Request<InviteRequest>)
    ensures var r1 := DeclineInvite(st, session, req);
      r1.status == 200 ==>
        var r2 := DeclineInvite(r1.store, session, req);
        r2.status == 404 && r2.store == r1.store
  {
  }

  /** After a decline, accepting the same trip fails: the row is gone, so the
      `update` throws. */
  lemma AcceptAfterDecline(st: Store, session: Option<Id>, req: Request<InviteRequest>)
    ensures var r1 := DeclineInvite(st, session, req);
      r1.status == 200 ==> AcceptInvite(r1.store, session, req).status == 500
  {
  }
}

=== FILE: itinerary.dfy ===
/** The itinerary document the generation service returns, the route enriches
    with coordinates, the database stores inside a Suggestion and the trip map
    reads back. */
module Itinerary {
  import opened Js

  /** A geocoded position. The floating-point latitude and longitude are
      abstracted to integers; only their truthiness (0 is falsy) is ever
      inspected. */
  datatype Coord = Coord(lat: int, lng: int)

  /** The `coords` property of an activity: never written, written as `null`,
      or written as a `{lat, lng}` object. */
  datatype CoordField = Unset | NullCoords | At(c: Coord)

  /** One of the morning, afternoon or evening activities of a day. */
  datatype Activity = Activity(description: Value, locationName: Value, coords: CoordField)

  /** One day of an itinerary; a slot the generator left out is `None`. */
  datatype Day = Day(
    day: Value,
    theme: Value,
    morning: Option<Activity>,
    afternoon: Option<Activity>,
    evening: Option<Activity>)

  datatype Proposal = Proposal(title: Value, summary: Value, itinerary: seq<Day>)

  /** The parsed response: `{ proposals: [...] }`. */
  datatype SuggestionDoc = SuggestionDoc(proposals: seq<Proposal>)

  predicate CoordsTruthy(f: CoordField) {
    f.At?
  }
}

=== FILE: js.dfy ===
/** The JavaScript values the route handlers and components inspect, and the
    truthiness test (`!x`) the handlers apply to request fields. */
module Js {

  datatype Option<+T> = None | Some(value: T) {
    function GetOr(default: T): T {
      match this
      case Some(v) => v
      case None => default
    }
  }

  /** A JSON-like value as it arrives in a parsed request body. Numbers are
      integers: NaN and fractional values are not modelled. `Obj` stands for
      any object whose fields the code never reads. */
  datatype Value =
    | Undefined
    | Null
    | Bool(b: bool)
    | Num(n: int)
    | Str(s: string)
    | Arr(items: seq<Value>)
    | Obj

  /** JavaScript truthiness: `undefined`, `null`, `false`, `0` and `""` are
      falsy; every array and object is truthy. */
  predicate Truthy(v: Value) {
    match v
    case Undefined => false
    case Null => false
    case Bool(b) => b
    case Num(n) => n != 0
    case Str(s) => s != ""
    case Arr(_) => true
    case Obj => true
  }

  function DigitChar(d: int): char
    requires 0 <= d < 10
  {
    "0123456789"[d]
  }

  /** Decimal digits of a natural number, as `String(n)` prints them. */
  function NatToString(n: nat): (r: string)
    ensures |r| >= 1
    decreases n
  {
    if n < 10 then [DigitChar(n)] else NatToString(n / 10) + [DigitChar(n % 10)]
  }

  /** The string JavaScript's `+` produces when a value is concatenated with
      a string (`String(v)`); array elements that are null or undefined print
      as nothing. */
  function ToJsString(v: Value): string {
    match v
    case Undefined => "undefined"
    case Null => "null"
    case Bool(b) => if b then "true" else "false"
    case Num(n) => if n < 0 then "-" + NatToString(-n) else NatToString(n)
    case Str(s) => s
    case Arr(items) => JoinItems(items)
    case Obj => "[object Object]"
  }

  function JoinItems(items: seq<Value>): string
    decreases items
  {
    if |items| == 0 then ""
    else
      var head := if items[0].Undefined? || items[0].Null? then "" else ToJsString(items[0]);
      if |items| == 1 then head else head + "," + JoinItems(items[1..])
  }

  /** `session?.user?.id` as the handlers test it: absent and empty are both
      refused. */
  predicate Authed(session: Option<string>) {
    session.Some? && session.value != ""
  }

  lemma {:induction false} FalsyValues(v: Value)
    ensures !Truthy(v) <==> v in {Undefined, Null, Bool(false), Num(0), Str("")}
  {
    match v
    case Undefined =>
    case Null =>
    case Bool(b) =>
    case Num(n) =>
    case Str(s) =>
    case Arr(_) =>
    case Obj =>
  }
}

=== FILE: media_upload.dfy ===
/** The media picker of the post form: which files it takes, and what it
    tells its parent. */
module MediaUpload {
  import opened Js
  import opened Text
  import opened Browser

  datatype MediaType = Image | Video

  /** `previewUrl` and `mediaType`. */
  datatype Media = Media(previewUrl: Option<string>, mediaType: Option<MediaType>)

  const Empty := Media(None, None)

  /** The type a MIME type is taken as: an image type is recognised first,
      then a video type; anything else is refused. */
  function Classify(mime: string): (t: Option<MediaType>)
    ensures t == Some(Image) <==> StartsWith(mime, "image/")
    ensures t == Some(Video) <==> !StartsWith(mime, "image/") && StartsWith(mime, "video/")
    ensures t.None? <==> !StartsWith(mime, "image/") && !StartsWith(mime, "video/")
  {
    if StartsWith(mime, "image/") then Some(Image)
    else if StartsWith(mime, "video/") then Some(Video)
    else None
  }

  /** A change: the new state, the one value passed to `onFileSelect`, and
      whether the unsupported-type alert was shown and the input cleared. */
  datatype Change = Change(state: Media, toParent: Option<File>, alerted: bool, inputCleared: bool)

  /** `handleRemove`: no preview, no type, the parent told `null`, the input
      cleared. */
  function Remove(): (c: Change)
    ensures c.state == Empty && c.toParent.None? && c.inputCleared && !c.alerted
  {
    Change(Empty, None, false, true)
  }

  /** `handleFileChange`, where `objectUrl` is what `URL.createObjectURL`
      returns for the file. */
  function HandleFileChange(file: Option<File>, objectUrl: string): (c: Change)
    ensures file.None? ==> c == Remove()
    ensures file.Some? && Classify(file.value.mime).None? ==> c == Remove().(alerted := true)
    ensures file.Some? && Classify(file.value.mime).Some? ==>
      c == Change(Media(Some(objectUrl), Classify(file.value.mime)), file, false, false)
  {
    match file
    case None => Remove()
    case Some(f) =>
      match Classify(f.mime)
      case None => Remove().(alerted := true)
      case Some(t) => Change(Media(Some(objectUrl), Some(t)), Some(f), false, false)
  }

  /** A preview is shown exactly when a type is set. */
  predicate Consistent(m: Media) {
    m.previewUrl.Some? <==> m.mediaType.Some?
  }

  /** Every change leaves a consistent state, and the parent ends up holding
      a file exactly when a preview is shown; the file it holds is accepted
      and of the type shown. */
  lemma ChangeKeepsParentInStep(file: Option<File>, objectUrl: string)
    ensures var c := HandleFileChange(file, objectUrl);
      && Consistent(c.state)
      && (c.toParent.Some? <==> c.state.previewUrl.Some?)
      && (c.toParent.Some? ==> c.state.mediaType == Classify(c.toParent.value.mime) && c.toParent == file)
  {
  }

  /** A refused file leaves the picker as a removal does, with the alert
      besides. */
  lemma RefusedIsRemoved(f: File, objectUrl: string)
    requires !StartsWith(f.mime, "image/") && !StartsWith(f.mime, "video/")
    ensures HandleFileChange(Some(f), objectUrl).state == HandleFileChange(None, objectUrl).state
    ensures HandleFileChange(Some(f), objectUrl).toParent.None?
    ensures HandleFileChange(Some(f), objectUrl).alerted && !HandleFileChange(None, objectUrl).alerted
  {
  }

  /** No MIME type starts with both prefixes, so testing for an image first
      decides nothing: a type starting with "video/" is always a video. */
  lemma ImageFirstDecidesNothing(mime: string)
    ensures !(StartsWith(mime, "image/") && StartsWith(mime, "video/"))
    ensures StartsWith(mime, "video/") ==> Classify(mime) == Some(Video)
  {
    if StartsWith(mime, "image/") {
      assert mime[0] == "image/"[0];
    }
  }
}

=== FILE: post_card.dfy ===
/** A post in the feed: the like button's optimistic state and the comment
    form's guard. The like and comment routes are not part of this model. */
module PostCard {
  import opened Js
  import opened Text
  import opened Store
  import opened Fetch

  datatype LikeState = LikeState(isLiked: bool, likeCount: int)

  /** `!!session?.user?.id && post.likes.some(like => like.userId === session.user.id)` */
  function InitialLiked(sessionUserId: Option<Id>, likes: seq<Like>): (b: bool)
    ensures b <==> Authed(sessionUserId) && exists k | 0 <= k < |likes| :: likes[k].userId == sessionUserId.value
  {
    Authed(sessionUserId) && exists k | 0 <= k < |likes| :: likes[k].userId == sessionUserId.value
  }

  /** The state a card starts with, from `post.likes` and `post._count.likes`. */
  function InitialLikeState(sessionUserId: Option<Id>, likes: seq<Like>, count: int): (s: LikeState)
    ensures s.likeCount == count
  {
    LikeState(InitialLiked(sessionUserId, likes), count)
  }

  /** The optimistic update: liked flips and the count moves by one in the
      matching direction. */
  function Flip(s: LikeState): (r: LikeState)
    ensures r.isLiked == !s.isLiked
    ensures r.likeCount == if s.isLiked then s.likeCount - 1 else s.likeCount + 1
  {
    LikeState(!s.isLiked, if s.isLiked then s.likeCount - 1 else s.likeCount + 1)
  }

  /** What a click ends with: the state, an error notice, and whether the
      like request was sent and the page refreshed. */
  datatype LikeResult = LikeResult(state: LikeState, error: Option<string>, requested: bool, refreshed: bool)

  /** `handleLike` as written. Without a session nothing changes and no
      request is sent. With one, the optimistic update is applied; the
      response's status is never looked at, so only a throw reaches the
      `catch`, whose setters use the values from before the click: liked is
      set to `!isLiked` again and the count is moved the other way from the
      original. */
  function HandleLike(s: LikeState, hasSession: bool, resp: Response): (r: LikeResult)
    ensures !hasSession ==> r == LikeResult(s, Some("You must be logged in to like a post."), false, false)
    ensures hasSession ==> r.requested
    ensures hasSession && resp.Answered? ==> r.state == Flip(s) && r.refreshed && r.error.None?
    ensures hasSession && resp.Thrown? ==> r.error == Some("Something went wrong.") && !r.refreshed
  {
    if !hasSession then LikeResult(s, Some("You must be logged in to like a post."), false, false)
    else match resp
      case Answered(_, _) => LikeResult(Flip(s), None, true, true)
      case Thrown(_) =>
        LikeResult(LikeState(!s.isLiked, if s.isLiked then s.likeCount + 1 else s.likeCount - 1),
                   Some("Something went wrong."), true, false)
  }

  /** The `catch` does not restore the state it claims to revert: liked stays
      flipped, and the count ends one off from the original in the opposite
      direction to the click, two away from the optimistic count. From a
      liked post with 5 likes, a failed click leaves it unliked with 6. */
  lemma LikeRevertIsWrong(s: LikeState)
    ensures var r := HandleLike(s, true, Thrown("network"));
      && r.state != s
      && r.state.isLiked == Flip(s).isLiked
      && (r.state.likeCount - s.likeCount == 1 || s.likeCount - r.state.likeCount == 1)
      && (r.state.likeCount - Flip(s).likeCount == 2 || Flip(s).likeCount - r.state.likeCount == 2)
    ensures HandleLike(LikeState(true, 5), true, Thrown("network")).state == LikeState(false, 6)
  {
  }

  /** `handleLike` with the revert it means: a throw puts back the state from
      before the click. */
  function HandleLikeCorrected(s: LikeState, hasSession: bool, resp: Response): (r: LikeResult)
    ensures !hasSession ==> r == LikeResult(s, Some("You must be logged in to like a post."), false, false)
    ensures hasSession && resp.Answered? ==> r.state == Flip(s) && r.refreshed
    ensures hasSession && resp.Thrown? ==> r.state == s && r.error == Some("Something went wrong.")
  {
    if !hasSession then LikeResult(s, Some("You must be logged in to like a post."), false, false)
    else match resp
      case Answered(_, _) => LikeResult(Flip(s), None, true, true)
      case Thrown(_) => LikeResult(s, Some("Something went wrong."), true, false)
  }

  /** Two flips cancel, and with the corrected revert a click either is
      undone or lands on the optimistic state; the two versions agree except
      on a throw. */
  lemma CorrectedLikeConsistent(s: LikeState, hasSession: bool, resp: Response)
    ensures Flip(Flip(s)) == s
    ensures var r := HandleLikeCorrected(s, hasSession, resp);
      r.state == s || r.state == Flip(s)
    ensures !(hasSession && resp.Thrown?) ==> HandleLikeCorrected(s, hasSession, resp) == HandleLike(s, hasSession, resp)
  {
  }

  /** `{likeCount} {likeCount === 1 ? 'Like' : 'Likes'}` */
  function LikeLabel(count: int): (s: string)
    ensures s == ToJsString(Num(count)) + " Like" <==> count == 1
  {
    ToJsString(Num(count)) + (if count == 1 then " Like" else " Likes")
  }

  // ---------------------------------------------------------------------
  // handleCommentSubmit

  datatype CommentResult = CommentResult(text: string, toast: Option<Toast>, requested: bool)

  /** Without a session, or with only white space typed, no request is sent;
      an OK response clears the text; anything else keeps it and shows an
      error. */
  function SubmitComment(hasSession: bool, text: string, resp: Response): (r: CommentResult)
    ensures r.requested <==> hasSession && !AllSpace(text)
    ensures r.requested && resp.Answered? && resp.ok ==>
      r.text == "" && r.toast == Some(SuccessToast("Comment posted!"))
    ensures !(r.requested && resp.Answered? && resp.ok) ==> r.text == text
  {
    TrimEmptyIffAllSpace(text);
    if !hasSession then CommentResult(text, Some(ErrorToast("You must be logged in to comment.")), false)
    else if Trim(text) == "" then CommentResult(text, None, false)
    else if resp.Answered? && resp.ok then CommentResult("", Some(SuccessToast("Comment posted!")), true)
    else CommentResult(text, Some(ErrorToast("Something went wrong with your comment.")), true)
  }

  /** Submitting again after a submit: a posted comment leaves an empty box,
      so a second press sends nothing; a failed one leaves the text, so a
      second press sends it again. */
  lemma ResubmitComment(hasSession: bool, text: string, resp1: Response, resp2: Response)
    ensures var r1 := SubmitComment(hasSession, text, resp1);
      var r2 := SubmitComment(hasSession, r1.text, resp2);
      && (r1.requested && resp1.Answered? && resp1.ok ==> !r2.requested && r2.text == "")
      && (!(r1.requested && resp1.Answered? && resp1.ok) ==> r2.requested == r1.requested)
  {
  }
}

=== FILE: posts.dfy ===
/** `POST /api/posts` (create a post and award points in one transaction) and
    `GET /api/posts` (the feed). */
module PostRoutes {
  import opened Js
  import opened Store
  import Seqs

  /** Points credited to the author for each post. */
  const PointsPerPost := 10

  /** The fields read from the body: `{ content, imageUrl }`. */
  datatype PostRequest = PostRequest(content: Value, imageUrl: Value)

  const ErrorCreatingPost := Message("Error creating post")

  /** The optional `imageUrl` column accepts a string, or nothing when the
      field is absent or null; any other JSON value makes the ORM throw. */
  function ImageColumn(v: Value): (r: Option<Option<string>>)
    ensures r.Some? <==> v.Undefined? || v.Null? || v.Str?
    ensures r == Some(None) <==> v.Undefined? || v.Null?
    ensures v.Str? ==> r == Some(Some(v.s))
  {
    match v
    case Undefined => Some(None)
    case Null => Some(None)
    case Str(s) => Some(Some(s))
    case _ => None
  }

  /** Both writes of the transaction can succeed. */
  predicate PostWritable(st: Store, b: PostRequest, userId: Id, postId: Id) {
    && b.content.Str? && ImageColumn(b.imageUrl).Some?
    && !HasPost(st.posts, postId)
    && HasUser(st.users, userId)
  }

  /** Creates the post and increments the author's points by `PointsPerPost`,
      both or neither; the reply is the new post with `pointsAwarded`. */
  function CreatePost(st: Store, session: Option<Id>, req: Request<PostRequest>, postId: Id, now: Timestamp): (r: Reply)
    ensures r.status in {201, 400, 401, 500}
    ensures r.status == 401 <==> !Authed(session)
    ensures r.status == 400 <==> Authed(session) && req.Parsed? && !Truthy(req.body.content)
    ensures r.status == 400 ==> r.body == Message("Content is required")
    ensures r.status == 201 <==>
      Authed(session) && req.Parsed? && Truthy(req.body.content) && PostWritable(st, req.body, session.value, postId)
    ensures r.status != 201 ==> r.store == st
    ensures r.status == 201 ==>
      && r.body.PostBody? && r.body.pointsAwarded == PointsPerPost
      && r.body.post == Post(postId, session.value, req.body.content.s, ImageColumn(req.body.imageUrl).value, now)
      && r.store.posts == st.posts + [r.body.post]
      && r.store.users == AddPoints(st.users, session.value, PointsPerPost)
      && r.store.(users := st.users, posts := st.posts) == st
    ensures Valid(st) ==> Valid(r.store)
  {
    if !Authed(session) then Reply(401, Message("Not authenticated"), st)
    else match req
      case Malformed => Reply(500, ErrorCreatingPost, st)
      case Parsed(b) =>
        if !Truthy(b.content) then Reply(400, Message("Content is required"), st)
        else if !PostWritable(st, b, session.value, postId) then Reply(500, ErrorCreatingPost, st)
        else
          var post := Post(postId, session.value, b.content.s, ImageColumn(b.imageUrl).value, now);
          var st' := st.(posts := st.posts + [post], users := AddPoints(st.users, session.value, PointsPerPost));
          assert Valid(st) ==> Valid(st') by {
            if Valid(st) { AddPointsValid(st, st', session.value); }
          }
          Reply(201, PostBody(post, PointsPerPost), st')
  }

  /** Adding points changes no id or e-mail, so keys and references hold. */
  lemma AddPointsValid(st: Store, st': Store, userId: Id)
    requires Valid(st)
    requires HasUser(st.users, userId)
    requires exists p :: st'.posts == st.posts + [p] && p.authorId == userId && !HasPost(st.posts, p.id)
    requires st'.users == AddPoints(st.users, userId, PointsPerPost)
    requires st'.(users := st.users, posts := st.posts) == st
    ensures Valid(st')
  {
    var p :| st'.posts == st.posts + [p] && p.authorId == userId && !HasPost(st.posts, p.id);
    assert forall i | 0 <= i < |st.users| :: st'.users[i].id == st.users[i].id && st'.users[i].email == st.users[i].email;
    assert forall id | HasUser(st.users, id) :: HasUser(st'.users, id) by {
      forall id | HasUser(st.users, id) ensures HasUser(st'.users, id) {
        var k :| 0 <= k < |st.users| && st.users[k].id == id;
        assert st'.users[k].id == id;
      }
    }
    assert st'.posts[|st.posts|] == p;
  }

  /** The sum of all users' points. */
  function TotalPoints(users: seq<User>): int {
    if |users| == 0 then 0 else users[0].points + TotalPoints(users[1..])
  }

  lemma {:induction false} AddPointsTotal(users: seq<User>, id: Id, n: int)
    requires UniqueUsers(users)
    ensures TotalPoints(AddPoints(users, id, n)) == TotalPoints(users) + (if HasUser(users, id) then n else 0)
    decreases |users|
  {
    if |users| > 0 {
      var r := AddPoints(users, id, n);
      assert AddPoints(users[1..], id, n) == r[1..];
      assert UniqueUsers(users[1..]) by {
        forall i, j | 0 <= i < j < |users[1..]|
          ensures users[1..][i].id != users[1..][j].id && users[1..][i].email != users[1..][j].email
        {
          assert users[1..][i] == users[i + 1] && users[1..][j] == users[j + 1];
        }
      }
      AddPointsTotal(users[1..], id, n);
      if users[0].id == id {
        assert !HasUser(users[1..], id) by {
          forall k | 0 <= k < |users[1..]| ensures users[1..][k].id != id {
            assert users[1..][k] == users[k + 1];
          }
        }
      } else {
        assert HasUser(users, id) == HasUser(users[1..], id) by {
          if HasUser(users, id) {
            var k :| 0 <= k < |users| && users[k].id == id;
            assert users[1..][k - 1] == users[k];
          }
          if HasUser(users[1..], id) {
            var k :| 0 <= k < |users[1..]| && users[1..][k].id == id;
            assert users[k + 1] == users[1..][k];
          }
        }
      }
    }
  }

  /** A created post credits exactly `PointsPerPost` points in total, all to
      its author: the author's points rise by that much and nobody else's
      change. */
  lemma PostAwardsPoints(st: Store, session: Option<Id>, req: Request<PostRequest>, postId: Id, now: Timestamp)
    requires Valid(st)
    ensures var r := CreatePost(st, session, req, postId, now);
      r.status == 201 ==>
        && TotalPoints(r.store.users) == TotalPoints(st.users) + PointsPerPost
        && forall i | 0 <= i < |st.users| ::
             r.store.users[i].points == st.users[i].points + (if st.users[i].id == session.value then PointsPerPost else 0)
  {
    var r := CreatePost(st, session, req, postId, now);
    if r.status == 201 {
      AddPointsTotal(st.users, session.value, PointsPerPost);
    }
  }

  // ---------------------------------------------------------------------
  // GET /api/posts

  /** `author: { select: { name, image, email } }` of a comment. */
  function CommentAuthor(users: seq<User>, id: Id): (a: Option<AuthorSummary>)
    ensures a.Some? <==> HasUser(users, id)
    ensures a.Some? ==> exists u | u in users :: u.id == id && a.value == AuthorSummary(u.name, u.image, u.email)
  {
    match FindUser(users, id)
    case None => None
    case Some(u) => Some(AuthorSummary(u.name, u.image, u.email))
  }

  /** `author: { select: { id, name, image, email } }` of a post. */
  function PostAuthor(users: seq<User>, id: Id): (a: Option<UserSummary>)
    ensures a.Some? <==> HasUser(users, id)
    ensures a.Some? ==> a.value.id == id && exists u | u in users :: u.id == id && a.value == Summary(u)
  {
    match FindUser(users, id)
    case None => None
    case Some(u) => Some(Summary(u))
  }

  function OnPost(postId: Id): Comment -> bool {
    (c: Comment) => c.postId == postId
  }

  function LikesOf(postId: Id): Like -> bool {
    (l: Like) => l.postId == postId
  }

  function Oldest(c: Comment): int {
    c.createdAt
  }

  function Newest(p: Post): int {
    -p.createdAt
  }

  function CommentsOf(vs: seq<CommentView>): (cs: seq<Comment>)
    ensures |cs| == |vs| && forall i | 0 <= i < |vs| :: cs[i] == vs[i].comment
  {
    seq(|vs|, i requires 0 <= i < |vs| => vs[i].comment)
  }

  function FeedPosts(feed: seq<FeedPost>): (ps: seq<Post>)
    ensures |ps| == |feed| && forall i | 0 <= i < |feed| :: ps[i] == feed[i].post
  {
    seq(|feed|, i requires 0 <= i < |feed| => feed[i].post)
  }

  /** One post as the feed shows it: its author, its comments oldest first with
      their authors, and the number of likes (`_count.likes`). */
  function FeedEntry(st: Store, p: Post): (e: FeedPost)
    ensures e.post == p
    ensures e.author == PostAuthor(st.users, p.authorId)
    ensures e.likeCount == |Seqs.Filter(st.likes, LikesOf(p.id))|
    ensures multiset(CommentsOf(e.comments)) == multiset(Seqs.Filter(st.comments, OnPost(p.id)))
    ensures forall i, j | 0 <= i < j < |e.comments| :: e.comments[i].comment.createdAt <= e.comments[j].comment.createdAt
    ensures forall i | 0 <= i < |e.comments| ::
      e.comments[i].comment.postId == p.id && e.comments[i].author == CommentAuthor(st.users, e.comments[i].comment.authorId)
  {
    var cs := Seqs.SortBy(Seqs.Filter(st.comments, OnPost(p.id)), Oldest);
    SortedCommentsOnPost(st.comments, p.id, cs);
    var views := WithAuthors(st.users, cs);
    FeedPost(p, PostAuthor(st.users, p.authorId), views, |Seqs.Filter(st.likes, LikesOf(p.id))|)
  }

  /** Each comment with its author looked up (`include: { author }`). */
  function WithAuthors(users: seq<User>, cs: seq<Comment>): (views: seq<CommentView>)
    ensures CommentsOf(views) == cs
    ensures forall i | 0 <= i < |views| :: views[i].author == CommentAuthor(users, cs[i].authorId)
  {
    var views := seq(|cs|, i requires 0 <= i < |cs| => CommentView(cs[i], CommentAuthor(users, cs[i].authorId)));
    assert CommentsOf(views) == cs;
    views
  }

  /** Any arrangement of the post's comments holds only comments on it. */
  lemma SortedCommentsOnPost(comments: seq<Comment>, postId: Id, cs: seq<Comment>)
    requires multiset(cs) == multiset(Seqs.Filter(comments, OnPost(postId)))
    ensures forall i | 0 <= i < |cs| :: cs[i].postId == postId
  {
    forall i | 0 <= i < |cs| ensures cs[i].postId == postId {
      assert cs[i] in multiset(Seqs.Filter(comments, OnPost(postId)));
    }
  }

  /** Every post, newest first, each as `FeedEntry` shows it. Nothing is
      written. */
  function Feed(st: Store): (r: Reply)
    ensures r.status == 200 && r.store == st && r.body.FeedBody?
    ensures multiset(FeedPosts(r.body.feed)) == multiset(st.posts)
    ensures forall i, j | 0 <= i < j < |r.body.feed| :: r.body.feed[i].post.createdAt >= r.body.feed[j].post.createdAt
    ensures forall i | 0 <= i < |r.body.feed| :: r.body.feed[i] == FeedEntry(st, r.body.feed[i].post)
  {
    var ps := Seqs.SortBy(st.posts, Newest);
    var feed := seq(|ps|, i requires 0 <= i < |ps| => FeedEntry(st, ps[i]));
    assert FeedPosts(feed) == ps;
    Reply(200, FeedBody(feed), st)
  }

  /** A post just created appears in the next feed. */
  lemma CreatedPostInFeed(st: Store, session: Option<Id>, req: Request<PostRequest>, postId: Id, now: Timestamp)
    ensures var r := CreatePost(st, session, req, postId, now);
      r.status == 201 ==> r.body.post in FeedPosts(Feed(r.store).body.feed)
  {
    var r := CreatePost(st, session, req, postId, now);
    if r.status == 201 {
      var f := Feed(r.store);
      assert r.body.post in multiset(r.store.posts) by {
        assert r.store.posts[|st.posts|] == r.body.post;
      }
      assert r.body.post in multiset(FeedPosts(f.body.feed));
    }
  }
}

=== FILE: profile_client.dfy ===
/** Derivations of the profile page: the avatar initials (`getInitials`,
    which several components repeat word for word), the next reward threshold
    and the identity-verification panel. */
module ProfileClient {
  import opened Js
  import opened Text
  import Seqs

  // ---------------------------------------------------------------------
  // getInitials

  /** What `getInitials` evaluates to: a string, or `NaN`, which is what
      `undefined + undefined` gives. */
  datatype Initials = Chars(s: string) | NaN

  /** `s[0]`: a one-character string, or `undefined` for the empty string. */
  function FirstChar(s: string): (r: Option<string>)
    ensures r.None? <==> s == ""
    ensures r.Some? ==> r.value == [s[0]]
  {
    if |s| > 0 then Some([s[0]]) else None
  }

  /** JavaScript's `+` on two operands that are each a string or `undefined`:
      `undefined` next to a string prints as "undefined". */
  function Plus(a: Option<string>, b: Option<string>): Initials {
    match (a, b)
    case (Some(x), Some(y)) => Chars(x + y)
    case (Some(x), None) => Chars(x + "undefined")
    case (None, Some(y)) => Chars("undefined" + y)
    case (None, None) => NaN
  }

  /** `getInitials(name)`: "U" for a falsy name; otherwise the first character
      of the first word of `name.split(' ')`, followed, when there is more than
      one word, by the first character of the last. */
  function GetInitials(name: Option<string>): (r: Initials)
    ensures name.None? || name.value == "" ==> r == Chars("U")
  {
    if name.None? || name.value == "" then Chars("U")
    else
      var names := Split(name.value, ' ');
      Plus(FirstChar(names[0]), if |names| > 1 then FirstChar(names[|names| - 1]) else Some(""))
  }

  /** A name without spaces gives its first character. */
  lemma InitialsOfOneWord(w: string)
    requires w != "" && ' ' !in w
    ensures GetInitials(Some(w)) == Chars([w[0]])
  {
    JoinSplitPart(w, ' ');
  }

  /** Words joined by single spaces give the first character of the first word
      and of the last; the words in between play no part. */
  lemma InitialsOfWords(words: seq<string>)
    requires |words| >= 2
    requires forall k | 0 <= k < |words| :: words[k] != ""
    requires NoSep(words, ' ')
    ensures GetInitials(Some(Join(words, ' '))) == Chars([words[0][0], words[|words| - 1][0]])
  {
    var name := Join(words, ' ');
    JoinSplit(words, ' ');
    assert name == words[0] + [' '] + Join(words[1..], ' ');
    assert name != "";
    InitialsOfParts(name, words);
  }

  /** `getInitials` of a non-empty name whose parts are all non-empty. */
  lemma InitialsOfParts(name: string, parts: seq<string>)
    requires name != "" && Split(name, ' ') == parts && |parts| >= 2
    requires parts[0] != "" && parts[|parts| - 1] != ""
    ensures GetInitials(Some(name)) == Chars([parts[0][0], parts[|parts| - 1][0]])
  {
    assert FirstChar(parts[0]) == Some([parts[0][0]]);
    assert FirstChar(parts[|parts| - 1]) == Some([parts[|parts| - 1][0]]);
    assert [parts[0][0]] + [parts[|parts| - 1][0]] == [parts[0][0], parts[|parts| - 1][0]];
  }

  /** A leading, trailing or doubled space makes an empty word, whose `[0]` is
      `undefined`: a lone space gives `NaN`, and a trailing space after a word
      gives that word's initial followed by "undefined". */
  lemma InitialsOfStraySpaces()
    ensures GetInitials(Some(" ")) == NaN
    ensures GetInitials(Some("Ann ")) == Chars("Aundefined")
    ensures GetInitials(Some(" Ann")) == Chars("undefinedA")
  {
    SplitOfTwo("", "");
    SplitOfTwo("Ann", "");
    SplitOfTwo("", "Ann");
    assert "Ann"[0] == 'A';
    assert FirstChar("Ann") == Some("A");
    assert "A" + "undefined" == "Aundefined";
    assert "undefined" + "A" == "undefinedA";
  }

  /** Two space-free parts joined by one space split back into those parts. */
  lemma SplitOfTwo(a: string, b: string)
    requires ' ' !in a && ' ' !in b
    ensures Split(a + " " + b, ' ') == [a, b]
  {
    assert Join([a, b], ' ') == a + [' '] + Join([b], ' ') by {
      assert [a, b][1..] == [b];
    }
    assert a + " " + b == Join([a, b], ' ');
    JoinSplit([a, b], ' ');
  }

  function NonEmpty(): string -> bool {
    (w: string) => w != ""
  }

  /** The words of `name`: the non-empty parts of `name.split(' ')`. */
  function Words(name: string): (words: seq<string>)
    ensures forall k | 0 <= k < |words| :: words[k] != "" && ' ' !in words[k]
  {
    var parts := Split(name, ' ');
    SplitJoin(name, ' ');
    Seqs.Filter(parts, NonEmpty())
  }

  /** The initials with empty words skipped: what `getInitials` evidently
      means, since it never produces "undefined" or `NaN`. A name of nothing
      but spaces falls back to "U" like a missing one. */
  function GetInitialsCorrected(name: Option<string>): (r: Initials)
    ensures r.Chars? && 1 <= |r.s| <= 2
    ensures ' ' !in r.s
    ensures name.None? || name.value == "" ==> r == Chars("U")
  {
    if name.None? || name.value == "" then Chars("U")
    else
      var words := Words(name.value);
      if |words| == 0 then Chars("U")
      else if |words| > 1 then Chars([words[0][0], words[|words| - 1][0]])
      else Chars([words[0][0]])
  }

  /** On names whose words are separated by single spaces the corrected
      initials are those of `getInitials`. */
  lemma CorrectedAgreesOnWords(words: seq<string>)
    requires |words| >= 1
    requires forall k | 0 <= k < |words| :: words[k] != ""
    requires NoSep(words, ' ')
    ensures GetInitialsCorrected(Some(Join(words, ' '))) == GetInitials(Some(Join(words, ' ')))
  {
    var name := Join(words, ' ');
    JoinSplit(words, ' ');
    assert Split(name, ' ') == words;
    assert Words(name) == words by {
      Seqs.FilterKeepsAll(words, NonEmpty());
    }
    assert name != "" by {
      if |words| > 1 {
        assert name == words[0] + [' '] + Join(words[1..], ' ');
      }
    }
    SameInitials(name, words);
  }

  lemma SameInitials(name: string, words: seq<string>)
    requires name != "" && |words| >= 1
    requires forall k | 0 <= k < |words| :: words[k] != ""
    requires Split(name, ' ') == words && Words(name) == words
    ensures GetInitialsCorrected(Some(name)) == GetInitials(Some(name))
  {
  }

  // ---------------------------------------------------------------------
  // nextRewardPoints

  const RewardStep := 500

  /** `Math.ceil((points + 1) / 500) * 500`. For an integer `points` the
      ceiling of `(points + 1) / 500` equals the floor of
      `(points + 500) / 500`, which is Dafny's `/` by a positive divisor. The
      result is a multiple of 500 above `points` by at most 500. */
  function NextRewardPoints(points: int): (r: int)
    ensures r % RewardStep == 0
    ensures points < r <= points + RewardStep
  {
    var q := (points + RewardStep) / RewardStep;
    assert (q * RewardStep) % RewardStep == 0 by {
      assert q * RewardStep == RewardStep * q + 0;
    }
    q * RewardStep
  }

  /** No multiple of 500 lies strictly between `points` and the threshold:
      it is the smallest multiple of 500 greater than `points`. */
  lemma NextRewardIsSmallest(points: int, m: int)
    requires m % RewardStep == 0 && m > points
    ensures NextRewardPoints(points) <= m
  {
    var r := NextRewardPoints(points);
    var a := m / RewardStep;
    var b := r / RewardStep;
    assert m == RewardStep * a;
    assert r == RewardStep * b;
  }

  // ---------------------------------------------------------------------
  // Identity-verification panel

  datatype Panel = VerifiedPanel | PendingPanel | RejectedPanel | VerifyPrompt

  /** The panel shown for `user.verificationStatus`: the three known statuses
      each have their own, and anything else, a missing status included, gets
      the prompt to verify. */
  function VerificationPanel(status: Option<string>): (p: Panel)
    ensures p == VerifiedPanel <==> status == Some("VERIFIED")
    ensures p == PendingPanel <==> status == Some("PENDING")
    ensures p == RejectedPanel <==> status == Some("REJECTED")
    ensures p == VerifyPrompt <==> status !in {Some("VERIFIED"), Some("PENDING"), Some("REJECTED")}
  {
    if status == Some("VERIFIED") then VerifiedPanel
    else if status == Some("PENDING") then PendingPanel
    else if status == Some("REJECTED") then RejectedPanel
    else VerifyPrompt
  }

  /** The status each panel stands for; the prompt stands for a missing
      status. */
  function PanelStatus(p: Panel): (status: Option<string>)
    ensures p == VerifyPrompt <==> status.None?
  {
    match p
    case VerifiedPanel => Some("VERIFIED")
    case PendingPanel => Some("PENDING")
    case RejectedPanel => Some("REJECTED")
    case VerifyPrompt => None
  }

  /** The panels and the statuses they stand for are inverse: every panel
      is shown for its own status, and a known or missing status is the one
      its panel stands for. Different known statuses get different panels. */
  lemma PanelRoundTrip(p: Panel, status: Option<string>)
    ensures VerificationPanel(PanelStatus(p)) == p
    ensures status in {None, Some("VERIFIED"), Some("PENDING"), Some("REJECTED")} ==>
      PanelStatus(VerificationPanel(status)) == status
  {
  }
}

=== FILE: profile_route.dfy ===
/** `PUT /api/profile`: stores the interest-quiz answers and marks the profile
    complete. The file exports only `PUT`. */
module ProfileRoute {
  import opened Js
  import opened Store

  /** The fields destructured from the body. */
  datatype ProfileRequest = ProfileRequest(interests: Value, travelStyle: Value, activityLevel: Value)

  const ErrorUpdatingProfile := Message("Error updating profile")

  /** What `update` does with a value for the string-list column `interests`:
      `None` when the ORM rejects it, otherwise the new column value. An
      absent field leaves the column as it was. */
  function InterestsColumn(v: Value, current: seq<string>): (r: Option<seq<string>>)
    ensures v.Undefined? ==> r == Some(current)
    ensures v.Arr? && (forall k | 0 <= k < |v.items| :: v.items[k].Str?) ==>
      r.Some? && |r.value| == |v.items| && forall k | 0 <= k < |v.items| :: r.value[k] == v.items[k].s
    ensures !v.Undefined? && !(v.Arr? && forall k | 0 <= k < |v.items| :: v.items[k].Str?) ==> r.None?
  {
    match v
    case Undefined => Some(current)
    case Arr(items) =>
      if forall k | 0 <= k < |items| :: items[k].Str? then
        Some(seq(|items|, k requires 0 <= k < |items| => items[k].s))
      else None
    case _ => None
  }

  /** The same for an optional enum column whose values are `allowed`: absent
      keeps it, `null` clears it, one of the enum's values sets it, and any
      other string or any other value is rejected. */
  function OptionalColumn(v: Value, current: Option<string>, allowed: set<string>): (r: Option<Option<string>>)
    ensures v.Undefined? ==> r == Some(current)
    ensures v.Null? ==> r == Some(None)
    ensures v.Str? && v.s in allowed ==> r == Some(Some(v.s))
    ensures r.None? <==> !(v.Undefined? || v.Null? || (v.Str? && v.s in allowed))
  {
    match v
    case Undefined => Some(current)
    case Null => Some(None)
    case Str(s) => if s in allowed then Some(Some(s)) else None
    case _ => None
  }

  /** The user row after the update, or `None` when a field is rejected. */
  function UpdatedUser(u: User, b: ProfileRequest, schema: Schema): (r: Option<User>)
    ensures r.Some? <==>
      InterestsColumn(b.interests, u.interests).Some? &&
      OptionalColumn(b.travelStyle, u.travelStyle, schema.travelStyles).Some? &&
      OptionalColumn(b.activityLevel, u.activityLevel, schema.activityLevels).Some?
    ensures r.Some? ==>
      && r.value.profileComplete
      && r.value.interests == InterestsColumn(b.interests, u.interests).value
      && r.value.travelStyle == OptionalColumn(b.travelStyle, u.travelStyle, schema.travelStyles).value
      && r.value.activityLevel == OptionalColumn(b.activityLevel, u.activityLevel, schema.activityLevels).value
      && r.value.(interests := u.interests, travelStyle := u.travelStyle,
                  activityLevel := u.activityLevel, profileComplete := u.profileComplete) == u
  {
    match (InterestsColumn(b.interests, u.interests), OptionalColumn(b.travelStyle, u.travelStyle, schema.travelStyles),
           OptionalColumn(b.activityLevel, u.activityLevel, schema.activityLevels))
    case (Some(i), Some(t), Some(a)) =>
      Some(u.(interests := i, travelStyle := t, activityLevel := a, profileComplete := true))
    case _ => None
  }

  /** The `PUT` handler. A malformed body, a missing user row or a rejected
      field value (a style or level outside its enum among them) end in 500
      with nothing written; otherwise the caller's row is replaced by the
      updated one and returned. */
  function UpdateProfile(st: Store, schema: Schema, session: Option<Id>, req: Request<ProfileRequest>): (r: Reply)
    ensures r.status in {200, 401, 500}
    ensures r.status == 401 <==> !Authed(session)
    ensures r.status != 200 ==> r.store == st
    ensures r.status == 500 ==> r.body == ErrorUpdatingProfile
    ensures r.status == 200 <==>
      && Authed(session) && req.Parsed?
      && FindUser(st.users, session.value).Some?
      && UpdatedUser(FindUser(st.users, session.value).value, req.body, schema).Some?
    ensures r.status == 200 ==>
      && r.body.UserBody? && r.body.user.id == session.value && r.body.user.profileComplete
      && r.store == st.(users := ReplaceUser(st.users, session.value, r.body.user))
    ensures Valid(st) ==> Valid(r.store)
  {
    if !Authed(session) then Reply(401, Message("Not authenticated"), st)
    else match req
      case Malformed => Reply(500, ErrorUpdatingProfile, st)
      case Parsed(b) =>
        match FindUser(st.users, session.value)
        case None => Reply(500, ErrorUpdatingProfile, st)
        case Some(u) =>
          match UpdatedUser(u, b, schema)
          case None => Reply(500, ErrorUpdatingProfile, st)
          case Some(u') =>
            var st' := st.(users := ReplaceUser(st.users, session.value, u'));
            assert Valid(st) ==> Valid(st') by {
              if Valid(st) { ReplaceUserValid(st, u, u'); }
            }
            Reply(200, UserBody(u'), st')
  }

  /** Replacing a row by one with the same id and e-mail keeps `Valid`. */
  lemma ReplaceUserValid(st: Store, u: User, u': User)
    requires Valid(st) && u in st.users
    requires u'.id == u.id && u'.email == u.email
    ensures Valid(st.(users := ReplaceUser(st.users, u.id, u')))
  {
    var users' := ReplaceUser(st.users, u.id, u');
    forall i | 0 <= i < |st.users| ensures users'[i].id == st.users[i].id && users'[i].email == st.users[i].email {
      if st.users[i].id == u.id {
        var k :| 0 <= k < |st.users| && st.users[k] == u;
        assert k == i;
      }
    }
    forall id | HasUser(st.users, id) ensures HasUser(users', id) {
      var k :| 0 <= k < |st.users| && st.users[k].id == id;
      assert users'[k].id == id;
    }
  }

  /** Submitting the same answers again leaves the database as submitting them
      once. */
  lemma UpdateProfileIdempotent(st: Store, schema: Schema, session: Option<Id>, req: Request<ProfileRequest>)
    requires Valid(st)
    ensures var r1 := UpdateProfile(st, schema, session, req);
      r1.status == 200 ==>
        var r2 := UpdateProfile(r1.store, schema, session, req);
        r2.status == 200 && r2.store == r1.store
  {
    var r1 := UpdateProfile(st, schema, session, req);
    if r1.status == 200 {
      var id := session.value;
      var u := FindUser(st.users, id).value;
      var u' := r1.body.user;
      ReplaceUserFinds(st.users, id, u');
      assert UpdatedUser(u', req.body, schema) == Some(u');
      assert ReplaceUser(r1.store.users, id, u') == r1.store.users;
    }
  }

  /** A row's style and level are unset or values of their enums. */
  predicate EnumsHeld(u: User, schema: Schema) {
    && (u.travelStyle.Some? ==> u.travelStyle.value in schema.travelStyles)
    && (u.activityLevel.Some? ==> u.activityLevel.value in schema.activityLevels)
  }

  /** Whatever the body holds, an update never stores a style or level outside
      its enum: if every row held enum values before, every row does after. */
  lemma UpdateKeepsEnums(st: Store, schema: Schema, session: Option<Id>, req: Request<ProfileRequest>)
    requires forall i | 0 <= i < |st.users| :: EnumsHeld(st.users[i], schema)
    ensures var r := UpdateProfile(st, schema, session, req);
      forall i | 0 <= i < |r.store.users| :: EnumsHeld(r.store.users[i], schema)
  {
    var r := UpdateProfile(st, schema, session, req);
    if r.status == 200 {
      var u := FindUser(st.users, session.value).value;
      FoundUserHeld(st.users, session.value, schema);
      assert EnumsHeld(r.body.user, schema);
    }
  }

  lemma FoundUserHeld(users: seq<User>, id: Id, schema: Schema)
    requires forall i | 0 <= i < |users| :: EnumsHeld(users[i], schema)
    requires FindUser(users, id).Some?
    ensures EnumsHeld(FindUser(users, id).value, schema)
  {
    var k :| 0 <= k < |users| && users[k] == FindUser(users, id).value;
  }

  /** The route answers only `PUT`; every other method is a 405 with nothing
      written. */
  function ProfileEndpoint(st: Store, schema: Schema, session: Option<Id>, verb: string, req: Request<ProfileRequest>): (r: Reply)
    ensures verb != "PUT" ==> r.status == 405 && r.store == st
    ensures verb == "PUT" ==> r == UpdateProfile(st, schema, session, req)
  {
    if verb == "PUT" then UpdateProfile(st, schema, session, req) else Reply(405, Empty, st)
  }
}

=== FILE: query_string.dfy ===
/** How a search query travels in a URL: `searchParams.get('query')` on the
    server for a URL the client wrote as a path, `?query=` and some text, as
    the WHATWG URL parser and the application/x-www-form-urlencoded parser
    read it, and the escaping that `encodeURIComponent` applies to the
    characters that matter to them. */
module QueryString {

  /** A C0 control character or a space, which the URL parser strips from
      the end of the URL. */
  predicate ControlOrSpace(c: char) {
    c as int <= 0x20
  }

  /** The characters the URL parser strips or removes, those that end the
      value (`&` starts another pair, `#` the fragment) and those the decoder
      rewrites (`+` becomes a space, `%` starts an escape). */
  predicate Special(c: char) {
    ControlOrSpace(c) || c == '&' || c == '#' || c == '+' || c == '%'
  }

  /** The URL parser first strips trailing C0 controls and spaces; the query
      text ends the URL, so they come off its end. */
  function StripTrailing(s: string): (r: string)
    ensures |r| <= |s| && r == s[..|r|]
    ensures |s| > 0 && !ControlOrSpace(s[|s| - 1]) ==> r == s
    ensures forall i | |r| <= i < |s| :: ControlOrSpace(s[i])
    decreases |s|
  {
    if |s| > 0 && ControlOrSpace(s[|s| - 1]) then StripTrailing(s[..|s| - 1]) else s
  }

  /** It then removes every tab, line feed and carriage return. */
  function RemoveTabNewline(s: string): (r: string)
    ensures |r| <= |s|
    ensures (forall i | 0 <= i < |s| :: !ControlOrSpace(s[i])) ==> r == s
    ensures forall i | 0 <= i < |r| :: r[i] != '\t' && r[i] != '\n' && r[i] != '\r'
  {
    if |s| == 0 then ""
    else
      var rest := RemoveTabNewline(s[1..]);
      var head := if s[0] == '\t' || s[0] == '\n' || s[0] == '\r' then "" else [s[0]];
      assert forall i | 0 <= i < |head + rest| :: (head + rest)[i] != '\t' && (head + rest)[i] != '\n' && (head + rest)[i] != '\r' by {
        forall i | 0 <= i < |head + rest| ensures (head + rest)[i] != '\t' && (head + rest)[i] != '\n' && (head + rest)[i] != '\r' {
          if i >= |head| { assert (head + rest)[i] == rest[i - |head|]; }
        }
      }
      head + rest
  }

  predicate IsHex(c: char) {
    ('0' <= c <= '9') || ('A' <= c <= 'F') || ('a' <= c <= 'f')
  }

  function HexValue(c: char): (v: nat)
    requires IsHex(c)
    ensures v < 16
  {
    if '0' <= c <= '9' then c as int - '0' as int
    else if 'A' <= c <= 'F' then c as int - 'A' as int + 10
    else c as int - 'a' as int + 10
  }

  function HexDigit(d: nat): (c: char)
    requires d < 16
    ensures IsHex(c) && HexValue(c) == d
  {
    "0123456789ABCDEF"[d]
  }

  /** The value up to the first `&` or `#`: all of it when there is
      neither. */
  function FirstValue(raw: string): (v: string)
    ensures |v| <= |raw| && v == raw[..|v|]
    ensures forall i | 0 <= i < |v| :: v[i] != '&' && v[i] != '#'
    ensures |v| < |raw| ==> raw[|v|] == '&' || raw[|v|] == '#'
    ensures (forall i | 0 <= i < |raw| :: raw[i] != '&' && raw[i] != '#') ==> v == raw
  {
    if |raw| == 0 || raw[0] == '&' || raw[0] == '#' then ""
    else [raw[0]] + FirstValue(raw[1..])
  }

  /** Form decoding: `+` is a space and `%XY` with two hex digits is the
      character XY, for XY below 0x80; every other character stands for
      itself. */
  function Decode(s: string): (r: string)
    ensures |r| <= |s|
    ensures (forall i | 0 <= i < |s| :: s[i] != '%' && s[i] != '+') ==> r == s
    decreases |s|
  {
    if |s| == 0 then ""
    else if s[0] == '%' && |s| >= 3 && IsHex(s[1]) && IsHex(s[2]) && 16 * HexValue(s[1]) + HexValue(s[2]) < 0x80 then
      [(16 * HexValue(s[1]) + HexValue(s[2])) as char] + Decode(s[3..])
    else if s[0] == '+' then " " + Decode(s[1..])
    else [s[0]] + Decode(s[1..])
  }

  /** `searchParams.get('query')` for the URL `…?query=` + `raw`: after the
      parser's stripping and removal, the first pair is the query, cut at the
      first `&` or `#`, then decoded. Text of ordinary characters arrives
      as written, and nothing arrives longer than it was sent. */
  function QueryParam(raw: string): (q: string)
    ensures |q| <= |raw|
    ensures (forall i | 0 <= i < |raw| :: !Special(raw[i])) ==> q == raw
  {
    Decode(FirstValue(RemoveTabNewline(StripTrailing(raw))))
  }

  /** `%XY` for a special character: all of them are ASCII. */
  function Escape(c: char): (e: string)
    requires Special(c)
    ensures |e| == 3 && e[0] == '%' && IsHex(e[1]) && IsHex(e[2])
    ensures 16 * HexValue(e[1]) + HexValue(e[2]) == c as int
  {
    var n := c as int;
    ['%', HexDigit(n / 16), HexDigit(n % 16)]
  }

  /** `encodeURIComponent` on the characters the parser treats specially;
      the others it escapes are restored unchanged by the decoder and so are
      kept as they are here. */
  function Encode(s: string): (r: string)
    ensures forall i | 0 <= i < |r| :: !Special(r[i]) || r[i] == '%'
  {
    if |s| == 0 then ""
    else
      var head := if Special(s[0]) then Escape(s[0]) else [s[0]];
      var rest := Encode(s[1..]);
      assert forall i | 0 <= i < |head + rest| :: !Special((head + rest)[i]) || (head + rest)[i] == '%' by {
        forall i | 0 <= i < |head + rest| ensures !Special((head + rest)[i]) || (head + rest)[i] == '%' {
          if i >= |head| { assert (head + rest)[i] == rest[i - |head|]; }
        }
      }
      head + rest
  }

  /** Decoding undoes encoding. */
  lemma {:induction false} DecodeEncode(s: string)
    ensures Decode(Encode(s)) == s
    decreases |s|
  {
    if |s| > 0 {
      var rest := Encode(s[1..]);
      DecodeEncode(s[1..]);
      if Special(s[0]) {
        DecodeEscape(s[0], rest);
      } else {
        DecodeLiteral(s[0], rest);
      }
      assert s == [s[0]] + s[1..];
    }
  }

  /** An escape decodes to the character it escapes. */
  lemma DecodeEscape(c: char, rest: string)
    requires Special(c)
    ensures Decode(Escape(c) + rest) == [c] + Decode(rest)
  {
    var e := Escape(c);
    var t := e + rest;
    assert t[0] == '%' && t[1] == e[1] && t[2] == e[2] && t[3..] == rest;
    assert (16 * HexValue(t[1]) + HexValue(t[2])) as char == c;
  }

  /** A character that is neither `%` nor `+` decodes to itself. */
  lemma DecodeLiteral(c: char, rest: string)
    requires c != '%' && c != '+'
    ensures Decode([c] + rest) == [c] + Decode(rest)
  {
    assert ([c] + rest)[1..] == rest;
  }

  /** The round trip: an encoded query reaches the server as it was typed. */
  lemma QueryParamOfEncoded(q: string)
    ensures QueryParam(Encode(q)) == q
  {
    var e := Encode(q);
    assert forall i | 0 <= i < |e| :: !ControlOrSpace(e[i]) && e[i] != '&' && e[i] != '#';
    PrintableQuery(e);
    DecodeEncode(q);
  }

  /** Unescaped, a query starting with `&` reaches the server empty: the
      value ends where the next pair starts. */
  lemma AmpersandQueryEmpty()
    ensures QueryParam("&abc") == ""
  {
    var s := "&abc";
    assert |s| == 4 && s[0] == '&' && s[1] == 'a' && s[2] == 'b' && s[3] == 'c';
    CutAtFirst(s);
  }

  /** Unescaped, a query starting with `#` reaches the server empty: the rest
      is the fragment. */
  lemma HashQueryEmpty()
    ensures QueryParam("#abc") == ""
  {
    var s := "#abc";
    assert |s| == 4 && s[0] == '#' && s[1] == 'a' && s[2] == 'b' && s[3] == 'c';
    CutAtFirst(s);
  }

  /** Unescaped, a query of spaces only is stripped off the end of the URL. */
  lemma SpacesOnly()
    ensures QueryParam("   ") == ""
  {
    var s := "   ";
    assert s[..2] == "  " && "  "[..1] == " " && " "[..0] == "";
    assert StripTrailing(s) == "";
  }

  lemma CutAtFirst(s: string)
    requires |s| > 0 && (s[0] == '&' || s[0] == '#')
    requires forall i | 0 <= i < |s| :: !ControlOrSpace(s[i])
    ensures QueryParam(s) == ""
  {
    Untouched(s);
  }

  /** Unescaped, each `+` of a query reaches the server as a space. */
  lemma PlusBecomesSpace()
    ensures QueryParam("c++") == "c  "
  {
    var s := "c++";
    assert |s| == 3 && s[0] == 'c' && s[1] == '+' && s[2] == '+';
    PrintableQuery(s);
    assert s == ['c'] + "++" && "++" == ['+'] + "+" && "+" == ['+'] + "";
    DecodeLiteral('c', "++");
    DecodePlus("+");
    DecodePlus("");
  }

  /** A value of printable characters without `&` or `#` is only decoded. */
  lemma PrintableQuery(s: string)
    requires forall i | 0 <= i < |s| :: !ControlOrSpace(s[i]) && s[i] != '&' && s[i] != '#'
    ensures QueryParam(s) == Decode(s)
  {
    Untouched(s);
    assert FirstValue(s) == s;
  }

  /** A `+` decodes to a space. */
  lemma DecodePlus(rest: string)
    ensures Decode(['+'] + rest) == " " + Decode(rest)
  {
    assert (['+'] + rest)[1..] == rest;
  }

  /** Text of printable characters goes through the URL parser untouched. */
  lemma Untouched(s: string)
    requires forall i | 0 <= i < |s| :: !ControlOrSpace(s[i])
    ensures RemoveTabNewline(StripTrailing(s)) == s
  {
    if |s| > 0 {
      assert !ControlOrSpace(s[|s| - 1]);
    }
  }
}

=== FILE: reward_card.dfy ===
/** A reward in the catalogue: whether it can be claimed and what a claim
    shows. The claim route itself is not part of this model. */
module RewardCard {
  import opened Store
  import opened Fetch
  import RewardRoute

  /** `userPoints >= reward.pointsRequired` */
  predicate CanClaim(userPoints: int, pointsRequired: int) {
    userPoints >= pointsRequired
  }

  /** `disabled={!canClaim || isLoading}` */
  function ClaimDisabled(userPoints: int, pointsRequired: int, isLoading: bool): (d: bool)
    ensures !d <==> userPoints >= pointsRequired && !isLoading
  {
    !CanClaim(userPoints, pointsRequired) || isLoading
  }

  /** What `handleClaim` ends with: the notice, whether the page is
      refreshed, and the loading flag. */
  datatype Claimed = Claimed(toast: Toast, refreshed: bool, isLoading: bool)

  /** The body is read before `ok` is looked at, so a body that is not JSON
      throws even on success. An OK response refreshes the page; a refusal
      shows the server's message or 'Failed to claim reward.'; loading is
      cleared whatever happens. */
  function HandleClaim(resp: Response): (c: Claimed)
    ensures !c.isLoading
    ensures c.refreshed <==> resp.Answered? && resp.ok
    ensures c.refreshed ==> c.toast == SuccessToast("Reward claimed successfully!")
    ensures resp.Answered? && !resp.ok ==> c.toast == ErrorToast(MessageOr(resp.message, "Failed to claim reward."))
    ensures resp.Thrown? ==> c.toast == ErrorToast("An unexpected error occurred.")
  {
    match resp
    case Answered(ok, message) =>
      if ok then Claimed(SuccessToast("Reward claimed successfully!"), true, false)
      else Claimed(ErrorToast(MessageOr(message, "Failed to claim reward.")), false, false)
    case Thrown(_) => Claimed(ErrorToast("An unexpected error occurred."), false, false)
  }

  /** One claim from start to end: while the request is under way the
      button is disabled whatever the points, and once it settles, whatever
      the answer, the button is enabled again exactly when the points
      suffice. */
  lemma ClaimCycle(userPoints: int, pointsRequired: int, resp: Response)
    ensures ClaimDisabled(userPoints, pointsRequired, true)
    ensures !ClaimDisabled(userPoints, pointsRequired, HandleClaim(resp).isLoading) <==>
      CanClaim(userPoints, pointsRequired)
  {
  }

  /** On the rewards page, which lists the catalogue cheapest first, the
      rewards a user can claim are the first ones: a claimable reward is
      preceded only by claimable rewards, and every reward at or below the
      user's points is enabled once no claim is loading. */
  lemma ClaimableComeFirst(st: Store, userPoints: int)
    ensures var rs := RewardRoute.ListRewards(st).body.rewards;
      && (forall i, j | 0 <= i < j < |rs| :: CanClaim(userPoints, rs[j].pointsRequired) ==> CanClaim(userPoints, rs[i].pointsRequired))
      && (forall w | w in st.rewards && w.pointsRequired <= userPoints ::
            w in rs && !ClaimDisabled(userPoints, w.pointsRequired, false))
  {
    var rs := RewardRoute.ListRewards(st).body.rewards;
    forall w | w in st.rewards && w.pointsRequired <= userPoints ensures w in rs {
      assert w in multiset(st.rewards);
      assert w in multiset(rs);
    }
  }
}

=== FILE: rewards.dfy ===
/** `GET /api/rewards`: the reward catalogue, cheapest first. No session is
    required. */
module RewardRoute {
  import opened Store
  import Seqs

  function PointsRequired(w: Reward): int {
    w.pointsRequired
  }

  /** Every reward, in non-decreasing order of `pointsRequired`. Nothing is
      written. */
  function ListRewards(st: Store): (r: Reply)
    ensures r.status == 200 && r.store == st && r.body.RewardList?
    ensures multiset(r.body.rewards) == multiset(st.rewards)
    ensures forall i, j | 0 <= i < j < |r.body.rewards| :: r.body.rewards[i].pointsRequired <= r.body.rewards[j].pointsRequired
  {
    Reply(200, RewardList(Seqs.SortBy(st.rewards, PointsRequired)), st)
  }

  /** The cheapest reward is listed first. */
  lemma CheapestFirst(st: Store)
    requires |st.rewards| > 0
    ensures var rs := ListRewards(st).body.rewards;
      |rs| > 0 && forall w | w in st.rewards :: rs[0].pointsRequired <= w.pointsRequired
  {
    var rs := ListRewards(st).body.rewards;
    Seqs.SortedElements(st.rewards, PointsRequired);
    forall w | w in st.rewards ensures rs[0].pointsRequired <= w.pointsRequired {
      assert w in rs;
      var k :| 0 <= k < |rs| && rs[k] == w;
      if k > 0 {
        assert PointsRequired(rs[0]) <= PointsRequired(rs[k]);
      }
    }
  }
}

=== FILE: search.dfy ===
/** `GET /api/users/search?query=…`: users other than the caller whose name or
    e-mail contains the query, ignoring case, at most ten. */
module SearchRoute {
  import opened Js
  import opened Text
  import opened Store
  import Seqs

  /** The `take` limit. */
  const MaxResults := 10

  /** `name contains query` or `email contains query`, both insensitive; a user
      with no name can match only on the e-mail. */
  function SearchMatch(query: string, callerId: Id): User -> bool {
    (u: User) =>
      u.id != callerId &&
      ((u.name.Some? && ContainsInsensitive(u.name.value, query)) || ContainsInsensitive(u.email, query))
  }

  /** The same condition as `SearchMatch`, stated by occurrence. */
  ghost predicate Matches(u: User, query: string, callerId: Id) {
    && u.id != callerId
    && ((u.name.Some? && OccursIn(LowerAll(query), LowerAll(u.name.value))) ||
        OccursIn(LowerAll(query), LowerAll(u.email)))
  }

  lemma SearchMatchIsMatches(u: User, query: string, callerId: Id)
    ensures SearchMatch(query, callerId)(u) <==> Matches(u, query, callerId)
  {
  }

  /** `v` is the summary of some user in `users` that matches the query. */
  ghost predicate SummaryOfMatch(v: UserSummary, users: seq<User>, query: string, callerId: Id) {
    exists u | u in users :: Matches(u, query, callerId) && v == Summary(u)
  }

  /** `query` is `searchParams.get('query')`: `None` when the parameter is
      absent. An absent or empty query is refused with 400. Nothing is
      written. */
  function SearchUsers(st: Store, session: Option<Id>, query: Option<string>): (r: Reply)
    ensures r.store == st
    ensures r.status in {200, 400, 401}
    ensures r.status == 401 <==> !Authed(session)
    ensures r.status == 400 <==> Authed(session) && (query.None? || query.value == "")
    ensures r.status == 400 ==> r.body == Message("Search query is required")
    ensures r.status == 200 ==>
      && r.body.SummaryList?
      && |r.body.users| <= MaxResults
      && (forall i | 0 <= i < |r.body.users| :: SummaryOfMatch(r.body.users[i], st.users, query.value, session.value))
      && (|r.body.users| < MaxResults ==>
            forall u | u in st.users && Matches(u, query.value, session.value) :: Summary(u) in r.body.users)
  {
    if !Authed(session) then Reply(401, Message("Not authenticated"), st)
    else if query.None? || query.value == "" then Reply(400, Message("Search query is required"), st)
    else
      var result := Summaries(Seqs.Take(Seqs.Filter(st.users, SearchMatch(query.value, session.value)), MaxResults));
      ResultsMatch(st.users, query.value, session.value, result);
      ShortResultsComplete(st.users, query.value, session.value, result);
      Reply(200, SummaryList(result), st)
  }

  /** Every summary returned is that of a matching user. */
  lemma ResultsMatch(users: seq<User>, query: string, callerId: Id, result: seq<UserSummary>)
    requires result == Summaries(Seqs.Take(Seqs.Filter(users, SearchMatch(query, callerId)), MaxResults))
    ensures
      forall i | 0 <= i < |result| :: SummaryOfMatch(result[i], users, query, callerId)
  {
    var matching := Seqs.Filter(users, SearchMatch(query, callerId));
    var taken := Seqs.Take(matching, MaxResults);
    forall i | 0 <= i < |result|
      ensures SummaryOfMatch(result[i], users, query, callerId)
    {
      assert taken[i] == matching[i];
      SearchMatchIsMatches(matching[i], query, callerId);
    }
  }

  /** Fewer than ten results means no matching user was cut off. */
  lemma ShortResultsComplete(users: seq<User>, query: string, callerId: Id, result: seq<UserSummary>)
    requires result == Summaries(Seqs.Take(Seqs.Filter(users, SearchMatch(query, callerId)), MaxResults))
    ensures
      |result| < MaxResults ==>
        forall u | u in users && Matches(u, query, callerId) :: Summary(u) in result
  {
    var matching := Seqs.Filter(users, SearchMatch(query, callerId));
    var taken := Seqs.Take(matching, MaxResults);
    if |result| < MaxResults {
      assert taken == matching;
      forall u | u in users && Matches(u, query, callerId) ensures Summary(u) in result {
        SearchMatchIsMatches(u, query, callerId);
        var j :| 0 <= j < |users| && users[j] == u;
        assert u in matching;
        var k :| 0 <= k < |matching| && matching[k] == u;
        assert result[k] == Summary(u);
      }
    }
  }

  /** The caller never appears in their own results. */
  lemma SearchExcludesCaller(st: Store, session: Option<Id>, query: Option<string>)
    ensures var r := SearchUsers(st, session, query);
      r.status == 200 ==> forall i | 0 <= i < |r.body.users| :: r.body.users[i].id != session.value
  {
    var r := SearchUsers(st, session, query);
    if r.status == 200 {
      forall i | 0 <= i < |r.body.users| ensures r.body.users[i].id != session.value {
        assert SummaryOfMatch(r.body.users[i], st.users, query.value, session.value);
        var u :| u in st.users && Matches(u, query.value, session.value) && r.body.users[i] == Summary(u);
      }
    }
  }
}

=== FILE: selection.dfy ===
/** The add/remove toggle of a multi-select list, as the friend picker of the
    invite dialog and the interest picker of the quiz both write it: an item
    already selected is filtered out, any other item is appended. */
module Selection {
  import Seqs

  /** The filter predicate `i => i !== x`. */
  function Other<T(==)>(x: T): T -> bool {
    (y: T) => y != x
  }

  /** No item is selected twice. */
  predicate NoDup<T(==)>(s: seq<T>) {
    forall i, j | 0 <= i < j < |s| :: s[i] != s[j]
  }

  /** `prev.includes(x) ? prev.filter(i => i !== x) : [...prev, x]`: afterwards
      `x` is selected exactly when it was not before, and every other item is
      selected exactly as before. */
  function Toggle<T(==,!new)>(s: seq<T>, x: T): (r: seq<T>)
    ensures x in r <==> x !in s
    ensures forall y | y != x :: y in r <==> y in s
  {
    if x in s then Seqs.Filter(s, Other(x)) else s + [x]
  }

  /** The items other than `x` keep their relative order: with `x` filtered
      out, the selection before and after the toggle is the same sequence. */
  lemma ToggleKeepsOthersInOrder<T(!new)>(s: seq<T>, x: T)
    ensures Seqs.Filter(Toggle(s, x), Other(x)) == Seqs.Filter(s, Other(x))
  {
    var f := Seqs.Filter(s, Other(x));
    if x in s {
      Seqs.FilterKeepsAll(f, Other(x));
    } else {
      Seqs.FilterAppend(s, [x], Other(x));
      assert Seqs.Filter([x], Other(x)) == [] by {
        assert [x][1..] == [];
      }
    }
  }

  /** A selection without duplicates stays without duplicates. */
  lemma ToggleKeepsNoDup<T(!new)>(s: seq<T>, x: T)
    requires NoDup(s)
    ensures NoDup(Toggle(s, x))
  {
    if x in s {
      var distinct := (a: T, b: T) => a != b;
      assert forall i, j | 0 <= i < j < |s| :: distinct(s[i], s[j]);
      Seqs.FilterKeepsPairwise(s, Other(x), distinct);
    } else {
      var r := s + [x];
      forall i, j | 0 <= i < j < |r| ensures r[i] != r[j] {
        if j == |s| {
          assert r[i] == s[i];
        } else {
          assert r[i] == s[i] && r[j] == s[j];
        }
      }
    }
  }

  /** Toggling the same item twice gives back the same set of items. An item
      that was not selected leaves the selection exactly as it was; one that
      was selected comes back at the end, so when it was not already last the
      order differs. */
  lemma ToggleTwice<T(!new)>(s: seq<T>, x: T)
    ensures forall y :: y in Toggle(Toggle(s, x), x) <==> y in s
    ensures x !in s ==> Toggle(Toggle(s, x), x) == s
    ensures x in s ==> Toggle(Toggle(s, x), x) == Seqs.Filter(s, Other(x)) + [x]
    ensures x in s && s[|s| - 1] != x ==> Toggle(Toggle(s, x), x) != s
  {
    var t := Toggle(Toggle(s, x), x);
    if x !in s {
      Seqs.FilterAppend(s, [x], Other(x));
      assert Seqs.Filter([x], Other(x)) == [] by {
        assert [x][1..] == [];
      }
      Seqs.FilterKeepsAll(s, Other(x));
    } else {
      assert t[|t| - 1] == x;
    }
  }

  /** How many times `x` occurs in `xs`. */
  function Count<T(==)>(xs: seq<T>, x: T): nat {
    if |xs| == 0 then 0 else (if xs[0] == x then 1 else 0) + Count(xs[1..], x)
  }

  /** The selection after the clicks `xs`, one toggle per click, in order. */
  function ToggleAll<T(==,!new)>(s: seq<T>, xs: seq<T>): seq<T>
    decreases |xs|
  {
    if |xs| == 0 then s else ToggleAll(Toggle(s, xs[0]), xs[1..])
  }

  /** After any run of clicks an item's selection has flipped once per click
      on it: it is selected exactly when it started selected and was clicked
      an even number of times, or started unselected and was clicked an odd
      number of times. */
  lemma {:induction false} ToggleAllParity<T(!new)>(s: seq<T>, xs: seq<T>, x: T)
    ensures x in ToggleAll(s, xs) <==> (x in s) != (Count(xs, x) % 2 == 1)
  {
    ToggleAllOdd(s, xs, x);
    OddIsCount(xs, x);
  }

  /** Whether `x` occurs an odd number of times in `xs`. */
  function Odd<T(==)>(xs: seq<T>, x: T): bool {
    if |xs| == 0 then false else (xs[0] == x) != Odd(xs[1..], x)
  }

  lemma {:induction false} OddIsCount<T>(xs: seq<T>, x: T)
    ensures Odd(xs, x) == (Count(xs, x) % 2 == 1)
    decreases |xs|
  {
    if |xs| > 0 {
      OddIsCount(xs[1..], x);
    }
  }

  lemma {:induction false} ToggleAllOdd<T(!new)>(s: seq<T>, xs: seq<T>, x: T)
    ensures x in ToggleAll(s, xs) <==> (x in s) != Odd(xs, x)
    decreases |xs|
  {
    if |xs| > 0 {
      ToggleAllOdd(Toggle(s, xs[0]), xs[1..], x);
      ToggleFlip(s, xs[0], x);
    }
  }

  /** One click flips the selection of the clicked item only. */
  lemma ToggleFlip<T(!new)>(s: seq<T>, y: T, x: T)
    ensures (x in Toggle(s, y)) == ((x in s) != (y == x))
  {
  }

  /** Clicks keep a duplicate-free selection duplicate-free. */
  lemma {:induction false} ToggleAllKeepsNoDup<T(!new)>(s: seq<T>, xs: seq<T>)
    requires NoDup(s)
    ensures NoDup(ToggleAll(s, xs))
    decreases |xs|
  {
    if |xs| > 0 {
      ToggleKeepsNoDup(s, xs[0]);
      ToggleAllKeepsNoDup(Toggle(s, xs[0]), xs[1..]);
    }
  }
}

=== FILE: seqs.dfy ===
/** Sequence operations the database queries are built from: `where`
    filtering, `orderBy` on one integer key, and `take`. */
module Seqs {

  /** The elements of `s` satisfying `keep`, in their original order. */
  function Filter<T>(s: seq<T>, keep: T -> bool): (r: seq<T>)
    ensures |r| <= |s|
    ensures forall i | 0 <= i < |r| :: r[i] in s && keep(r[i])
    ensures forall i | 0 <= i < |s| :: keep(s[i]) ==> s[i] in r
  {
    if |s| == 0 then []
    else if keep(s[0]) then [s[0]] + Filter(s[1..], keep)
    else Filter(s[1..], keep)
  }

  /** A relation that holds between every earlier and later element still
      holds after filtering, since filtering keeps the relative order. */
  lemma {:induction false} FilterKeepsPairwise<T>(s: seq<T>, keep: T -> bool, rel: (T, T) -> bool)
    requires forall i, j | 0 <= i < j < |s| :: rel(s[i], s[j])
    ensures forall i, j | 0 <= i < j < |Filter(s, keep)| :: rel(Filter(s, keep)[i], Filter(s, keep)[j])
    decreases |s|
  {
    if |s| > 0 {
      var tail := Filter(s[1..], keep);
      FilterKeepsPairwise(s[1..], keep, rel);
      if keep(s[0]) {
        HeadRelatesToFiltered(s, keep, rel);
        ConsPairwise(s[0], tail, rel);
      } else {
        assert Filter(s, keep) == tail;
      }
    }
  }

  /** The first element is related to every later element that filtering
      keeps. */
  lemma HeadRelatesToFiltered<T>(s: seq<T>, keep: T -> bool, rel: (T, T) -> bool)
    requires |s| > 0
    requires forall i, j | 0 <= i < j < |s| :: rel(s[i], s[j])
    ensures forall b | 0 <= b < |Filter(s[1..], keep)| :: rel(s[0], Filter(s[1..], keep)[b])
  {
    var tail := Filter(s[1..], keep);
    forall b | 0 <= b < |tail| ensures rel(s[0], tail[b]) {
      var k :| 0 <= k < |s[1..]| && s[1..][k] == tail[b];
      assert s[k + 1] == tail[b];
    }
  }

  /** Putting in front an element related to everything keeps a sequence
      pairwise related. */
  lemma ConsPairwise<T>(x: T, tail: seq<T>, rel: (T, T) -> bool)
    requires forall b | 0 <= b < |tail| :: rel(x, tail[b])
    requires forall a, b | 0 <= a < b < |tail| :: rel(tail[a], tail[b])
    ensures forall i, j | 0 <= i < j < |[x] + tail| :: rel(([x] + tail)[i], ([x] + tail)[j])
  {
    var r := [x] + tail;
    forall i, j | 0 <= i < j < |r| ensures rel(r[i], r[j]) {
      assert r[j] == tail[j - 1];
      if i > 0 {
        assert r[i] == tail[i - 1];
      }
    }
  }

  /** Filtering a concatenation filters each part. */
  lemma {:induction false} FilterAppend<T>(a: seq<T>, b: seq<T>, keep: T -> bool)
    ensures Filter(a + b, keep) == Filter(a, keep) + Filter(b, keep)
    decreases |a|
  {
    if |a| > 0 {
      assert (a + b)[1..] == a[1..] + b;
      FilterAppend(a[1..], b, keep);
    } else {
      assert a + b == b;
    }
  }

  /** A filter that keeps every element is the identity. */
  lemma {:induction false} FilterKeepsAll<T>(s: seq<T>, keep: T -> bool)
    requires forall i | 0 <= i < |s| :: keep(s[i])
    ensures Filter(s, keep) == s
    decreases |s|
  {
    if |s| > 0 {
      assert forall i | 0 <= i < |s[1..]| :: keep(s[1..][i]) by {
        forall i | 0 <= i < |s[1..]| ensures keep(s[1..][i]) {
          assert s[1..][i] == s[i + 1];
        }
      }
      FilterKeepsAll(s[1..], keep);
      assert s == [s[0]] + s[1..];
    }
  }

  /** A filter that keeps no element gives the empty sequence. */
  lemma {:induction false} FilterKeepsNone<T>(s: seq<T>, keep: T -> bool)
    requires forall i | 0 <= i < |s| :: !keep(s[i])
    ensures Filter(s, keep) == []
    decreases |s|
  {
    if |s| > 0 {
      assert forall i | 0 <= i < |s[1..]| :: !keep(s[1..][i]) by {
        forall i | 0 <= i < |s[1..]| ensures !keep(s[1..][i]) {
          assert s[1..][i] == s[i + 1];
        }
      }
      FilterKeepsNone(s[1..], keep);
    }
  }

  /** `take: n` */
  function Take<T>(s: seq<T>, n: nat): (r: seq<T>)
    ensures |r| == if |s| <= n then |s| else n
    ensures r <= s
  {
    if |s| <= n then s else s[..n]
  }

  /** Elements are in non-decreasing order of `key`. */
  predicate SortedBy<T>(s: seq<T>, key: T -> int) {
    forall i, j | 0 <= i < j < |s| :: key(s[i]) <= key(s[j])
  }

  function Insert<T>(x: T, s: seq<T>, key: T -> int): (r: seq<T>)
    requires SortedBy(s, key)
    ensures SortedBy(r, key)
    ensures multiset(r) == multiset(s) + multiset{x}
  {
    if |s| == 0 then [x]
    else if key(x) <= key(s[0]) then [x] + s
    else
      var tail := Insert(x, s[1..], key);
      assert s == [s[0]] + s[1..];
      ConsSorted(s, x, tail, key);
      [s[0]] + tail
  }

  /** The head of a sorted `s`, at most `key(x)`, stays in front of any
      sorted arrangement of the rest of `s` with `x`. */
  lemma ConsSorted<T>(s: seq<T>, x: T, tail: seq<T>, key: T -> int)
    requires |s| > 0 && SortedBy(s, key) && SortedBy(tail, key)
    requires key(s[0]) <= key(x)
    requires multiset(tail) == multiset(s[1..]) + multiset{x}
    ensures SortedBy([s[0]] + tail, key)
  {
    forall i | 0 <= i < |tail| ensures key(s[0]) <= key(tail[i]) {
      var y := tail[i];
      assert y in multiset(tail);
      if y != x {
        assert y in multiset(s[1..]);
        var k :| 0 <= k < |s[1..]| && s[1..][k] == y;
        assert s[k + 1] == y;
      }
    }
    var r := [s[0]] + tail;
    forall i, j | 0 <= i < j < |r| ensures key(r[i]) <= key(r[j]) {
      assert r[j] == tail[j - 1];
      if i > 0 { assert r[i] == tail[i - 1]; }
    }
  }

  /** `orderBy` on `key`, ascending: a sorted permutation of the input. The
      database leaves the order of equal keys unspecified; this is one
      admissible choice. */
  function SortBy<T>(s: seq<T>, key: T -> int): (r: seq<T>)
    ensures SortedBy(r, key)
    ensures multiset(r) == multiset(s)
  {
    if |s| == 0 then []
    else
      assert s == [s[0]] + s[1..];
      Insert(s[0], SortBy(s[1..], key), key)
  }

  /** Sorting never gains or loses elements. */
  lemma SortedElements<T>(s: seq<T>, key: T -> int)
    ensures |SortBy(s, key)| == |s|
    ensures forall x :: x in SortBy(s, key) <==> x in s
  {
    var r := SortBy(s, key);
    assert |r| == |multiset(r)| == |multiset(s)| == |s|;
    forall x ensures x in r <==> x in s {
      assert x in r <==> x in multiset(r);
      assert x in s <==> x in multiset(s);
    }
  }
}

=== FILE: store.dfy ===
/** The database as an immutable value: one sequence per table, in insertion
    order, plus the record types the route handlers answer with.

    Assumptions about the ORM that the handlers rely on:
    - a lookup by unique key (`findUnique`) yields `None` when nothing matches;
    - `update` or `delete` of a missing key throws, and a handler's `catch`
      turns the throw into a 500;
    - `createMany` fails as a whole on a duplicate (tripId, userId) pair or on a
      user id with no user row;
    - a nested create (a trip with its memberships) and `$transaction` are
      atomic: all rows are written or none;
    - (tripId, userId) is unique among memberships, user ids and e-mails are
      unique, and every membership, post and suggestion refers to existing
      rows; `Valid` states these and every writing handler preserves them. */
module Store {
  import opened Js
  import opened Itinerary
  import Seqs

  type Id = string

  /** `createdAt`: an abstract, totally ordered timestamp. */
  type Timestamp = int

  datatype TripRole = Owner | Member
  datatype MembershipStatus = Pending | Accepted
  datatype RequestStatus = RequestPending | RequestAccepted

  datatype User = User(
    id: Id,
    email: string,
    password: Option<string>,
    name: Option<string>,
    image: Option<string>,
    role: Option<string>,
    points: int,
    profileComplete: bool,
    interests: seq<string>,
    travelStyle: Option<string>,
    activityLevel: Option<string>,
    documentUrl: Option<string>)

  /** Start and end dates are kept as the request supplied them (date parsing
      is not modelled); `budget` is `Some(v)` when the request's budget `v`
      was truthy and so went through `parseFloat`. */
  datatype Trip = Trip(
    id: Id,
    name: string,
    destination: string,
    travelStartDate: Value,
    travelEndDate: Value,
    budget: Option<Value>,
    createdAt: Timestamp)

  datatype Membership = Membership(
    tripId: Id,
    userId: Id,
    role: TripRole,
    status: MembershipStatus,
    createdAt: Timestamp)

  datatype Post = Post(id: Id, authorId: Id, content: string, imageUrl: Option<string>, createdAt: Timestamp)
  datatype Comment = Comment(id: Id, postId: Id, authorId: Id, text: string, createdAt: Timestamp)
  datatype Like = Like(postId: Id, userId: Id)
  datatype FriendRequest = FriendRequest(id: Id, fromUserId: Id, toUserId: Id, status: RequestStatus, createdAt: Timestamp)

  /** One direction of the `friends` self-relation: `to` is in `from`'s list. */
  datatype FriendEdge = FriendEdge(from: Id, to: Id)

  datatype Reward = Reward(id: Id, name: string, description: string, pointsRequired: int, kind: string, partnerName: string)
  datatype Suggestion = Suggestion(id: Id, tripId: Id, title: Option<string>, summary: Option<string>, itinerary: seq<Day>)

  /** What the database schema decides and this model cannot see: the values
      of the `TravelStyle` and `ActivityLevel` enums, and whether a
      suggestion's `title` and `summary` columns accept null. */
  datatype Schema = Schema(
    travelStyles: set<string>,
    activityLevels: set<string>,
    titleOptional: bool,
    summaryOptional: bool)

  /** What `create` stores in a string column: a string is stored as it is;
      an absent value or `null` stores null in an optional column and throws
      in a required one; a value of any other type throws. */
  function TextColumn(v: Value, optional: bool): (r: Option<Option<string>>)
    ensures r.Some? <==> v.Str? || (optional && (v.Undefined? || v.Null?))
    ensures v.Str? ==> r == Some(Some(v.s))
    ensures r.Some? && !v.Str? ==> r == Some(None)
  {
    match v
    case Str(s) => Some(Some(s))
    case Undefined => if optional then Some(None) else None
    case Null => if optional then Some(None) else None
    case _ => None
  }

  datatype Store = Store(
    users: seq<User>,
    trips: seq<Trip>,
    memberships: seq<Membership>,
    posts: seq<Post>,
    comments: seq<Comment>,
    likes: seq<Like>,
    friendRequests: seq<FriendRequest>,
    friendEdges: seq<FriendEdge>,
    rewards: seq<Reward>,
    suggestions: seq<Suggestion>)

  // ---------------------------------------------------------------------
  // Response shapes

  /** The `select: { id, name, image, email }` projection of a user. */
  datatype UserSummary = UserSummary(id: Id, name: Option<string>, image: Option<string>, email: string)

  /** The `select: { name, image, email }` projection used for comment authors. */
  datatype AuthorSummary = AuthorSummary(name: Option<string>, image: Option<string>, email: string)

  datatype TripSummary = TripSummary(id: Id, name: string)
  datatype InviteView = InviteView(membership: Membership, trip: Option<TripSummary>)
  datatype CommentView = CommentView(comment: Comment, author: Option<AuthorSummary>)
  datatype FeedPost = FeedPost(post: Post, author: Option<UserSummary>, comments: seq<CommentView>, likeCount: nat)
  datatype RequestView = RequestView(request: FriendRequest, fromUser: Option<UserSummary>)

  datatype Body =
    | Empty
    | Message(text: string)
    | TripBody(trip: Trip)
    | InviteList(invites: seq<InviteView>, count: int)
    | PostBody(post: Post, pointsAwarded: int)
    | FeedBody(feed: seq<FeedPost>)
    | UserBody(user: User)
    | SummaryList(users: seq<UserSummary>)
    | RequestList(requests: seq<RequestView>)
    | RewardList(rewards: seq<Reward>)
    | SuggestionBody(doc: SuggestionDoc)

  /** What a route handler returns: the HTTP status, the JSON body, and the
      database after the request. */
  datatype Reply = Reply(status: int, body: Body, store: Store)

  /** A request body after `await request.json()`: `Malformed` when the text is
      not JSON or is not an object the handler can destructure, which throws. */
  datatype Request<+T> = Malformed | Parsed(body: T)

  function Summary(u: User): UserSummary {
    UserSummary(u.id, u.name, u.image, u.email)
  }

  /** The summaries of `users`, in order. */
  function Summaries(users: seq<User>): (r: seq<UserSummary>)
    ensures |r| == |users| && forall i | 0 <= i < |users| :: r[i] == Summary(users[i])
  {
    seq(|users|, i requires 0 <= i < |users| => Summary(users[i]))
  }

  // ---------------------------------------------------------------------
  // Lookups

  predicate HasUser(users: seq<User>, id: Id) {
    exists i | 0 <= i < |users| :: users[i].id == id
  }

  predicate HasTrip(trips: seq<Trip>, id: Id) {
    exists i | 0 <= i < |trips| :: trips[i].id == id
  }

  predicate HasPost(posts: seq<Post>, id: Id) {
    exists i | 0 <= i < |posts| :: posts[i].id == id
  }

  predicate IsKey(m: Membership, tripId: Id, userId: Id) {
    m.tripId == tripId && m.userId == userId
  }

  /** `findUnique({ where: { id } })` on users. */
  function FindUser(users: seq<User>, id: Id): (r: Option<User>)
    ensures r.Some? ==> r.value in users && r.value.id == id
    ensures r.None? <==> !HasUser(users, id)
  {
    if |users| == 0 then None
    else if users[0].id == id then Some(users[0])
    else FindUser(users[1..], id)
  }

  /** `findUnique({ where: { email } })` on users. */
  function FindUserByEmail(users: seq<User>, email: string): (r: Option<User>)
    ensures r.Some? ==> r.value in users && r.value.email == email
    ensures r.None? <==> forall i | 0 <= i < |users| :: users[i].email != email
  {
    if |users| == 0 then None
    else if users[0].email == email then Some(users[0])
    else FindUserByEmail(users[1..], email)
  }

  function FindTrip(trips: seq<Trip>, id: Id): (r: Option<Trip>)
    ensures r.Some? ==> r.value in trips && r.value.id == id
    ensures r.None? <==> !HasTrip(trips, id)
  {
    if |trips| == 0 then None
    else if trips[0].id == id then Some(trips[0])
    else FindTrip(trips[1..], id)
  }

  /** `findUnique({ where: { tripId_userId } })` on memberships. */
  function FindMembership(ms: seq<Membership>, tripId: Id, userId: Id): (r: Option<Membership>)
    ensures r.Some? ==> r.value in ms && IsKey(r.value, tripId, userId)
    ensures r.None? <==> forall i | 0 <= i < |ms| :: !IsKey(ms[i], tripId, userId)
  {
    if |ms| == 0 then None
    else if IsKey(ms[0], tripId, userId) then Some(ms[0])
    else FindMembership(ms[1..], tripId, userId)
  }

  // ---------------------------------------------------------------------
  // Integrity of the database

  ghost predicate UniqueUsers(users: seq<User>) {
    forall i, j | 0 <= i < j < |users| :: users[i].id != users[j].id && users[i].email != users[j].email
  }

  ghost predicate UniqueTrips(trips: seq<Trip>) {
    forall i, j | 0 <= i < j < |trips| :: trips[i].id != trips[j].id
  }

  /** The `@@unique([tripId, userId])` constraint. */
  ghost predicate UniqueMemberKeys(ms: seq<Membership>) {
    forall i, j | 0 <= i < j < |ms| :: !IsKey(ms[j], ms[i].tripId, ms[i].userId)
  }

  ghost predicate UniquePosts(posts: seq<Post>) {
    forall i, j | 0 <= i < j < |posts| :: posts[i].id != posts[j].id
  }

  /** Foreign keys of the rows the modelled handlers write. */
  ghost predicate References(st: Store) {
    && (forall i | 0 <= i < |st.memberships| ::
          HasTrip(st.trips, st.memberships[i].tripId) && HasUser(st.users, st.memberships[i].userId))
    && (forall i | 0 <= i < |st.posts| :: HasUser(st.users, st.posts[i].authorId))
    && (forall i | 0 <= i < |st.suggestions| :: HasTrip(st.trips, st.suggestions[i].tripId))
  }

  ghost predicate Valid(st: Store) {
    && UniqueUsers(st.users)
    && UniqueTrips(st.trips)
    && UniqueMemberKeys(st.memberships)
    && UniquePosts(st.posts)
    && References(st)
  }

  /** With unique keys a membership row is determined by its key. */
  lemma MembershipDeterminedByKey(ms: seq<Membership>, i: int, j: int)
    requires UniqueMemberKeys(ms)
    requires 0 <= i < |ms| && 0 <= j < |ms|
    requires IsKey(ms[j], ms[i].tripId, ms[i].userId)
    ensures i == j
  {
    if i < j {
    } else if j < i {
      assert IsKey(ms[i], ms[j].tripId, ms[j].userId);
    }
  }

  // ---------------------------------------------------------------------
  // Row updates

  /** `update({ where: { tripId_userId }, data: { status } })` on the rows. */
  function SetStatus(ms: seq<Membership>, tripId: Id, userId: Id, status: MembershipStatus): (r: seq<Membership>)
    ensures |r| == |ms|
    ensures forall i | 0 <= i < |ms| :: IsKey(ms[i], tripId, userId) ==> r[i] == ms[i].(status := status)
    ensures forall i | 0 <= i < |ms| :: !IsKey(ms[i], tripId, userId) ==> r[i] == ms[i]
  {
    seq(|ms|, i requires 0 <= i < |ms| =>
      if IsKey(ms[i], tripId, userId) then ms[i].(status := status) else ms[i])
  }

  /** `delete({ where: { tripId_userId } })` on the rows. */
  function RemoveMembership(ms: seq<Membership>, tripId: Id, userId: Id): (r: seq<Membership>)
    ensures forall i | 0 <= i < |r| :: r[i] in ms && !IsKey(r[i], tripId, userId)
    ensures forall i | 0 <= i < |ms| :: !IsKey(ms[i], tripId, userId) ==> ms[i] in r
  {
    Seqs.Filter(ms, OtherKeys(tripId, userId))
  }

  /** The `where` test of a delete by key, negated: the rows that stay. */
  function OtherKeys(tripId: Id, userId: Id): Membership -> bool {
    (m: Membership) => !IsKey(m, tripId, userId)
  }

  /** Changing a status keeps every key and reference, so `Valid` holds. */
  lemma SetStatusValid(st: Store, tripId: Id, userId: Id, status: MembershipStatus)
    requires Valid(st)
    ensures Valid(st.(memberships := SetStatus(st.memberships, tripId, userId, status)))
  {
    var ms' := SetStatus(st.memberships, tripId, userId, status);
    assert forall i | 0 <= i < |ms'| ::
      ms'[i].tripId == st.memberships[i].tripId && ms'[i].userId == st.memberships[i].userId;
  }

  /** Deleting a row keeps every remaining key unique and every reference
      intact. */
  lemma RemoveMembershipValid(st: Store, tripId: Id, userId: Id)
    requires Valid(st)
    ensures Valid(st.(memberships := RemoveMembership(st.memberships, tripId, userId)))
  {
    var ms' := RemoveMembership(st.memberships, tripId, userId);
    var distinct := (a: Membership, b: Membership) => !IsKey(b, a.tripId, a.userId);
    assert forall i, j | 0 <= i < j < |st.memberships| :: distinct(st.memberships[i], st.memberships[j]);
    Seqs.FilterKeepsPairwise(st.memberships, OtherKeys(tripId, userId), distinct);
    assert ms' == Seqs.Filter(st.memberships, OtherKeys(tripId, userId));
    assert forall i, j | 0 <= i < j < |ms'| :: distinct(ms'[i], ms'[j]);
    forall i | 0 <= i < |ms'|
      ensures HasTrip(st.trips, ms'[i].tripId) && HasUser(st.users, ms'[i].userId)
    {
      var k :| 0 <= k < |st.memberships| && st.memberships[k] == ms'[i];
    }
  }

  /** `update({ where: { id }, data: { points: { increment: n } } })`. */
  function AddPoints(users: seq<User>, id: Id, n: int): (r: seq<User>)
    ensures |r| == |users|
    ensures forall i | 0 <= i < |users| ::
      r[i] == if users[i].id == id then users[i].(points := users[i].points + n) else users[i]
  {
    seq(|users|, i requires 0 <= i < |users| =>
      if users[i].id == id then users[i].(points := users[i].points + n) else users[i])
  }

  /** Replaces the row whose id is `id` by `u`. */
  function ReplaceUser(users: seq<User>, id: Id, u: User): (r: seq<User>)
    ensures |r| == |users|
    ensures forall i | 0 <= i < |users| :: r[i] == if users[i].id == id then u else users[i]
  {
    seq(|users|, i requires 0 <= i < |users| => if users[i].id == id then u else users[i])
  }

  /** The row replaced under an id is found under it, and with unique ids it
      is the row found. */
  lemma ReplaceUserFinds(users: seq<User>, id: Id, u: User)
    requires HasUser(users, id) && u.id == id
    ensures FindUser(ReplaceUser(users, id, u), id).Some?
    ensures UniqueUsers(users) ==> FindUser(ReplaceUser(users, id, u), id) == Some(u)
  {
    var users' := ReplaceUser(users, id, u);
    var k :| 0 <= k < |users| && users[k].id == id;
    assert users'[k].id == id;
    if UniqueUsers(users) {
      var f := FindUser(users', id);
      var j :| 0 <= j < |users'| && users'[j] == f.value;
      assert users'[j] == u;
    }
  }
}

=== FILE: suggestions.dfy ===
/** `POST /api/suggestions`: ask the generation service for itineraries, strip
    Markdown code fences from its reply, parse it, attach a geocoded position
    to every activity, and store one Suggestion per proposal.

    The outside services are parameters: `generated` is the text the
    generation service returns for the route's fixed prompt, `parse` stands for
    `JSON.parse` followed by the shape the loops expect (`None` when either
    throws), `geocode` answers an address, and `newId(k)` is the id the ORM
    gives the k-th new row. */
module Suggestions {
  import opened Js
  import opened Text
  import opened Itinerary
  import opened Store

  // ---------------------------------------------------------------------
  // Fence stripping: `text.replace(/^```json\s*|```\s*$/g, '')`

  const OpenFence := "```json"
  const Fence := "```"

  /** The length of the whitespace run at the start of `s` (what `\s*` takes). */
  function LeadingSpace(s: string): (n: nat)
    ensures n <= |s| && AllSpace(s[..n])
    ensures n < |s| ==> !IsSpace(s[n])
  {
    if |s| == 0 || !IsSpace(s[0]) then 0
    else
      var n := 1 + LeadingSpace(s[1..]);
      assert s[..n] == [s[0]] + s[1..][..n - 1];
      n
  }

  /** The second alternative matches at `p`: a fence followed only by
      whitespace up to the end. */
  predicate ClosingAt(s: string, p: int) {
    0 <= p && p + 3 <= |s| && s[p..p + 3] == Fence && AllSpace(s[p + 3..])
  }

  /** Cuts `s` at the leftmost position `>= p` where the closing alternative
      matches; that match runs to the end, so at most one is removed. */
  function CutClosing(s: string, p: nat): (r: string)
    requires p <= |s|
    ensures |r| <= |s| && r == s[..|r|]
    ensures r == s || ClosingAt(s, |r|)
    ensures (forall q | p <= q <= |s| :: !ClosingAt(s, q)) ==> r == s
    ensures forall q | p <= q <= |s| && ClosingAt(s, q) && (forall q' | p <= q' < q :: !ClosingAt(s, q')) :: r == s[..q]
    decreases |s| - p
  {
    if p + 3 > |s| then s
    else if ClosingAt(s, p) then s[..p]
    else CutClosing(s, p + 1)
  }

  /** The global replacement: at position 0 the first alternative (`^` anchors
      it there) removes "```json" and the whitespace after it; the scan then
      resumes where that match ended and removes a closing fence. Only the
      two ends are cut: the result is a piece of the reply, and without an
      opening fence it is the reply up to a closing fence that runs to the
      end, or the whole reply. */
  function StripFences(text: string): (r: string)
    ensures OccursIn(r, text)
    ensures !StartsWith(text, OpenFence) ==> r == text[..|r|] && (r == text || ClosingAt(text, |r|))
  {
    if StartsWith(text, OpenFence) then
      var k := |OpenFence| + LeadingSpace(text[|OpenFence|..]);
      var r := CutClosing(text[k..], 0);
      PieceAt(text, k, r);
      r
    else
      var r := CutClosing(text, 0);
      PieceAt(text, 0, r);
      r
  }

  /** A prefix of the text from `k` on occurs in the text. */
  lemma PieceAt(text: string, k: nat, r: string)
    requires k <= |text| && |r| <= |text| - k && r == text[k..][..|r|]
    ensures OccursIn(r, text)
  {
    assert OccursAt(r, text, k);
  }

  lemma ClosingAtEnd(body: string, ws: string)
    requires AllSpace(ws)
    ensures ClosingAt(body + Fence + ws, |body|)
  {
    var s := body + Fence + ws;
    assert s[|body|..|body| + 3] == Fence;
    assert s[|body| + 3..] == ws;
  }

  /** With no fence inside `body`, the closing alternative matches nowhere
      before the fence that follows it. */
  lemma NoEarlierClosing(body: string, ws: string, q: int)
    requires !OccursIn(Fence, body)
    requires 0 <= q < |body|
    ensures !ClosingAt(body + Fence + ws, q)
  {
    var s := body + Fence + ws;
    if q + 3 <= |body| {
      assert s[q..q + 3] == body[q..q + 3];
      assert !OccursAt(Fence, body, q);
    } else {
      assert s[q + 3..][0] == '`';
      assert !IsSpace(s[q + 3..][0]);
    }
  }

  /** A reply wrapped as "```json", whitespace, the JSON, "```", whitespace is
      reduced to the JSON itself, provided the JSON does not itself start with
      whitespace or contain a fence. */
  lemma StripFencedReply(ws1: string, body: string, ws2: string)
    requires AllSpace(ws1) && AllSpace(ws2)
    requires |body| == 0 || !IsSpace(body[0])
    requires !OccursIn(Fence, body)
    ensures StripFences(OpenFence + ws1 + body + Fence + ws2) == body
  {
    var text := OpenFence + ws1 + body + Fence + ws2;
    assert StartsWith(text, OpenFence) by {
      assert text[..|OpenFence|] == OpenFence;
    }
    var rest := text[|OpenFence|..];
    assert rest == ws1 + (body + Fence + ws2);
    var n := LeadingSpace(rest);
    assert n == |ws1| by {
      LeadingSpaceOf(ws1, body + Fence + ws2);
    }
    assert rest[n..] == body + Fence + ws2;
    ClosingStripped(body, ws2);
  }

  /** A closing fence followed by whitespace is cut off a body that holds no
      fence. */
  lemma ClosingStripped(body: string, ws2: string)
    requires AllSpace(ws2)
    requires !OccursIn(Fence, body)
    ensures CutClosing(body + Fence + ws2, 0) == body
  {
    var s := body + Fence + ws2;
    ClosingAtEnd(body, ws2);
    forall q | 0 <= q < |body| ensures !ClosingAt(s, q) {
      NoEarlierClosing(body, ws2, q);
    }
    assert s[..|body|] == body;
  }

  lemma {:induction false} LeadingSpaceOf(ws: string, t: string)
    requires AllSpace(ws)
    requires |t| == 0 || !IsSpace(t[0])
    ensures LeadingSpace(ws + t) == |ws|
    decreases |ws|
  {
    if |ws| > 0 {
      assert ws[0] == ws[0..1][0];
      assert (ws + t)[1..] == ws[1..] + t;
      assert AllSpace(ws[1..]) by {
        assert forall k | 0 <= k < |ws[1..]| :: ws[1..][k] == ws[k + 1];
      }
      LeadingSpaceOf(ws[1..], t);
    } else {
      assert ws + t == t;
    }
  }

  /** A reply with neither an opening "```json" nor a closing fence passes
      through unchanged. */
  lemma UnfencedUnchanged(text: string)
    requires !StartsWith(text, OpenFence)
    requires forall q | 0 <= q <= |text| :: !ClosingAt(text, q)
    ensures StripFences(text) == text
  {
  }

  // ---------------------------------------------------------------------
  // Geocoding: `getCoordinates`

  /** What the geocoding fetch yields: the parsed reply (its `status` and the
      locations of its `results`), or a throw from the network or from
      parsing. */
  datatype GeoResponse = GeoReply(status: string, results: seq<Coord>) | GeoThrow

  /** `placeName + ', Marrakech, Morocco'`, the address that is URL-encoded
      into the request. */
  function Address(placeName: Value): string {
    ToJsString(placeName) + ", Marrakech, Morocco"
  }

  /** The first result's location when the status is "OK"; `null` otherwise.
      An "OK" reply with no results makes `results[0].geometry` throw inside
      the `try`, which also yields `null`. */
  function GetCoordinates(resp: GeoResponse): (c: CoordField)
    ensures c != Unset
    ensures c.At? <==> resp.GeoReply? && resp.status == "OK" && |resp.results| > 0
    ensures c.At? ==> c.c == resp.results[0]
  {
    match resp
    case GeoThrow => NullCoords
    case GeoReply(status, results) =>
      if status == "OK" && |results| > 0 then At(results[0]) else NullCoords
  }

  // ---------------------------------------------------------------------
  // Enrichment: the nested `for` loops

  /** `coords` set from the activity's own location name; the description
      and the name are kept. */
  function EnrichActivity(a: Activity, geocode: string -> GeoResponse): (r: Activity)
    ensures r.description == a.description && r.locationName == a.locationName
    ensures r.coords != Unset
  {
    a.(coords := GetCoordinates(geocode(Address(a.locationName))))
  }

  /** Enriching depends on the location name only, so enriching twice gives
      the same activity as enriching once, and two activities with the same
      name and description end up equal. */
  lemma EnrichActivityStable(a: Activity, b: Activity, geocode: string -> GeoResponse)
    ensures EnrichActivity(EnrichActivity(a, geocode), geocode) == EnrichActivity(a, geocode)
    ensures a.locationName == b.locationName && a.description == b.description ==>
      EnrichActivity(a, geocode) == EnrichActivity(b, geocode)
  {
  }

  /** All three slots present; otherwise `day.<slot>.coords = …` throws. */
  predicate Complete(d: Day) {
    d.morning.Some? && d.afternoon.Some? && d.evening.Some?
  }

  predicate AllComplete(doc: SuggestionDoc) {
    forall k | 0 <= k < |doc.proposals| ::
      forall j | 0 <= j < |doc.proposals[k].itinerary| :: Complete(doc.proposals[k].itinerary[j])
  }

  /** Every slot enriched; the day number and theme are kept. */
  function EnrichDay(d: Day, geocode: string -> GeoResponse): (r: Day)
    requires Complete(d)
    ensures Complete(r) && r.day == d.day && r.theme == d.theme
    ensures r.morning.value.locationName == d.morning.value.locationName && r.morning.value.coords != Unset
    ensures r.afternoon.value.locationName == d.afternoon.value.locationName && r.afternoon.value.coords != Unset
    ensures r.evening.value.locationName == d.evening.value.locationName && r.evening.value.coords != Unset
  {
    d.(morning := Some(EnrichActivity(d.morning.value, geocode)),
       afternoon := Some(EnrichActivity(d.afternoon.value, geocode)),
       evening := Some(EnrichActivity(d.evening.value, geocode)))
  }

  function EnrichProposal(p: Proposal, geocode: string -> GeoResponse): Proposal
    requires forall j | 0 <= j < |p.itinerary| :: Complete(p.itinerary[j])
  {
    p.(itinerary := seq(|p.itinerary|, j requires 0 <= j < |p.itinerary| => EnrichDay(p.itinerary[j], geocode)))
  }

  /** `None` when some day lacks a slot (the loop throws); otherwise the same
      document with every activity's `coords` set from its own location name. */
  function Enrich(doc: SuggestionDoc, geocode: string -> GeoResponse): (r: Option<SuggestionDoc>)
    ensures r.Some? <==> AllComplete(doc)
    ensures r.Some? ==>
      && |r.value.proposals| == |doc.proposals|
      && forall k | 0 <= k < |doc.proposals| ::
           var p := doc.proposals[k];
           var p' := r.value.proposals[k];
           && p'.title == p.title && p'.summary == p.summary
           && |p'.itinerary| == |p.itinerary|
           && forall j | 0 <= j < |p.itinerary| ::
                var d := p.itinerary[j];
                var d' := p'.itinerary[j];
                && Complete(d) && Complete(d')
                && d'.day == d.day && d'.theme == d.theme
                && d'.morning.value == d.morning.value.(coords := GetCoordinates(geocode(Address(d.morning.value.locationName))))
                && d'.afternoon.value == d.afternoon.value.(coords := GetCoordinates(geocode(Address(d.afternoon.value.locationName))))
                && d'.evening.value == d.evening.value.(coords := GetCoordinates(geocode(Address(d.evening.value.locationName))))
  {
    if !AllComplete(doc) then None
    else
      Some(SuggestionDoc(seq(|doc.proposals|, k requires 0 <= k < |doc.proposals| => EnrichProposal(doc.proposals[k], geocode))))
  }

  /** After enrichment no activity is left without `coords`: each is either a
      position or `null`. */
  lemma EnrichedHaveCoords(doc: SuggestionDoc, geocode: string -> GeoResponse)
    ensures var r := Enrich(doc, geocode);
      r.Some? ==>
        forall k, j | 0 <= k < |r.value.proposals| && 0 <= j < |r.value.proposals[k].itinerary| ::
          var d := r.value.proposals[k].itinerary[j];
          Complete(d) && d.morning.value.coords != Unset && d.afternoon.value.coords != Unset && d.evening.value.coords != Unset
  {
  }

  // ---------------------------------------------------------------------
  // The handler

  /** The body field read: `{ tripId }`. */
  datatype SuggestRequest = SuggestRequest(tripId: Value)

  const ErrorGenerating := Message("Error generating suggestions")

  /** Every proposal's `title` and `summary` can be written to their columns;
      otherwise a `create` in the transaction throws. */
  predicate Storable(doc: SuggestionDoc, schema: Schema) {
    forall k | 0 <= k < |doc.proposals| ::
      && TextColumn(doc.proposals[k].title, schema.titleOptional).Some?
      && TextColumn(doc.proposals[k].summary, schema.summaryOptional).Some?
  }

  /** The rows the transaction creates: one per proposal, in order, under the
      trip's id, each holding its proposal's title, summary and itinerary. */
  function SuggestionRows(doc: SuggestionDoc, schema: Schema, tripId: Id, newId: nat -> Id): (rows: seq<Suggestion>)
    requires Storable(doc, schema)
    ensures |rows| == |doc.proposals|
    ensures forall k | 0 <= k < |rows| ::
      && rows[k].id == newId(k) && rows[k].tripId == tripId
      && rows[k].itinerary == doc.proposals[k].itinerary
      && (rows[k].title.Some? <==> doc.proposals[k].title.Str?)
      && (rows[k].title.Some? ==> doc.proposals[k].title == Str(rows[k].title.value))
      && (rows[k].summary.Some? <==> doc.proposals[k].summary.Str?)
      && (rows[k].summary.Some? ==> doc.proposals[k].summary == Str(rows[k].summary.value))
  {
    seq(|doc.proposals|, k requires 0 <= k < |doc.proposals| =>
      var p := doc.proposals[k];
      Suggestion(newId(k), tripId, TextColumn(p.title, schema.titleOptional).value,
                 TextColumn(p.summary, schema.summaryOptional).value, p.itinerary))
  }

  /** The route. A `tripId` that is not a string makes the trip lookup throw
      (500); a missing user or trip is 404, and whether the caller belongs to
      the trip is never asked. The reply text is fixed by the prompt, which
      mentions neither the user nor the trip, so the same `generated` text
      serves every request. The prompt asks for no `title` or `summary`, so
      whether the rows can be written depends on the columns: a proposal
      whose title or summary its column refuses makes the transaction throw,
      and no row is written. */
  function GenerateSuggestions(
    st: Store, schema: Schema, session: Option<Id>, req: Request<SuggestRequest>,
    generated: string, parse: string -> Option<SuggestionDoc>,
    geocode: string -> GeoResponse, newId: nat -> Id): (r: Reply)
    ensures r.status in {200, 401, 404, 500}
    ensures r.status == 401 <==> !Authed(session)
    ensures r.status == 404 <==>
      Authed(session) && req.Parsed? && req.body.tripId.Str? &&
      (!HasUser(st.users, session.value) || !HasTrip(st.trips, req.body.tripId.s))
    ensures r.status == 404 ==> r.body == Message("User or Trip not found")
    ensures r.status == 500 ==> r.body == ErrorGenerating
    ensures r.status != 200 ==> r.store == st
    ensures r.status == 200 <==>
      && Authed(session) && req.Parsed? && req.body.tripId.Str?
      && HasUser(st.users, session.value) && HasTrip(st.trips, req.body.tripId.s)
      && parse(StripFences(generated)).Some?
      && Enrich(parse(StripFences(generated)).value, geocode).Some?
      && Storable(Enrich(parse(StripFences(generated)).value, geocode).value, schema)
    ensures r.status == 200 ==>
      && r.body == SuggestionBody(Enrich(parse(StripFences(generated)).value, geocode).value)
      && Storable(r.body.doc, schema)
      && r.store == st.(suggestions := st.suggestions + SuggestionRows(r.body.doc, schema, req.body.tripId.s, newId))
    ensures Valid(st) ==> Valid(r.store)
  {
    if !Authed(session) then Reply(401, Message("Not authenticated"), st)
    else match req
      case Malformed => Reply(500, ErrorGenerating, st)
      case Parsed(b) =>
        if !b.tripId.Str? then Reply(500, ErrorGenerating, st)
        else if FindUser(st.users, session.value).None? || FindTrip(st.trips, b.tripId.s).None? then
          Reply(404, Message("User or Trip not found"), st)
        else
            var trip := FindTrip(st.trips, b.tripId.s).value;
            match parse(StripFences(generated))
            case None => Reply(500, ErrorGenerating, st)
            case Some(doc) =>
              match Enrich(doc, geocode)
              case None => Reply(500, ErrorGenerating, st)
              case Some(enriched) =>
                if !Storable(enriched, schema) then Reply(500, ErrorGenerating, st)
                else
                var rows := SuggestionRows(enriched, schema, trip.id, newId);
                var st' := st.(suggestions := st.suggestions + rows);
                assert Valid(st) ==> Valid(st') by {
                  if Valid(st) {
                    forall i | 0 <= i < |st'.suggestions| ensures HasTrip(st'.trips, st'.suggestions[i].tripId) {
                      if i >= |st.suggestions| {
                        assert st'.suggestions[i] == rows[i - |st.suggestions|];
                      }
                    }
                  }
                }
                Reply(200, SuggestionBody(enriched), st')
  }

  /** One row per proposal, all linked to the requested trip, and the rows
      keep the proposals' order. */
  lemma OneRowPerProposal(
    st: Store, schema: Schema, session: Option<Id>, req: Request<SuggestRequest>,
    generated: string, parse: string -> Option<SuggestionDoc>,
    geocode: string -> GeoResponse, newId: nat -> Id)
    ensures var r := GenerateSuggestions(st, schema, session, req, generated, parse, geocode, newId);
      r.status == 200 ==>
        && |r.store.suggestions| == |st.suggestions| + |r.body.doc.proposals|
        && r.store.suggestions[..|st.suggestions|] == st.suggestions
        && forall k | 0 <= k < |r.body.doc.proposals| ::
             r.store.suggestions[|st.suggestions| + k].tripId == req.body.tripId.s &&
             r.store.suggestions[|st.suggestions| + k].itinerary == r.body.doc.proposals[k].itinerary
  {
    var r := GenerateSuggestions(st, schema, session, req, generated, parse, geocode, newId);
    if r.status == 200 {
      RowsAppended(st.suggestions, r.body.doc, schema, req.body.tripId.s, newId);
    }
  }

  /** Appending the rows of a document keeps the table's old rows in front
      and adds one row per proposal, in order. */
  lemma RowsAppended(table: seq<Suggestion>, doc: SuggestionDoc, schema: Schema, tripId: Id, newId: nat -> Id)
    requires Storable(doc, schema)
    ensures var all := table + SuggestionRows(doc, schema, tripId, newId);
      && |all| == |table| + |doc.proposals|
      && all[..|table|] == table
      && forall k | 0 <= k < |doc.proposals| ::
           all[|table| + k].tripId == tripId && all[|table| + k].itinerary == doc.proposals[k].itinerary
  {
    var rows := SuggestionRows(doc, schema, tripId, newId);
    var all := table + rows;
    assert all[..|table|] == table;
    forall k | 0 <= k < |doc.proposals| ensures all[|table| + k] == rows[k] {
    }
  }

  /** The stored itineraries do not depend on which trip was asked for: two
      trips, whatever their destinations and dates, get the same proposals. */
  lemma SuggestionsIgnoreTrip(
    st: Store, schema: Schema, session: Option<Id>, t1: Id, t2: Id,
    generated: string, parse: string -> Option<SuggestionDoc>,
    geocode: string -> GeoResponse, newId: nat -> Id)
    requires HasTrip(st.trips, t1) && HasTrip(st.trips, t2)
    ensures var r1 := GenerateSuggestions(st, schema, session, Parsed(SuggestRequest(Str(t1))), generated, parse, geocode, newId);
      var r2 := GenerateSuggestions(st, schema, session, Parsed(SuggestRequest(Str(t2))), generated, parse, geocode, newId);
      r1.status == r2.status && r1.body == r2.body
  {
  }
}

=== FILE: text.dfy ===
/** String operations the source takes from the JavaScript runtime and the
    database: `startsWith`, `split(' ')`, `trim`, and the case-insensitive
    `contains` of the user search. */
module Text {

  /** The characters of JavaScript's `\s` class, which is also the set
      `String.prototype.trim` removes. */
  predicate IsSpace(c: char) {
    || c == ' ' || c == '\t' || c == '\n' || c == '\U{000B}' || c == '\U{000C}' || c == '\r'
    || c == '\U{00A0}' || c == '\U{1680}' || ('\U{2000}' <= c <= '\U{200A}')
    || c == '\U{2028}' || c == '\U{2029}' || c == '\U{202F}' || c == '\U{205F}'
    || c == '\U{3000}' || c == '\U{FEFF}'
  }

  predicate AllSpace(s: string) {
    forall i | 0 <= i < |s| :: IsSpace(s[i])
  }

  predicate StartsWith(s: string, prefix: string) {
    |prefix| <= |s| && s[..|prefix|] == prefix
  }

  // ---------------------------------------------------------------------
  // split(' ') and its inverse

  /** Inverse of `Split`: the parts glued back with the separator between them. */
  function Join(parts: seq<string>, sep: char): string
    requires |parts| >= 1
  {
    if |parts| == 1 then parts[0] else parts[0] + [sep] + Join(parts[1..], sep)
  }

  /** JavaScript's `s.split(sep)` for a one-character separator: never empty,
      and an empty part appears wherever two separators are adjacent or the
      separator starts or ends the string. */
  function Split(s: string, sep: char): (parts: seq<string>)
    ensures |parts| >= 1
  {
    if |s| == 0 then [""]
    else
      var rest := Split(s[1..], sep);
      if s[0] == sep then [""] + rest else [[s[0]] + rest[0]] + rest[1..]
  }

  predicate NoSep(parts: seq<string>, sep: char) {
    forall i | 0 <= i < |parts| :: sep !in parts[i]
  }

  /** Splitting loses nothing: joining the parts gives the string back, and no
      part contains the separator. */
  lemma {:induction false} SplitJoin(s: string, sep: char)
    ensures Join(Split(s, sep), sep) == s
    ensures NoSep(Split(s, sep), sep)
  {
    if |s| > 0 {
      var rest := Split(s[1..], sep);
      SplitJoin(s[1..], sep);
      if s[0] == sep {
        assert Split(s, sep) == [""] + rest;
        assert ([""] + rest)[1..] == rest;
        assert s == [s[0]] + s[1..];
      } else {
        var parts := Split(s, sep);
        assert parts == [[s[0]] + rest[0]] + rest[1..];
        if |rest| == 1 {
          assert s == [s[0]] + s[1..];
        } else {
          assert parts[1..] == rest[1..];
          assert Join(rest, sep) == rest[0] + [sep] + Join(rest[1..], sep);
          assert s == [s[0]] + s[1..];
        }
        forall i | 0 <= i < |parts|
          ensures sep !in parts[i]
        {
          if i == 0 {
            assert sep !in rest[0];
          } else {
            assert parts[i] == rest[i];
          }
        }
      }
    }
  }

  /** The other direction: parts free of the separator are what splitting
      their join returns, so `Split` is the unique such decomposition. */
  lemma {:induction false} JoinSplit(parts: seq<string>, sep: char)
    requires |parts| >= 1
    requires NoSep(parts, sep)
    ensures Split(Join(parts, sep), sep) == parts
    decreases |parts|, |parts[0]|
  {
    if |parts| == 1 {
      JoinSplitPart(parts[0], sep);
    } else if |parts[0]| == 0 {
      var tail := parts[1..];
      JoinSplit(tail, sep);
      assert Join(parts, sep) == [sep] + Join(tail, sep);
      assert (Join(parts, sep))[1..] == Join(tail, sep);
      assert parts == [""] + tail;
    } else {
      var p0 := parts[0];
      var shorter := [p0[1..]] + parts[1..];
      assert shorter[1..] == parts[1..];
      assert NoSep(shorter, sep) by {
        forall i | 0 <= i < |shorter| ensures sep !in shorter[i] {
          if i == 0 {
            assert sep !in p0;
            assert forall c :: c in p0[1..] ==> c in p0;
          } else {
            assert shorter[i] == parts[i];
          }
        }
      }
      JoinSplit(shorter, sep);
      var j := Join(parts, sep);
      assert j == p0 + [sep] + Join(parts[1..], sep);
      assert Join(shorter, sep) == p0[1..] + [sep] + Join(parts[1..], sep);
      assert j[0] == p0[0] && p0[0] != sep;
      assert j[1..] == Join(shorter, sep);
      var rest := Split(j[1..], sep);
      assert rest == shorter;
      assert [p0[0]] + p0[1..] == p0;
    }
  }

  lemma {:induction false} JoinSplitPart(p: string, sep: char)
    requires sep !in p
    ensures Split(p, sep) == [p]
  {
    if |p| > 0 {
      assert sep !in p[1..] by {
        assert forall c :: c in p[1..] ==> c in p;
      }
      JoinSplitPart(p[1..], sep);
      assert [p[0]] + p[1..] == p;
    }
  }

  // ---------------------------------------------------------------------
  // trim

  /** The white space at the start removed: a suffix of `s`, all of whose
      cut-off characters are white space, and which starts with none. */
  function TrimStart(s: string): (r: string)
    ensures |r| <= |s| && r == s[|s| - |r|..]
    ensures AllSpace(s[..|s| - |r|])
    ensures r == "" || !IsSpace(r[0])
  {
    if |s| > 0 && IsSpace(s[0]) then
      var r := TrimStart(s[1..]);
      assert s[1..][..|s| - 1 - |r|] == s[1..|s| - |r|];
      r
    else s
  }

  /** The white space at the end removed: a prefix of `s`, all of whose
      cut-off characters are white space, and which ends with none. */
  function TrimEnd(s: string): (r: string)
    ensures |r| <= |s| && r == s[..|r|]
    ensures AllSpace(s[|r|..])
    ensures r == "" || !IsSpace(r[|r| - 1])
  {
    if |s| > 0 && IsSpace(s[|s| - 1]) then
      var r := TrimEnd(s[..|s| - 1]);
      assert AllSpace(s[|r|..]) by {
        forall k | 0 <= k < |s| - |r| ensures IsSpace(s[|r|..][k]) {
          if k < |s| - 1 - |r| {
            assert s[|r|..][k] == s[..|s| - 1][|r|..][k];
          }
        }
      }
      r
    else s
  }

  /** `r` is `s` with white space only around it: `r` sits at some `i` in
      `s`, and everything before and after it is white space. */
  ghost predicate PaddedBy(s: string, r: string) {
    exists i | 0 <= i <= |s| - |r| :: r == s[i..i + |r|] && AllSpace(s[..i]) && AllSpace(s[i + |r|..])
  }

  /** JavaScript's `s.trim()`: the part of `s` between its leading and
      trailing white space, which neither starts nor ends with any. */
  function Trim(s: string): (r: string)
    ensures PaddedBy(s, r)
    ensures r == "" || (!IsSpace(r[0]) && !IsSpace(r[|r| - 1]))
  {
    var t := TrimStart(s);
    var r := TrimEnd(t);
    TrimPadded(s, t, r);
    r
  }

  lemma TrimPadded(s: string, t: string, r: string)
    requires |t| <= |s| && t == s[|s| - |t|..] && AllSpace(s[..|s| - |t|])
    requires |r| <= |t| && r == t[..|r|] && AllSpace(t[|r|..])
    ensures PaddedBy(s, r)
  {
    var i := |s| - |t|;
    assert r == s[i..i + |r|];
    assert s[i + |r|..] == t[|r|..];
  }

  /** `trim()` leaves nothing exactly when the string is white space throughout,
      which is what the comment guard of a post card tests. */
  lemma {:induction false} TrimEmptyIffAllSpace(s: string)
    ensures Trim(s) == "" <==> AllSpace(s)
  {
    TrimStartAllSpace(s);
    TrimEndEmpty(TrimStart(s));
  }

  lemma {:induction false} TrimStartAllSpace(s: string)
    ensures TrimStart(s) == "" <==> AllSpace(s)
    ensures TrimStart(s) != "" ==> !IsSpace(TrimStart(s)[0])
  {
    if |s| > 0 && IsSpace(s[0]) {
      TrimStartAllSpace(s[1..]);
      assert AllSpace(s) <==> AllSpace(s[1..]) by {
        if AllSpace(s[1..]) {
          forall i | 0 <= i < |s| ensures IsSpace(s[i]) {
            if i > 0 { assert s[i] == s[1..][i - 1]; }
          }
        }
        if AllSpace(s) {
          forall i | 0 <= i < |s[1..]| ensures IsSpace(s[1..][i]) {
            assert s[1..][i] == s[i + 1];
          }
        }
      }
    }
  }

  lemma {:induction false} TrimEndEmpty(s: string)
    requires s == "" || !IsSpace(s[0])
    ensures TrimEnd(s) == "" <==> s == ""
  {
    if |s| > 0 && IsSpace(s[|s| - 1]) {
      assert |s| > 1;
      assert s[..|s| - 1][0] == s[0];
      TrimEndEmpty(s[..|s| - 1]);
    }
  }

  // ---------------------------------------------------------------------
  // string comparison

  /** JavaScript's `a < b` on strings: the first differing character decides,
      and a proper prefix comes first. Characters are compared as code points;
      JavaScript compares UTF-16 units, which agree on the ASCII date strings
      a date input produces. */
  predicate LexLess(a: string, b: string)
    decreases |a|
  {
    if |a| == 0 then |b| > 0
    else if |b| == 0 then false
    else if a[0] == b[0] then LexLess(a[1..], b[1..])
    else a[0] < b[0]
  }

  /** `!(a > b)`, which for strings is `a <= b`. */
  predicate LexLessEq(a: string, b: string) {
    !LexLess(b, a)
  }

  /** The order is total: two different strings are ordered one way or the
      other, and never both ways. */
  lemma {:induction false} LexTotal(a: string, b: string)
    ensures a == b || LexLess(a, b) || LexLess(b, a)
    ensures !(LexLess(a, b) && LexLess(b, a))
    decreases |a|
  {
    if |a| > 0 && |b| > 0 {
      LexTotal(a[1..], b[1..]);
      if a[0] == b[0] && a[1..] == b[1..] {
        assert a == [a[0]] + a[1..] && b == [b[0]] + b[1..];
      }
    }
  }

  lemma {:induction false} LexIrreflexive(a: string)
    ensures !LexLess(a, a)
    decreases |a|
  {
    if |a| > 0 {
      LexIrreflexive(a[1..]);
    }
  }

  // ---------------------------------------------------------------------
  // case-insensitive contains

  /** Lower-casing of the ASCII letters; the database's folding of other
      scripts is not modelled. Only an upper-case letter changes, and it
      becomes its lower-case form. */
  function Lower(c: char): (r: char)
    ensures r != c <==> 'A' <= c <= 'Z'
    ensures r != c ==> 'a' <= r <= 'z' && r as int - c as int == 32
    ensures !('A' <= r <= 'Z')
  {
    if 'A' <= c <= 'Z' then (c as int + 32) as char else c
  }

  function LowerAll(s: string): (r: string)
    ensures |r| == |s|
    ensures forall i | 0 <= i < |s| :: r[i] == Lower(s[i])
  {
    seq(|s|, i requires 0 <= i < |s| => Lower(s[i]))
  }

  /** `needle` occurs in `hay` starting at position `i`. */
  predicate OccursAt(needle: string, hay: string, i: int) {
    0 <= i <= |hay| - |needle| && hay[i..i + |needle|] == needle
  }

  /** `needle` occurs in `hay` at some position. */
  ghost predicate OccursIn(needle: string, hay: string) {
    exists i :: OccursAt(needle, hay, i)
  }

  /** Substring search, position by position. */
  function Contains(hay: string, needle: string): (r: bool)
    ensures r <==> OccursIn(needle, hay)
    decreases |hay|
  {
    if |needle| > |hay| then false
    else if hay[..|needle|] == needle then assert OccursAt(needle, hay, 0); true
    else
      var r := Contains(hay[1..], needle);
      assert r <==> OccursIn(needle, hay) by {
        if OccursIn(needle, hay[1..]) {
          var i :| OccursAt(needle, hay[1..], i);
          assert hay[1..][i..i + |needle|] == hay[i + 1..i + 1 + |needle|];
          assert OccursAt(needle, hay, i + 1);
        }
        if OccursIn(needle, hay) {
          var i :| OccursAt(needle, hay, i);
          assert i != 0;
          assert hay[1..][i - 1..i - 1 + |needle|] == hay[i..i + |needle|];
          assert OccursAt(needle, hay[1..], i - 1);
        }
      }
      r
  }

  /** The `contains ... mode: 'insensitive'` filter of the user search. */
  function ContainsInsensitive(hay: string, needle: string): (r: bool)
    ensures r <==> OccursIn(LowerAll(needle), LowerAll(hay))
  {
    Contains(LowerAll(hay), LowerAll(needle))
  }
}

=== FILE: trip_detail.dfy ===
/** The trip page: who it takes for the owner, when it shows the owner's
    controls (delete and invite), and what a delete leads to. The delete route
    itself is not part of this model. */
module TripDetail {
  import opened Js
  import opened Store
  import Seqs
  import TripRoutes
  import InviteRoutes
  import opened Fetch

  /** One element of `trip.members`: a membership with its user included. */
  datatype TripMember = TripMember(role: TripRole, user: User)

  function WithUser(users: seq<User>): Membership -> bool {
    (m: Membership) => HasUser(users, m.userId)
  }

  /** `trip.members` as the page is given it: the trip's memberships in table
      order, each with its user. */
  function PageMembers(st: Store, tripId: Id): (members: seq<TripMember>)
    ensures |members| <= |st.memberships|
    ensures forall i | 0 <= i < |members| ::
      exists m | m in st.memberships :: m.tripId == tripId && m.role == members[i].role &&
        members[i].user in st.users && members[i].user.id == m.userId
  {
    var trip := TripRoutes.MembersOf(st.memberships, tripId);
    var ms := Seqs.Filter(trip, WithUser(st.users));
    assert forall i | 0 <= i < |ms| :: ms[i] in st.memberships && ms[i].tripId == tripId && HasUser(st.users, ms[i].userId);
    Joined(ms, st.users)
  }

  /** Each membership with its user included, as Prisma's `include` gives it. */
  function Joined(ms: seq<Membership>, users: seq<User>): (members: seq<TripMember>)
    requires forall i | 0 <= i < |ms| :: HasUser(users, ms[i].userId)
    ensures |members| == |ms|
    ensures forall i | 0 <= i < |ms| ::
      members[i].role == ms[i].role && members[i].user in users && members[i].user.id == ms[i].userId
  {
    seq(|ms|, i requires 0 <= i < |ms| => TripMember(ms[i].role, FindUser(users, ms[i].userId).value))
  }

  /** A membership of the trip whose user exists survives both filters. */
  lemma ListedMembership(st: Store, tripId: Id, m: Membership)
    requires m in st.memberships && m.tripId == tripId && HasUser(st.users, m.userId)
    ensures m in Seqs.Filter(TripRoutes.MembersOf(st.memberships, tripId), WithUser(st.users))
  {
    var trip := TripRoutes.MembersOf(st.memberships, tripId);
    var k :| 0 <= k < |st.memberships| && st.memberships[k] == m;
    assert TripRoutes.InTrip(tripId)(st.memberships[k]);
    var j :| 0 <= j < |trip| && trip[j] == m;
    assert WithUser(st.users)(trip[j]);
  }

  /** The converse: every membership of the trip whose user exists is on the
      page, with its role and its user. */
  lemma PageMembersComplete(st: Store, tripId: Id, m: Membership)
    requires m in st.memberships && m.tripId == tripId && HasUser(st.users, m.userId)
    ensures exists i | 0 <= i < |PageMembers(st, tripId)| ::
      PageMembers(st, tripId)[i].role == m.role && PageMembers(st, tripId)[i].user.id == m.userId
  {
    var ms := Seqs.Filter(TripRoutes.MembersOf(st.memberships, tripId), WithUser(st.users));
    ListedMembership(st, tripId, m);
    var i :| 0 <= i < |ms| && ms[i] == m;
    assert PageMembers(st, tripId)[i].role == m.role && PageMembers(st, tripId)[i].user.id == m.userId;
  }

  /** `trip.members.find(m => m.role === 'OWNER')?.user`: the user of the
      first OWNER member, or `undefined` when there is none. */
  function TripOwner(members: seq<TripMember>): (o: Option<User>)
    ensures o.None? <==> forall i | 0 <= i < |members| :: members[i].role != Owner
    ensures o.Some? ==> exists i | 0 <= i < |members| ::
      && members[i].role == Owner && members[i].user == o.value
      && forall j | 0 <= j < i :: members[j].role != Owner
  {
    if |members| == 0 then None
    else if members[0].role == Owner then Some(members[0].user)
    else
      var o := TripOwner(members[1..]);
      assert o.Some? ==> exists i | 0 <= i < |members| ::
        && members[i].role == Owner && members[i].user == o.value
        && forall j | 0 <= j < i :: members[j].role != Owner
      by {
        if o.Some? {
          var i :| 0 <= i < |members[1..]| && members[1..][i].role == Owner && members[1..][i].user == o.value
            && forall j | 0 <= j < i :: members[1..][j].role != Owner;
          assert forall j | 1 <= j < i + 1 :: members[j] == members[1..][j - 1];
        }
      }
      assert o.None? ==> forall i | 0 <= i < |members| :: members[i].role != Owner by {
        if o.None? {
          forall i | 0 <= i < |members| ensures members[i].role != Owner {
            if i > 0 { assert members[i] == members[1..][i - 1]; }
          }
        }
      }
      o
  }

  /** `session?.user?.id === owner?.id`, where `sessionId` is `None` while
      there is no session user. Two `undefined`s are equal, so a page with no
      owner counts everybody without a session as its owner. */
  function IsOwner(sessionId: Option<Id>, owner: Option<User>): (b: bool)
    ensures b <==> (sessionId.None? && owner.None?) ||
                   (sessionId.Some? && owner.Some? && sessionId.value == owner.value.id)
  {
    sessionId == (if owner.Some? then Some(owner.value.id) else None)
  }

  /** Whether the Delete Trip button and the invite dialog are rendered. */
  predicate OwnerControls(sessionId: Option<Id>, members: seq<TripMember>) {
    IsOwner(sessionId, TripOwner(members))
  }

  /** Right after a solo trip is created (under a fresh, non-empty id) its
      page shows the owner's controls to its creator and to no other
      signed-in user. Once the owner declines their own membership, which the
      decline route permits, the trip has no OWNER row and no signed-in user,
      the former owner included, gets the controls. (The page sends a visitor
      without a session to the login page, and it renders only for a member of
      the trip, so after the decline nobody can open the page at all; neither
      gate is part of `PageMembers`.) */
  lemma OwnerDeclineLeavesNoOwner(st: Store, userId: Id, other: Id, req: TripRoutes.TripRequest, tripId: Id, now: Timestamp)
    requires Valid(st) && !HasTrip(st.trips, tripId) && tripId != "" && other != userId
    ensures var r1 := TripRoutes.CreateTrip(st, Some(userId), Parsed(req), tripId, now);
      r1.status == 201 ==>
        && OwnerControls(Some(userId), PageMembers(r1.store, tripId))
        && !OwnerControls(Some(other), PageMembers(r1.store, tripId))
        && var r2 := InviteRoutes.DeclineInvite(r1.store, Some(userId), Parsed(InviteRoutes.InviteRequest(Str(tripId))));
           && r2.status == 200
           && TripOwner(PageMembers(r2.store, tripId)).None?
           && forall v: Id :: !OwnerControls(Some(v), PageMembers(r2.store, tripId))
  {
    var r1 := TripRoutes.CreateTrip(st, Some(userId), Parsed(req), tripId, now);
    if r1.status == 201 {
      var row := Membership(tripId, userId, Owner, Accepted, now);
      TripRoutes.SoloTripAtomic(st, Some(userId), Parsed(req), tripId, now);
      assert HasUser(r1.store.users, userId);
      PageOfOneRow(r1.store, tripId, row);
      SoleOwnerControls(FindUser(r1.store.users, userId).value, other);
      DeclineLastRow(r1.store, tripId, row);
      NoMembersControls();
    }
  }

  /** A page whose one member is its owner shows the controls to that owner
      and to no other signed-in user. */
  lemma SoleOwnerControls(owner: User, other: Id)
    requires other != owner.id
    ensures var members := [TripMember(Owner, owner)];
      && OwnerControls(Some(owner.id), members)
      && !OwnerControls(Some(other), members)
  {
    assert TripOwner([TripMember(Owner, owner)]) == Some(owner);
  }

  /** A page without members has no owner, and shows the controls to no
      signed-in user. */
  lemma NoMembersControls()
    ensures TripOwner([]).None?
    ensures forall v: Id :: !OwnerControls(Some(v), [])
  {
  }

  /** A trip whose only membership is `row`, with an existing user, shows that
      one member. */
  lemma PageOfOneRow(st: Store, tripId: Id, row: Membership)
    requires TripRoutes.MembersOf(st.memberships, tripId) == [row]
    requires HasUser(st.users, row.userId)
    ensures PageMembers(st, tripId) == [TripMember(row.role, FindUser(st.users, row.userId).value)]
  {
    assert Seqs.Filter([row], WithUser(st.users)) == [row] by {
      assert [row][1..] == [];
    }
  }

  /** Declining the only membership of a trip leaves it with none. */
  lemma DeclineLastRow(st: Store, tripId: Id, row: Membership)
    requires TripRoutes.MembersOf(st.memberships, tripId) == [row]
    ensures var r := InviteRoutes.DeclineInvite(st, Some(row.userId), Parsed(InviteRoutes.InviteRequest(Str(tripId))));
      row.userId != "" && tripId != "" ==> r.status == 200 && PageMembers(r.store, tripId) == []
  {
    var r := InviteRoutes.DeclineInvite(st, Some(row.userId), Parsed(InviteRoutes.InviteRequest(Str(tripId))));
    if row.userId != "" && tripId != "" {
      OnlyRowOfTrip(st.memberships, tripId, row);
      assert FindMembership(st.memberships, tripId, row.userId).Some? by {
        var k :| 0 <= k < |st.memberships| && st.memberships[k] == row;
        assert IsKey(st.memberships[k], tripId, row.userId);
      }
      var rest := RemoveMembership(st.memberships, tripId, row.userId);
      assert forall i | 0 <= i < |rest| :: !TripRoutes.InTrip(tripId)(rest[i]);
      Seqs.FilterKeepsNone(rest, TripRoutes.InTrip(tripId));
      assert Seqs.Filter([], WithUser(r.store.users)) == [];
    }
  }

  /** When a trip's memberships are `[row]`, `row` is in the table and is its
      every row of that trip. */
  lemma OnlyRowOfTrip(ms: seq<Membership>, tripId: Id, row: Membership)
    requires TripRoutes.MembersOf(ms, tripId) == [row]
    ensures row in ms && row.tripId == tripId
    ensures forall j | 0 <= j < |ms| :: ms[j].tripId == tripId ==> ms[j] == row
  {
    assert Seqs.Filter(ms, TripRoutes.InTrip(tripId))[0] == row;
    forall j | 0 <= j < |ms| && ms[j].tripId == tripId ensures ms[j] == row {
      assert TripRoutes.InTrip(tripId)(ms[j]);
      assert ms[j] in [row];
    }
  }

  // ---------------------------------------------------------------------
  // handleDeleteTrip

  datatype DeleteOutcome = GoToMyTrips | DeleteError(message: string)

  const FailedToDelete := "Failed to delete trip."

  /** Success navigates to /my-trips; a refusal shows the server's message, or
      'Failed to delete trip.' when it sent none. */
  function DeleteTrip(resp: Response): (o: DeleteOutcome)
    ensures o == GoToMyTrips <==> resp.Answered? && resp.ok
    ensures resp.Answered? && !resp.ok && Truthy(resp.message) ==> o == DeleteError(ToJsString(resp.message))
    ensures resp.Answered? && !resp.ok && !Truthy(resp.message) ==> o == DeleteError(FailedToDelete)
    ensures resp.Thrown? ==> o == DeleteError(resp.error)
  {
    match resp
    case Thrown(e) => DeleteError(e)
    case Answered(ok, message) =>
      if ok then GoToMyTrips else DeleteError(MessageOr(message, FailedToDelete))
  }

  /** Pressing Confirm in the delete dialog. The dialog exists only while the
      owner's controls are shown, so without them nothing is sent (`None`);
      with them the request's answer decides the outcome. */
  function ConfirmDelete(sessionId: Option<Id>, members: seq<TripMember>, resp: Response): (o: Option<DeleteOutcome>)
    ensures o.Some? <==> OwnerControls(sessionId, members)
    ensures o.Some? ==> (o.value == GoToMyTrips <==> resp.Answered? && resp.ok)
  {
    if OwnerControls(sessionId, members) then Some(DeleteTrip(resp)) else None
  }

  /** A signed-in user can send the delete request only as the trip's owner:
      the user of its first OWNER member. In particular no member can delete
      a trip without an OWNER row. */
  lemma OnlyOwnerCanDelete(v: Id, members: seq<TripMember>, resp: Response)
    ensures ConfirmDelete(Some(v), members, resp).Some? ==>
      exists i | 0 <= i < |members| ::
        && members[i].role == Owner && members[i].user.id == v
        && forall j | 0 <= j < i :: members[j].role != Owner
    ensures (forall i | 0 <= i < |members| :: members[i].role != Owner) ==>
      ConfirmDelete(Some(v), members, resp).None?
  {
  }
}

=== FILE: trip_form.dfy ===
/** The new-trip form: the start-date handler that keeps the dates in order,
    and the submit that saves a trip and then asks for suggestions for it. */
module TripForm {
  import opened Js
  import opened Text
  import opened Store
  import opened Itinerary
  import TripRoutes
  import Suggestions
  import opened Fetch

  /** The two date inputs, as the strings the inputs hold ("" when empty). */
  datatype Dates = Dates(startDate: string, endDate: string)

  /** `handleStartDateChange`: the start becomes the new value, and the end is
      cleared exactly when it is set and the new start is greater as a string.
      Afterwards the end is empty or not before the start. */
  function StartDateChange(d: Dates, newStart: string): (r: Dates)
    ensures r.startDate == newStart
    ensures r.endDate != d.endDate <==> d.endDate != "" && LexLess(d.endDate, newStart)
    ensures r.endDate == "" || r.endDate == d.endDate
    ensures r.endDate == "" || LexLessEq(r.startDate, r.endDate)
  {
    if d.endDate != "" && LexLess(d.endDate, newStart) then Dates(newStart, "")
    else
      LexTotal(newStart, d.endDate);
      Dates(newStart, d.endDate)
  }

  // ---------------------------------------------------------------------
  // handleSubmit

  /** What the form ends with: the suggestions shown (cleared at the start of
      every submit), the error toast, the `tripId` sent to the suggestions
      route if that request was made, and the database. */
  datatype SubmitResult = SubmitResult(
    suggestions: Option<SuggestionDoc>,
    error: Option<string>,
    suggestionsRequestedFor: Option<Value>,
    store: Store)

  /** `createdTrip.id`: `undefined` unless the body is a trip. */
  function CreatedId(b: Body): (v: Value)
    ensures b.TripBody? ==> v == Str(b.trip.id)
  {
    if b.TripBody? then Str(b.trip.id) else Undefined
  }

  /** The body the form posts to the trips route: the two dates and the
      budget, and no `name` or `destination`. `budget` is what
      `JSON.stringify` makes of `parseFloat(budget)`: a number, or `null` for
      `NaN`. `souvenirType` is sent too, but the route never reads it. */
  function TripPayload(d: Dates, budget: Value): (b: TripRoutes.TripRequest)
    ensures TripRoutes.MissingRequired(b)
    ensures b.travelStartDate == Str(d.startDate) && b.travelEndDate == Str(d.endDate) && b.budget == budget
  {
    TripRoutes.TripRequest(Undefined, Undefined, Str(d.startDate), Str(d.endDate), budget, Undefined)
  }

  /** The submit against the two routes, for a given trip body. The
      suggestions request is made only once the trip is saved, with the id of
      the trip the trips route returned. */
  function SubmitWith(
    st: Store, schema: Schema, session: Option<Id>, payload: TripRoutes.TripRequest, tripId: Id, now: Timestamp,
    generated: string, parse: string -> Option<SuggestionDoc>,
    geocode: string -> Suggestions.GeoResponse, newId: nat -> Id): (r: SubmitResult)
    ensures r.suggestionsRequestedFor.Some? <==>
      TripRoutes.CreateTrip(st, session, Parsed(payload), tripId, now).status == 201
    ensures r.suggestionsRequestedFor.Some? ==> r.suggestionsRequestedFor == Some(Str(tripId))
    ensures r.suggestionsRequestedFor.None? ==> r.store == st && r.error == Some("Failed to save trip.")
    ensures r.suggestions.Some? <==> r.error.None?
  {
    var r1 := TripRoutes.CreateTrip(st, session, Parsed(payload), tripId, now);
    if !Ok(r1.status) then SubmitResult(None, Some("Failed to save trip."), None, r1.store)
    else
      var id := CreatedId(r1.body);
      var r2 := Suggestions.GenerateSuggestions(
        r1.store, schema, session, Parsed(Suggestions.SuggestRequest(id)), generated, parse, geocode, newId);
      if Ok(r2.status) && r2.body.SuggestionBody? then SubmitResult(Some(r2.body.doc), None, Some(id), r2.store)
      else SubmitResult(None, Some("Failed to generate suggestions."), Some(id), r2.store)
  }

  /** `handleSubmit` as written: the trips route refuses the body, so the
      suggestions are never requested and nothing is written. */
  function Submit(
    st: Store, schema: Schema, session: Option<Id>, d: Dates, budget: Value, tripId: Id, now: Timestamp,
    generated: string, parse: string -> Option<SuggestionDoc>,
    geocode: string -> Suggestions.GeoResponse, newId: nat -> Id): (r: SubmitResult)
    ensures r.suggestionsRequestedFor.None? && r.store == st
  {
    SubmitWith(st, schema, session, TripPayload(d, budget), tripId, now, generated, parse, geocode, newId)
  }

  /** The trips route requires a name and a destination, which the form never
      sends: every submit is refused (401 without a session, 400 with one),
      ends in 'Failed to save trip.', requests no suggestions and writes
      nothing. */
  lemma SubmitNeverSavesTrip(
    st: Store, schema: Schema, session: Option<Id>, d: Dates, budget: Value, tripId: Id, now: Timestamp,
    generated: string, parse: string -> Option<SuggestionDoc>,
    geocode: string -> Suggestions.GeoResponse, newId: nat -> Id)
    ensures var r := Submit(st, schema, session, d, budget, tripId, now, generated, parse, geocode, newId);
      && r.error == Some("Failed to save trip.")
      && r.suggestions.None?
      && r.suggestionsRequestedFor.None?
      && r.store == st
  {
  }

  /** The body with the trip's name and destination included, as the trips
      route requires. */
  function TripPayloadCorrected(name: string, destination: string, d: Dates, budget: Value): (b: TripRoutes.TripRequest)
    ensures !TripRoutes.MissingRequired(b) <==> name != "" && destination != "" && d.startDate != "" && d.endDate != ""
    ensures b.name == Str(name) && b.destination == Str(destination)
    ensures b.travelStartDate == Str(d.startDate) && b.travelEndDate == Str(d.endDate) && b.budget == budget
  {
    TripRoutes.TripRequest(Str(name), Str(destination), Str(d.startDate), Str(d.endDate), budget, Undefined)
  }

  /** With name and destination sent, a signed-in user with every field
      filled in gets the trip saved under the generated id, and the
      suggestions are requested for that trip; they are shown exactly when
      the suggestions route answers 200, and they are its enriched
      proposals. */
  lemma SubmitCorrectedSavesTrip(
    st: Store, schema: Schema, session: Option<Id>, name: string, destination: string, d: Dates, budget: Value,
    tripId: Id, now: Timestamp,
    generated: string, parse: string -> Option<SuggestionDoc>,
    geocode: string -> Suggestions.GeoResponse, newId: nat -> Id)
    requires Valid(st) && Authed(session) && HasUser(st.users, session.value) && !HasTrip(st.trips, tripId)
    requires name != "" && destination != "" && d.startDate != "" && d.endDate != ""
    ensures var r := SubmitWith(st, schema, session, TripPayloadCorrected(name, destination, d, budget), tripId, now,
                                generated, parse, geocode, newId);
      && r.suggestionsRequestedFor == Some(Str(tripId))
      && HasTrip(r.store.trips, tripId)
      && (r.suggestions.Some? ==>
            && parse(Suggestions.StripFences(generated)).Some?
            && r.suggestions == Suggestions.Enrich(parse(Suggestions.StripFences(generated)).value, geocode))
  {
    var payload := TripPayloadCorrected(name, destination, d, budget);
    var r1 := TripRoutes.CreateTrip(st, session, Parsed(payload), tripId, now);
    assert r1.status == 201;
    assert r1.store.trips[|st.trips|].id == tripId;
    var r2 := Suggestions.GenerateSuggestions(
      r1.store, schema, session, Parsed(Suggestions.SuggestRequest(Str(tripId))), generated, parse, geocode, newId);
    assert r2.store.trips == r1.store.trips;
  }
}

=== FILE: trip_map.dfy ===
/** The trip map: the effect that flattens the stored suggestions into map
    locations and picks the centre, and the markers drawn for them. */
module TripMap {
  import opened Js
  import opened Store
  import opened Itinerary
  import Seqs
  import Suggestions

  /** One pushed location: `{ key, ...coords, name: locationName }`. */
  datatype Location = Location(key: string, lat: int, lng: int, name: Value)

  /** The location a slot contributes, if its `coords` is truthy; `tag` is the
      key suffix ("-m", "-a" or "-e"). */
  function SlotLocation(suggestionId: Id, tag: string, slot: Option<Activity>): (l: seq<Location>)
    ensures |l| <= 1
    ensures |l| == 1 <==> slot.Some? && CoordsTruthy(slot.value.coords)
    ensures |l| == 1 ==>
      l[0] == Location(suggestionId + tag, slot.value.coords.c.lat, slot.value.coords.c.lng, slot.value.locationName)
  {
    if slot.Some? && CoordsTruthy(slot.value.coords) then
      var c := slot.value.coords.c;
      [Location(suggestionId + tag, c.lat, c.lng, slot.value.locationName)]
    else []
  }

  /** Morning, afternoon and evening of one day, in that order. */
  function DayLocations(suggestionId: Id, d: Day): (l: seq<Location>)
    ensures |l| <= 3
  {
    SlotLocation(suggestionId, "-m", d.morning) +
    SlotLocation(suggestionId, "-a", d.afternoon) +
    SlotLocation(suggestionId, "-e", d.evening)
  }

  /** The days of one suggestion, in order. */
  function DaysLocations(suggestionId: Id, days: seq<Day>): (l: seq<Location>)
    ensures |l| <= 3 * |days|
  {
    if |days| == 0 then [] else DayLocations(suggestionId, days[0]) + DaysLocations(suggestionId, days[1..])
  }

  /** `allLocations`: suggestion by suggestion, day by day, slot by slot. */
  function AllLocations(suggestions: seq<Suggestion>): (l: seq<Location>)
    ensures |suggestions| == 0 ==> l == []
  {
    if |suggestions| == 0 then []
    else DaysLocations(suggestions[0].id, suggestions[0].itinerary) + AllLocations(suggestions[1..])
  }

  /** Number of slots of `d` with truthy `coords`. */
  function TruthySlots(d: Day): nat {
    (if d.morning.Some? && CoordsTruthy(d.morning.value.coords) then 1 else 0) +
    (if d.afternoon.Some? && CoordsTruthy(d.afternoon.value.coords) then 1 else 0) +
    (if d.evening.Some? && CoordsTruthy(d.evening.value.coords) then 1 else 0)
  }

  /** A day contributes one location per slot whose `coords` is truthy, so a
      slot whose geocoding failed (`coords: null`) or that is missing adds
      nothing. */
  lemma DayCountsTruthySlots(suggestionId: Id, d: Day)
    ensures |DayLocations(suggestionId, d)| == TruthySlots(d)
  {
  }

  /** The locations of several suggestions are those of each in turn: the
      order is suggestion first, then day, then slot. */
  lemma {:induction false} AllLocationsAppend(a: seq<Suggestion>, b: seq<Suggestion>)
    ensures AllLocations(a + b) == AllLocations(a) + AllLocations(b)
    decreases |a|
  {
    if |a| > 0 {
      assert (a + b)[1..] == a[1..] + b;
      AllLocationsAppend(a[1..], b);
    } else {
      assert a + b == b;
    }
  }

  /** `key` is `suggestionId` followed by "-m", "-a" or "-e". */
  predicate TaggedKey(suggestionId: Id, key: string) {
    key == suggestionId + "-m" || key == suggestionId + "-a" || key == suggestionId + "-e"
  }

  /** Every key is the suggestion's id followed by "-m", "-a" or "-e". */
  lemma {:induction false} DaysKeys(suggestionId: Id, days: seq<Day>)
    ensures forall i | 0 <= i < |DaysLocations(suggestionId, days)| ::
      TaggedKey(suggestionId, DaysLocations(suggestionId, days)[i].key)
    decreases |days|
  {
    if |days| > 0 {
      DaysKeys(suggestionId, days[1..]);
      var head: seq<Location> := DayLocations(suggestionId, days[0]);
      var tail: seq<Location> := DaysLocations(suggestionId, days[1..]);
      forall i: int | 0 <= i < |head + tail|
        ensures TaggedKey(suggestionId, (head + tail)[i].key)
      {
        if i >= |head| {
          assert (head + tail)[i] == tail[i - |head|];
        }
      }
    }
  }

  /** Two different locations of `l` have the key `key`. */
  predicate KeyRepeats(l: seq<Location>, key: string) {
    exists i, j | 0 <= i < j < |l| :: l[i].key == key && l[j].key == key
  }

  /** Keys are not unique: two days of one suggestion that both have a
      geocoded morning give two locations with the same key. */
  lemma KeysRepeatAcrossDays(s: Suggestion, d1: Day, d2: Day)
    requires s.itinerary == [d1, d2]
    requires d1.morning.Some? && CoordsTruthy(d1.morning.value.coords)
    requires d2.morning.Some? && CoordsTruthy(d2.morning.value.coords)
    ensures KeyRepeats(AllLocations([s]), s.id + "-m")
  {
    var l := AllLocations([s]);
    var l1 := DayLocations(s.id, d1);
    var l2 := DayLocations(s.id, d2);
    assert [s][1..] == [];
    assert [d1, d2][1..] == [d2];
    assert [d2][1..] == [];
    assert DaysLocations(s.id, [d2]) == l2 + DaysLocations(s.id, []);
    assert DaysLocations(s.id, [d1, d2]) == l1 + DaysLocations(s.id, [d2]);
    assert l == DaysLocations(s.id, [d1, d2]) + AllLocations([]);
    assert l == l1 + l2;
    var m1 := SlotLocation(s.id, "-m", d1.morning);
    var m2 := SlotLocation(s.id, "-m", d2.morning);
    assert |m1| == 1 && |m2| == 1;
    assert l1[0] == m1[0] && l2[0] == m2[0];
    assert l[0] == l1[0];
    assert l[|l1|] == l2[0];
    assert 0 < |l1| < |l|;
    var j := |l1|;
    assert l[0].key == l[j].key == s.id + "-m";
    assert KeyRepeats(l, s.id + "-m");
  }

  // ---------------------------------------------------------------------
  // Centre and markers

  /** `loc.lat && loc.lng` */
  predicate HasPosition(l: Location) {
    l.lat != 0 && l.lng != 0
  }

  /** `allLocations.find(loc => loc.lat && loc.lng)` */
  function FirstValid(locations: seq<Location>): (r: Option<Location>)
    ensures r.None? <==> forall i | 0 <= i < |locations| :: !HasPosition(locations[i])
    ensures r.Some? ==> exists i | 0 <= i < |locations| ::
      locations[i] == r.value && HasPosition(r.value) && forall j | 0 <= j < i :: !HasPosition(locations[j])
  {
    if |locations| == 0 then None
    else if HasPosition(locations[0]) then Some(locations[0])
    else
      var r := FirstValid(locations[1..]);
      assert r.Some? ==> exists i | 0 <= i < |locations| ::
        locations[i] == r.value && HasPosition(r.value) && forall j | 0 <= j < i :: !HasPosition(locations[j])
      by {
        if r.Some? {
          var i :| 0 <= i < |locations[1..]| && locations[1..][i] == r.value && HasPosition(r.value)
            && forall j | 0 <= j < i :: !HasPosition(locations[1..][j]);
          assert forall j | 1 <= j < i + 1 :: locations[j] == locations[1..][j - 1];
        }
      }
      assert r.None? ==> forall i | 0 <= i < |locations| :: !HasPosition(locations[i]) by {
        if r.None? {
          forall i | 0 <= i < |locations| ensures !HasPosition(locations[i]) {
            if i > 0 { assert locations[i] == locations[1..][i - 1]; }
          }
        }
      }
      r
  }

  /** The centre after the effect: the position of the first location with a
      truthy latitude and longitude, or the centre it had before (initially
      Marrakech) when there is none. */
  function Centre(suggestions: seq<Suggestion>, previous: Coord): (c: Coord)
    ensures (forall i | 0 <= i < |AllLocations(suggestions)| :: !HasPosition(AllLocations(suggestions)[i])) ==>
      c == previous
    ensures FirstValid(AllLocations(suggestions)).Some? ==>
      c == Coord(FirstValid(AllLocations(suggestions)).value.lat, FirstValid(AllLocations(suggestions)).value.lng)
  {
    var locations := AllLocations(suggestions);
    if |locations| > 0 then
      match FirstValid(locations)
      case Some(l) => Coord(l.lat, l.lng)
      case None => previous
    else previous
  }

  /** The markers drawn: the locations with a truthy latitude and longitude,
      in order. */
  function Markers(locations: seq<Location>): (m: seq<Location>)
    ensures forall i | 0 <= i < |m| :: m[i] in locations && HasPosition(m[i])
    ensures forall i | 0 <= i < |locations| :: HasPosition(locations[i]) ==> locations[i] in m
  {
    Seqs.Filter(locations, (l: Location) => HasPosition(l))
  }

  /** A map of suggestions whose every slot was geocoded to a non-zero
      position shows three markers per day. */
  lemma {:induction false} FullyGeocodedDays(suggestionId: Id, days: seq<Day>)
    requires forall k | 0 <= k < |days| ::
      && days[k].morning.Some? && days[k].morning.value.coords.At?
      && days[k].afternoon.Some? && days[k].afternoon.value.coords.At?
      && days[k].evening.Some? && days[k].evening.value.coords.At?
    ensures |DaysLocations(suggestionId, days)| == 3 * |days|
    decreases |days|
  {
    if |days| > 0 {
      FullyGeocodedDays(suggestionId, days[1..]);
    }
  }

  // ---------------------------------------------------------------------
  // What an enriched day puts on the map

  /** 1 when the geocoding reply for the activity's place gives a position. */
  function Geocoded(a: Activity, geocode: string -> Suggestions.GeoResponse): nat {
    var resp := geocode(Suggestions.Address(a.locationName));
    if resp.GeoReply? && resp.status == "OK" && |resp.results| > 0 then 1 else 0
  }

  /** A day as the suggestions route stores it puts one location on the map
      for each of its activities whose place the geocoding service found, at
      the first result's position. */
  lemma EnrichedDayOnMap(suggestionId: Id, d: Day, geocode: string -> Suggestions.GeoResponse)
    requires Suggestions.Complete(d)
    ensures var l := DayLocations(suggestionId, Suggestions.EnrichDay(d, geocode));
      && |l| == Geocoded(d.morning.value, geocode) + Geocoded(d.afternoon.value, geocode) + Geocoded(d.evening.value, geocode)
      && (Geocoded(d.morning.value, geocode) == 1 ==>
            var c := geocode(Suggestions.Address(d.morning.value.locationName)).results[0];
            l[0] == Location(suggestionId + "-m", c.lat, c.lng, d.morning.value.locationName))
  {
    var e := Suggestions.EnrichDay(d, geocode);
    DayCountsTruthySlots(suggestionId, e);
  }

  /** When no activity has truthy `coords` (the geocoding service found no
      place, or has no API key) the map has no locations and its centre stays
      where it was. */
  lemma {:induction false} NothingGeocodedNothingShown(suggestions: seq<Suggestion>, previous: Coord)
    requires forall k, j | 0 <= k < |suggestions| && 0 <= j < |suggestions[k].itinerary| ::
      TruthySlots(suggestions[k].itinerary[j]) == 0
    ensures AllLocations(suggestions) == []
    ensures Centre(suggestions, previous) == previous
    decreases |suggestions|
  {
    if |suggestions| > 0 {
      NoDayGeocoded(suggestions[0].id, suggestions[0].itinerary);
      NothingGeocodedNothingShown(suggestions[1..], previous);
    }
  }

  lemma {:induction false} NoDayGeocoded(suggestionId: Id, days: seq<Day>)
    requires forall j | 0 <= j < |days| :: TruthySlots(days[j]) == 0
    ensures DaysLocations(suggestionId, days) == []
    decreases |days|
  {
    if |days| > 0 {
      DayCountsTruthySlots(suggestionId, days[0]);
      NoDayGeocoded(suggestionId, days[1..]);
    }
  }
}

=== FILE: trips.dfy ===
/** `POST /api/trips` (a solo trip, one nested create) and
    `POST /api/group-trips` (a trip insert followed by a separate `createMany`
    of membership rows). */
module TripRoutes {
  import opened Js
  import opened Store
  import Seqs

  /** The fields both routes destructure from the request body. The solo route
      ignores `friendIds`. */
  datatype TripRequest = TripRequest(
    name: Value,
    destination: Value,
    travelStartDate: Value,
    travelEndDate: Value,
    budget: Value,
    friendIds: Value)

  const NotAuthenticated := Message("Not authenticated")
  const MissingFields := Message("Missing required fields")
  const SomethingWentWrong := Message("Something went wrong")

  /** `!name || !destination || !travelStartDate || !travelEndDate` */
  predicate MissingRequired(b: TripRequest) {
    !Truthy(b.name) || !Truthy(b.destination) || !Truthy(b.travelStartDate) || !Truthy(b.travelEndDate)
  }

  /** The trip row itself can be written: the two text columns receive strings
      and the generated id is not taken. Otherwise the ORM throws. */
  predicate TripInsertable(st: Store, b: TripRequest, tripId: Id) {
    b.name.Str? && b.destination.Str? && !HasTrip(st.trips, tripId)
  }

  /** The row `prisma.trip.create` writes; `budget ? parseFloat(budget) : null`. */
  function NewTrip(b: TripRequest, tripId: Id, now: Timestamp): (t: Trip)
    requires b.name.Str? && b.destination.Str?
    ensures t.budget.None? <==> !Truthy(b.budget)
    ensures t.id == tripId && t.name == b.name.s && t.destination == b.destination.s
  {
    Trip(tripId, b.name.s, b.destination.s, b.travelStartDate, b.travelEndDate,
         if Truthy(b.budget) then Some(b.budget) else None, now)
  }

  /** Only the trips and memberships tables differ. */
  predicate OtherTablesUnchanged(st: Store, st': Store) {
    && st'.users == st.users
    && st'.posts == st.posts
    && st'.comments == st.comments
    && st'.likes == st.likes
    && st'.friendRequests == st.friendRequests
    && st'.friendEdges == st.friendEdges
    && st'.rewards == st.rewards
    && st'.suggestions == st.suggestions
  }

  /** The memberships of one trip, in table order. */
  function MembersOf(ms: seq<Membership>, tripId: Id): seq<Membership> {
    Seqs.Filter(ms, InTrip(tripId))
  }

  function InTrip(tripId: Id): Membership -> bool {
    (m: Membership) => m.tripId == tripId
  }

  lemma {:induction false} MembersOfAppend(ms: seq<Membership>, extra: seq<Membership>, tripId: Id)
    requires forall i | 0 <= i < |ms| :: ms[i].tripId != tripId
    requires forall i | 0 <= i < |extra| :: extra[i].tripId == tripId
    ensures MembersOf(ms + extra, tripId) == extra
    decreases |ms| + |extra|
  {
    if |ms| > 0 {
      assert (ms + extra)[1..] == ms[1..] + extra;
      MembersOfAppend(ms[1..], extra, tripId);
    } else if |extra| > 0 {
      assert (ms + extra) == extra;
      assert extra[1..] == [] + extra[1..];
      MembersOfAppend([], extra[1..], tripId);
    }
  }

  /** With the foreign key in place no existing row mentions a trip id that no
      trip has. */
  lemma NoRowsForNewTrip(st: Store, tripId: Id)
    requires Valid(st)
    requires !HasTrip(st.trips, tripId)
    ensures forall i | 0 <= i < |st.memberships| :: st.memberships[i].tripId != tripId
  {
  }

  // ---------------------------------------------------------------------
  // POST /api/trips

  /** Creates a trip and, in the same nested create, the caller's OWNER
      membership with status ACCEPTED. `tripId` is the id the ORM generates
      and `now` the clock. */
  function CreateTrip(st: Store, session: Option<Id>, req: Request<TripRequest>, tripId: Id, now: Timestamp): (r: Reply)
    ensures r.status in {201, 400, 401, 500}
    ensures r.status == 401 <==> !Authed(session)
    ensures r.status == 400 <==> Authed(session) && req.Parsed? && MissingRequired(req.body)
    ensures r.status == 500 <==>
      Authed(session) &&
      (req.Malformed? ||
       (!MissingRequired(req.body) &&
        (!TripInsertable(st, req.body, tripId) || !HasUser(st.users, session.value))))
    ensures r.status != 201 ==> r.store == st
    ensures r.status == 201 ==>
      && req.Parsed? && r.body.TripBody?
      && r.body.trip.id == tripId
      && r.body.trip.name == req.body.name.s
      && r.body.trip.destination == req.body.destination.s
      && (r.body.trip.budget.None? <==> !Truthy(req.body.budget))
      && r.store.trips == st.trips + [r.body.trip]
      && r.store.memberships == st.memberships + [Membership(tripId, session.value, Owner, Accepted, now)]
      && OtherTablesUnchanged(st, r.store)
    ensures Valid(st) ==> Valid(r.store)
  {
    if !Authed(session) then Reply(401, NotAuthenticated, st)
    else match req
      case Malformed => Reply(500, SomethingWentWrong, st)
      case Parsed(b) =>
        if MissingRequired(b) then Reply(400, MissingFields, st)
        else if !TripInsertable(st, b, tripId) || !HasUser(st.users, session.value) then
          Reply(500, SomethingWentWrong, st)
        else
          var trip := NewTrip(b, tripId, now);
          var owner := Membership(tripId, session.value, Owner, Accepted, now);
          var st1 := InsertTrip(st, b, tripId, now);
          var st' := st1.(memberships := st.memberships + [owner]);
          assert Valid(st) ==> Valid(st') by {
            if Valid(st) {
              NoRowsForNewTrip(st, tripId);
              assert st1.trips[|st.trips|].id == tripId;
              FirstRowValid(st1, owner);
            }
          }
          Reply(201, TripBody(trip), st')
  }

  /** The first membership of an existing trip, for an existing user, keeps
      the store valid. */
  lemma FirstRowValid(st: Store, row: Membership)
    requires Valid(st)
    requires HasTrip(st.trips, row.tripId) && HasUser(st.users, row.userId)
    requires forall i | 0 <= i < |st.memberships| :: st.memberships[i].tripId != row.tripId
    ensures Valid(st.(memberships := st.memberships + [row]))
  {
    var ms := st.memberships + [row];
    assert ms[|st.memberships|] == row;
    assert forall i | 0 <= i < |st.memberships| :: ms[i] == st.memberships[i];
  }

  /** The nested create is all or nothing: afterwards the trip exists exactly
      when it has a membership, and that membership is the caller's OWNER row. */
  lemma SoloTripAtomic(st: Store, session: Option<Id>, req: Request<TripRequest>, tripId: Id, now: Timestamp)
    requires Valid(st)
    requires !HasTrip(st.trips, tripId)
    ensures var r := CreateTrip(st, session, req, tripId, now);
      && (HasTrip(r.store.trips, tripId) <==> |MembersOf(r.store.memberships, tripId)| > 0)
      && (r.status == 201 ==> MembersOf(r.store.memberships, tripId) == [Membership(tripId, session.value, Owner, Accepted, now)])
  {
    var r := CreateTrip(st, session, req, tripId, now);
    NoRowsForNewTrip(st, tripId);
    if r.status == 201 {
      MembersOfAppend(st.memberships, [Membership(tripId, session.value, Owner, Accepted, now)], tripId);
      assert r.store.trips[|st.trips|].id == tripId;
    } else {
      MembersOfAppend(st.memberships, [], tripId);
      assert st.memberships + [] == st.memberships;
    }
  }

  // ---------------------------------------------------------------------
  // POST /api/group-trips

  /** One element of `membersToCreate`; no status is written. */
  datatype RowSpec = RowSpec(userId: Value, role: TripRole)

  /** `membersToCreate`: the caller as OWNER, then one MEMBER row per element of
      `friendIds` in order, when `friendIds` is an array; no de-duplication. */
  function RequestedRows(callerId: Id, friendIds: Value): (rows: seq<RowSpec>)
    ensures |rows| == 1 + (if friendIds.Arr? then |friendIds.items| else 0)
    ensures rows[0] == RowSpec(Str(callerId), Owner)
    ensures friendIds.Arr? ==>
      forall k | 0 <= k < |friendIds.items| :: rows[k + 1] == RowSpec(friendIds.items[k], Member)
  {
    var friends := if friendIds.Arr? then friendIds.items else [];
    [RowSpec(Str(callerId), Owner)] + seq(|friends|, k requires 0 <= k < |friends| => RowSpec(friends[k], Member))
  }

  /** `createMany` succeeds: every user id is a string naming an existing
      user, no two rows share a user, and no row for the pair exists yet. */
  predicate RowsInsertable(st: Store, tripId: Id, rows: seq<RowSpec>) {
    && (forall k | 0 <= k < |rows| :: rows[k].userId.Str? && HasUser(st.users, rows[k].userId.s))
    && (forall k, l | 0 <= k < l < |rows| :: rows[k].userId != rows[l].userId)
    && (forall k | 0 <= k < |rows| :: FindMembership(st.memberships, tripId, rows[k].userId.s).None?)
  }

  /** The rows `createMany` writes: each takes the column default status. */
  function RowsToMemberships(tripId: Id, rows: seq<RowSpec>, default: MembershipStatus, now: Timestamp): (ms: seq<Membership>)
    requires forall k | 0 <= k < |rows| :: rows[k].userId.Str?
    ensures |ms| == |rows|
    ensures forall k | 0 <= k < |rows| :: ms[k] == Membership(tripId, rows[k].userId.s, rows[k].role, default, now)
  {
    seq(|rows|, k requires 0 <= k < |rows| => Membership(tripId, rows[k].userId.s, rows[k].role, default, now))
  }

  /** First write of the group route: the bare trip, with no memberships. */
  function InsertTrip(st: Store, b: TripRequest, tripId: Id, now: Timestamp): (st': Store)
    requires TripInsertable(st, b, tripId)
    ensures st'.trips == st.trips + [NewTrip(b, tripId, now)]
    ensures st'.memberships == st.memberships && OtherTablesUnchanged(st, st')
    ensures Valid(st) ==> Valid(st')
  {
    var st' := st.(trips := st.trips + [NewTrip(b, tripId, now)]);
    assert Valid(st) ==> Valid(st') by {
      if Valid(st) {
        forall i | 0 <= i < |st.memberships| ensures HasTrip(st'.trips, st.memberships[i].tripId) {
          assert HasTrip(st.trips, st.memberships[i].tripId);
          var k :| 0 <= k < |st.trips| && st.trips[k].id == st.memberships[i].tripId;
          assert st'.trips[k] == st.trips[k];
        }
        forall i | 0 <= i < |st.suggestions| ensures HasTrip(st'.trips, st.suggestions[i].tripId) {
          assert HasTrip(st.trips, st.suggestions[i].tripId);
          var k :| 0 <= k < |st.trips| && st.trips[k].id == st.suggestions[i].tripId;
          assert st'.trips[k] == st.trips[k];
        }
      }
    }
    st'
  }

  /** Second write of the group route, `createMany`: all rows or none. */
  function InsertMembers(st: Store, tripId: Id, rows: seq<RowSpec>, default: MembershipStatus, now: Timestamp): (r: Option<Store>)
    ensures r.Some? <==> RowsInsertable(st, tripId, rows)
    ensures r.Some? ==>
      && r.value.memberships == st.memberships + RowsToMemberships(tripId, rows, default, now)
      && r.value.trips == st.trips && OtherTablesUnchanged(st, r.value)
    ensures r.Some? && Valid(st) && HasTrip(st.trips, tripId) ==> Valid(r.value)
  {
    if !RowsInsertable(st, tripId, rows) then None
    else
      var added := RowsToMemberships(tripId, rows, default, now);
      var st' := st.(memberships := st.memberships + added);
      assert Valid(st) && HasTrip(st.trips, tripId) ==> Valid(st') by {
        if Valid(st) && HasTrip(st.trips, tripId) {
          AddedKeysUnique(st, tripId, rows, added);
          AddedRowsReferenced(st, tripId, rows, added);
        }
      }
      Some(st')
  }

  /** Rows with distinct users and no existing membership of the trip keep
      the membership keys unique. */
  lemma AddedKeysUnique(st: Store, tripId: Id, rows: seq<RowSpec>, added: seq<Membership>)
    requires UniqueMemberKeys(st.memberships) && RowsInsertable(st, tripId, rows)
    requires |added| == |rows|
    requires forall k | 0 <= k < |rows| :: added[k].tripId == tripId && added[k].userId == rows[k].userId.s
    ensures UniqueMemberKeys(st.memberships + added)
  {
    var ms' := st.memberships + added;
    var n := |st.memberships|;
    forall i, j | 0 <= i < j < |ms'| ensures !IsKey(ms'[j], ms'[i].tripId, ms'[i].userId) {
      if j >= n {
        var l := j - n;
        assert ms'[j] == added[l];
        if i >= n {
          assert ms'[i] == added[i - n];
          assert rows[i - n].userId != rows[l].userId;
        } else {
          assert FindMembership(st.memberships, tripId, rows[l].userId.s).None?;
          assert !IsKey(st.memberships[i], tripId, rows[l].userId.s);
        }
      }
    }
  }

  /** Rows of an existing trip for existing users keep the foreign keys
      valid. */
  lemma AddedRowsReferenced(st: Store, tripId: Id, rows: seq<RowSpec>, added: seq<Membership>)
    requires References(st) && HasTrip(st.trips, tripId) && RowsInsertable(st, tripId, rows)
    requires |added| == |rows|
    requires forall k | 0 <= k < |rows| :: added[k].tripId == tripId && added[k].userId == rows[k].userId.s
    ensures References(st.(memberships := st.memberships + added))
  {
    var ms' := st.memberships + added;
    var n := |st.memberships|;
    forall i | 0 <= i < |ms'| ensures HasTrip(st.trips, ms'[i].tripId) && HasUser(st.users, ms'[i].userId) {
      if i >= n {
        assert ms'[i] == added[i - n];
      }
    }
  }

  /** The handler: validation as in the solo route, then the trip insert, then
      `createMany`. `default` is the schema's default membership status, which
      every row receives, the owner's included. If `createMany` fails the trip
      stays behind with no memberships and the answer is 500. */
  function CreateGroupTrip(
    st: Store, session: Option<Id>, req: Request<TripRequest>,
    tripId: Id, now: Timestamp, default: MembershipStatus): (r: Reply)
    ensures r.status in {201, 400, 401, 500}
    ensures r.status == 401 <==> !Authed(session)
    ensures r.status == 400 <==> Authed(session) && req.Parsed? && MissingRequired(req.body)
    ensures r.status in {400, 401} ==> r.store == st
    ensures Authed(session) && req.Malformed? ==> r.status == 500 && r.store == st
    ensures Authed(session) && req.Parsed? && !MissingRequired(req.body) && TripInsertable(st, req.body, tripId) ==>
      var trip := NewTrip(req.body, tripId, now);
      var rows := RequestedRows(session.value, req.body.friendIds);
      && r.store.trips == st.trips + [trip]
      && OtherTablesUnchanged(st, r.store)
      && (r.status == 201 <==> RowsInsertable(st, tripId, rows))
      && (r.status == 201 ==>
            r.body == TripBody(trip) &&
            r.store.memberships == st.memberships + RowsToMemberships(tripId, rows, default, now))
      && (r.status == 500 ==> r.store.memberships == st.memberships)
    ensures Authed(session) && req.Parsed? && !MissingRequired(req.body) && !TripInsertable(st, req.body, tripId) ==>
      r.status == 500 && r.store == st
    ensures Valid(st) ==> Valid(r.store)
  {
    if !Authed(session) then Reply(401, NotAuthenticated, st)
    else match req
      case Malformed => Reply(500, SomethingWentWrong, st)
      case Parsed(b) =>
        if MissingRequired(b) then Reply(400, MissingFields, st)
        else if !TripInsertable(st, b, tripId) then Reply(500, SomethingWentWrong, st)
        else
          var st1 := InsertTrip(st, b, tripId, now);
          var rows := RequestedRows(session.value, b.friendIds);
          assert RowsInsertable(st1, tripId, rows) == RowsInsertable(st, tripId, rows);
          match InsertMembers(st1, tripId, rows, default, now)
          case None => Reply(500, SomethingWentWrong, st1)
          case Some(st2) =>
            assert HasTrip(st1.trips, tripId) by {
              assert st1.trips[|st.trips|].id == tripId;
            }
            Reply(201, TripBody(NewTrip(b, tripId, now)), st2)
  }

  /** Every row the group route writes carries the same status, the column
      default, because none is written explicitly; the solo route instead
      writes ACCEPTED for its owner. */
  lemma GroupRowsTakeDefault(
    st: Store, session: Option<Id>, req: Request<TripRequest>,
    tripId: Id, now: Timestamp, default: MembershipStatus)
    requires Valid(st)
    ensures var r := CreateGroupTrip(st, session, req, tripId, now, default);
      r.status == 201 ==>
        && |MembersOf(r.store.memberships, tripId)| == 1 + (if req.body.friendIds.Arr? then |req.body.friendIds.items| else 0)
        && MembersOf(r.store.memberships, tripId)[0] == Membership(tripId, session.value, Owner, default, now)
        && forall k | 0 <= k < |MembersOf(r.store.memberships, tripId)| ::
             MembersOf(r.store.memberships, tripId)[k].status == default
  {
    var r := CreateGroupTrip(st, session, req, tripId, now, default);
    if r.status == 201 {
      var rows := RequestedRows(session.value, req.body.friendIds);
      NoRowsForNewTrip(st, tripId);
      MembersOfAppend(st.memberships, RowsToMemberships(tripId, rows, default, now), tripId);
    }
  }

  /** No de-duplication: naming the caller among the friends, or one friend
      twice, makes `createMany` collide on (tripId, userId). The request ends in
      500 while the trip, already written, stays with no membership at all. */
  lemma GroupTripDuplicateLeavesOrphan(
    st: Store, session: Option<Id>, b: TripRequest,
    tripId: Id, now: Timestamp, default: MembershipStatus)
    requires Valid(st) && Authed(session) && !MissingRequired(b) && TripInsertable(st, b, tripId)
    requires b.friendIds.Arr?
    requires Str(session.value) in b.friendIds.items ||
             exists k, l | 0 <= k < l < |b.friendIds.items| :: b.friendIds.items[k] == b.friendIds.items[l]
    ensures var r := CreateGroupTrip(st, session, Parsed(b), tripId, now, default);
      && r.status == 500
      && HasTrip(r.store.trips, tripId)
      && MembersOf(r.store.memberships, tripId) == []
  {
    var r := CreateGroupTrip(st, session, Parsed(b), tripId, now, default);
    var rows := RequestedRows(session.value, b.friendIds);
    var items := b.friendIds.items;
    if Str(session.value) in items {
      var k :| 0 <= k < |items| && items[k] == Str(session.value);
      assert rows[0].userId == rows[k + 1].userId;
    } else {
      var k, l :| 0 <= k < l < |items| && items[k] == items[l];
      assert rows[k + 1].userId == rows[l + 1].userId;
    }
    assert !RowsInsertable(st, tripId, rows);
    assert r.store.trips[|st.trips|].id == tripId;
    NoRowsForNewTrip(st, tripId);
    MembersOfAppend(st.memberships, [], tripId);
    assert st.memberships + [] == st.memberships;
  }

  // ---------------------------------------------------------------------
  // The group route as evidently intended

  /** The group route written as one nested create, with the owner's status
      set to ACCEPTED explicitly, as the solo route does, and invitees PENDING. */
  function CreateGroupTripCorrected(st: Store, session: Option<Id>, req: Request<TripRequest>, tripId: Id, now: Timestamp): (r: Reply)
    ensures r.status in {201, 400, 401, 500}
    ensures r.status == 401 <==> !Authed(session)
    ensures r.status == 400 <==> Authed(session) && req.Parsed? && MissingRequired(req.body)
    ensures r.status == 201 <==>
      && Authed(session) && req.Parsed? && !MissingRequired(req.body) && TripInsertable(st, req.body, tripId)
      && RowsInsertable(st, tripId, RequestedRows(session.value, req.body.friendIds))
    ensures r.status != 201 ==> r.store == st
    ensures r.status == 201 ==>
      var rows := RequestedRows(session.value, req.body.friendIds);
      && r.body == TripBody(NewTrip(req.body, tripId, now))
      && r.store.memberships ==
           st.memberships + [Membership(tripId, session.value, Owner, Accepted, now)] + RowsToMemberships(tripId, rows[1..], Pending, now)
      && OtherTablesUnchanged(st, r.store)
    ensures r.status == 201 ==>
      && req.Parsed? && Authed(session) && TripInsertable(st, req.body, tripId)
      && r.store.trips == st.trips + [NewTrip(req.body, tripId, now)]
      && |r.store.memberships| > |st.memberships|
      && r.store.memberships[|st.memberships|] == Membership(tripId, session.value, Owner, Accepted, now)
      && forall i | |st.memberships| < i < |r.store.memberships| ::
           r.store.memberships[i].role == Member && r.store.memberships[i].status == Pending
    ensures Valid(st) ==> Valid(r.store)
  {
    if !Authed(session) then Reply(401, NotAuthenticated, st)
    else match req
      case Malformed => Reply(500, SomethingWentWrong, st)
      case Parsed(b) =>
        if MissingRequired(b) then Reply(400, MissingFields, st)
        else if !TripInsertable(st, b, tripId) then Reply(500, SomethingWentWrong, st)
        else
          var st1 := InsertTrip(st, b, tripId, now);
          var rows := RequestedRows(session.value, b.friendIds);
          assert RowsInsertable(st1, tripId, rows) == RowsInsertable(st, tripId, rows);
          if !RowsInsertable(st1, tripId, rows) then Reply(500, SomethingWentWrong, st)
          else
            var owner := Membership(tripId, session.value, Owner, Accepted, now);
            var invited := RowsToMemberships(tripId, rows[1..], Pending, now);
            match InsertMembers(st1, tripId, rows, Pending, now)
            case None => Reply(500, SomethingWentWrong, st)
            case Some(st2) =>
              var st3 := st2.(memberships := st.memberships + [owner] + invited);
              assert Valid(st) ==> Valid(st3) by {
                if Valid(st) {
                  assert HasTrip(st1.trips, tripId) by {
                    assert st1.trips[|st.trips|].id == tripId;
                  }
                  SameKeys(st, tripId, rows, owner, invited, now);
                  SameKeysValid(st2, st3.memberships);
                }
              }
              Reply(201, TripBody(NewTrip(b, tripId, now)), st3)
  }

  /** The corrected rows differ from those `createMany` writes only in their
      statuses. */
  lemma SameKeys(st: Store, tripId: Id, rows: seq<RowSpec>, owner: Membership, invited: seq<Membership>, now: Timestamp)
    requires |rows| >= 1 && forall k | 0 <= k < |rows| :: rows[k].userId.Str?
    requires rows[0].userId == Str(owner.userId) && owner.tripId == tripId
    requires invited == RowsToMemberships(tripId, rows[1..], Pending, now)
    ensures var added := RowsToMemberships(tripId, rows, Pending, now);
      var ms := st.memberships + [owner] + invited;
      var ms' := st.memberships + added;
      |ms| == |ms'| &&
      forall i | 0 <= i < |ms| :: ms[i].tripId == ms'[i].tripId && ms[i].userId == ms'[i].userId
  {
    var added := RowsToMemberships(tripId, rows, Pending, now);
    var ms := st.memberships + [owner] + invited;
    var ms' := st.memberships + added;
    var n := |st.memberships|;
    forall i | 0 <= i < |ms| ensures ms[i].tripId == ms'[i].tripId && ms[i].userId == ms'[i].userId {
      if i > n {
        assert ms[i] == invited[i - n - 1];
        assert ms'[i] == added[i - n];
        assert rows[1..][i - n - 1] == rows[i - n];
      }
    }
  }

  /** Replacing memberships by rows with the same keys, in the same places,
      keeps the store valid. */
  lemma SameKeysValid(st: Store, ms: seq<Membership>)
    requires Valid(st) && |ms| == |st.memberships|
    requires forall i | 0 <= i < |ms| :: ms[i].tripId == st.memberships[i].tripId && ms[i].userId == st.memberships[i].userId
    ensures Valid(st.(memberships := ms))
  {
    var st' := st.(memberships := ms);
    assert forall i, j | 0 <= i < j < |ms| :: !IsKey(ms[j], ms[i].tripId, ms[i].userId) by {
      forall i, j | 0 <= i < j < |ms| ensures !IsKey(ms[j], ms[i].tripId, ms[i].userId) {
        assert !IsKey(st.memberships[j], st.memberships[i].tripId, st.memberships[i].userId);
      }
    }
    assert forall i | 0 <= i < |ms| :: HasTrip(st'.trips, ms[i].tripId) && HasUser(st'.users, ms[i].userId) by {
      forall i | 0 <= i < |ms| ensures HasTrip(st'.trips, ms[i].tripId) && HasUser(st'.users, ms[i].userId) {
        assert HasTrip(st.trips, st.memberships[i].tripId) && HasUser(st.users, st.memberships[i].userId);
      }
    }
  }
}
